=== FILE: README.md ===
# pacman manifest generator, modelled in Dafny

XyrusWorx pacman turns a .NET project file into a NuGet manifest (`.nuspec`).
This project models the part of it that decides what the manifest says:

- **Semantic versions** (`SemVer`, `Versioning`): the version value and its
  constructors, precedence (`CompareTo`), equality, the `<`/`>` operators,
  the raise/declare helpers, `ToString` and the two copies of the parser.
  The Management copy needs three number groups. The Shell copy makes the
  patch optional. Each copy computes `CompatibleRange` its own way.
- **Version ranges** (`VersionRange`): the range value, its factories, its
  bracket notation and the range parser.
- **The XML node view** (`XmlDoc`, `XmlNodes`, `Grouping`): an element is
  read into a node that groups values and child nodes by name and
  namespace. Attributes and text-only children become values; the other
  children become nodes. Lookups never return null.
- **The package model and the manifest tree** (`Packages`, `Manifest`,
  `ManifestReadBack`): `PackageModel.WriteDefinition`, taken as the element
  tree it builds, and what the node view reads back from that tree.
- **Project definitions** (`RelativePath`, `ProjectDefinitions`,
  `MsBuildDefinition`):
  - the template's `Test` and `CreatePackage`;
  - `GetRelativePath`;
  - the SDK-style (MSBuild 15) definition: applicability, properties,
    items filtered by framework, metadata, and package and project
    references.
- **`ProjectController.Export`** (`ProjectController`): the probing loop
  over definitions and the one write it makes.
- **The legacy MSBuild 15 strategy** (`LegacyStrategy`): `IsApplicable`,
  `Process` and `CollectDependencies`.

Platform behaviour the code calls but does not contain is passed in as the
fields of a `Hosts.Host` value:

- `new Uri`, `CultureInfo.GetCultureInfo` and `System.Version.TryParse`;
- `Path.GetFileNameWithoutExtension` and the current year;
- the two regular expressions that match `ItemGroup` conditions.

## Model

Source paths are relative to the repository root. Two files are named
`SemanticVersion.cs`: `XyrusWorx.Management.Common/…` is the Management
copy and `module-src/lib/XyrusWorx.Shell.Versioning/…` is the Shell copy.

| member | source | states |
|---|---|---|
| SemVer.Create | XyrusWorx.Management.Common/SemanticVersion.cs:24-48 | Construction succeeds exactly when the three numbers are non-negative and every pre-release and metadata identifier is a non-empty run of `[0-9A-Za-z-]`; the result then holds exactly the arguments. A negative major is reported first and bad metadata last. |
| SemVer.CreateTagged | XyrusWorx.Management.Common/SemanticVersion.cs:22-23 | An empty pre-release string means no pre-release identifier; any other string, even whitespace, is one identifier and is validated as such. |
| SemVer.CompareIdentifierZero | XyrusWorx.Management.Common/SemanticVersion.cs:222-249 | Two pre-release identifiers rank alike exactly when they are the same text or two digit strings with the same numeric value. |
| SemVer.ComparePreReleaseAntisymmetric | XyrusWorx.Management.Common/SemanticVersion.cs:222-249 | Swapping two equally long identifier lists negates the sign of their comparison. The model keeps only the sign of the ordinal comparison; see "## Left out". |
| SemVer.ComparePreReleaseLeTransitive | XyrusWorx.Management.Common/SemanticVersion.cs:222-249 | The identifier-list comparison is transitive. |
| SemVer.CompareToAntisymmetric | XyrusWorx.Management.Common/SemanticVersion.cs:195-252 | Swapping the operands of `CompareTo` negates the sign of the result. The model keeps only that sign; see "## Left out". |
| SemVer.CompareToReflexive | XyrusWorx.Management.Common/SemanticVersion.cs:195-252 | Every version ranks equal to itself. |
| SemVer.CompareToLeTransitive | XyrusWorx.Management.Common/SemanticVersion.cs:195-252 | "Ranks at or below" is transitive, so precedence is a total preorder. |
| SemVer.CompareToLtTransitive | XyrusWorx.Management.Common/SemanticVersion.cs:195-252 | A chain of at-or-below steps with one strict step ends strictly below. |
| SemVer.EqualsIsSameRank | XyrusWorx.Management.Common/SemanticVersion.cs:255-275 | Equal versions rank alike. The converse holds when no digit-only pre-release identifier has a leading zero. |
| SemVer.SameRankNotEqual | XyrusWorx.Management.Common/SemanticVersion.cs:255-275 | 1.0.0-01 and 1.0.0-1 are both constructible and rank alike, yet `Equals` says they differ. |
| SemVer.MetadataIgnored | XyrusWorx.Management.Common/SemanticVersion.cs:195-275 | Changing only the metadata changes neither precedence nor equality, as long as it does not change whether the version is empty. |
| SemVer.MetadataMakesNonEmpty | XyrusWorx.Management.Common/SemanticVersion.cs:54 | 0.0.0+build is not the empty version: it ranks above it and is not equal to it. |
| SemVer.OperatorsInverted | XyrusWorx.Management.Common/SemanticVersion.cs:185-192 | `a < b` holds exactly when `b > a`, which is exactly when `b` ranks below `a`. So 2.0.0 < 1.0.0 is true. |
| SemVer.PreReleaseBelowRelease | XyrusWorx.Management.Common/SemanticVersion.cs:195-252 | A pre-release ranks strictly below its release unless that release is the empty version. The empty version ranks below every other version. |
| SemVer.RaiseMajor | XyrusWorx.Management.Common/SemanticVersion.cs:65-68 | The result ranks strictly above the input, has no pre-release, keeps the metadata and stays constructible. |
| SemVer.RaiseMinor | XyrusWorx.Management.Common/SemanticVersion.cs:71-74 | The result keeps the major, drops the pre-release and ranks strictly above the input. |
| SemVer.RaisePatch | XyrusWorx.Management.Common/SemanticVersion.cs:77-80 | The result keeps major and minor, drops the pre-release and ranks strictly above the input. |
| SemVer.WithMetadata | XyrusWorx.Management.Common/SemanticVersion.cs:83-91 | An empty list is refused. Otherwise only the metadata is replaced, and the call succeeds whenever the identifiers are valid. |
| SemVer.WithMetadataTags | XyrusWorx.Management.Common/SemanticVersion.cs:94-102 | A blank first tag is refused. Otherwise the metadata becomes the tags in order. |
| SemVer.DeclarePreRelease | XyrusWorx.Management.Common/SemanticVersion.cs:105-113 | An empty list is refused. Otherwise only the pre-release list is replaced, and the result is never the empty version. |
| SemVer.DeclarePreReleaseTags | XyrusWorx.Management.Common/SemanticVersion.cs:116-124 | A blank first tag is refused. Otherwise the pre-release list becomes the tags in order and the metadata is kept. |
| SemVer.WithoutMetadata | XyrusWorx.Management.Common/SemanticVersion.cs:127-130 | The result keeps the pre-release and has no metadata. It equals the input except when the input is 0.0.0 with metadata only. |
| SemVer.DeclareFinal | XyrusWorx.Management.Common/SemanticVersion.cs:133-136 | The release never ranks below its pre-release, except when it collapses to the empty version. |
| SemVer.ToStringIsRender | XyrusWorx.Management.Common/SemanticVersion.cs:278-303 | The printed form is the three numbers joined by '.', then `-` and the pre-release identifiers joined by '.', then (when requested) `+` and the metadata. |
| SemVer.ParseRender | XyrusWorx.Management.Common/SemanticVersion.cs:316-336 | Parsing the printed form of a constructible version gives that version back, under either copy's grammar. |
| SemVer.ParseRenderTwoPart | module-src/lib/XyrusWorx.Shell.Versioning/SemanticVersion.cs:369-389 | With the patch optional, the form without a patch parses back to a version with patch 0. |
| SemVer.RenderParse | XyrusWorx.Management.Common/SemanticVersion.cs:316-336 | Every accepted string is constructible and is exactly its version's printed form. The Shell grammar also allows the two-number form. |
| Versioning.TryParse | XyrusWorx.Management.Common/SemanticVersion.cs:316-336 | Every parsed version is constructible. |
| Versioning.TryParseOrEmpty | XyrusWorx.Management.Common/SemanticVersion.cs:321-325 | A failed parse leaves the empty (default) version in the out-parameter. |
| Versioning.Parse | XyrusWorx.Management.Common/SemanticVersion.cs:306-314 | `Parse` succeeds exactly where `TryParse` does, with the same version; otherwise it throws. |
| Versioning.CompatibleRange | XyrusWorx.Management.Common/SemanticVersion.cs:139-145 | The Management range runs from major.minor.0 inclusive to (major+1).0.0 exclusive. The Shell range is `Any` for the empty version and keeps the pre-release on its lower bound. In both, an empty lower bound loses its inclusive flag. |
| Versioning.ManagementTryParseExact | XyrusWorx.Management.Common/SemanticVersion.cs:316-336 | The Management grammar accepts exactly the printed forms of constructible versions and returns that version. |
| Versioning.ShellTryParseExact | module-src/lib/XyrusWorx.Shell.Versioning/SemanticVersion.cs:369-389 | The Shell grammar accepts the same printed forms and, besides, the form without a patch, which reads as patch 0. |
| Versioning.ToStringOfParsed | XyrusWorx.Management.Common/SemanticVersion.cs:278-336 | Printing a parsed version reproduces the input, except for a Shell two-number input. |
| Versioning.ManagementWithinShell | module-src/lib/XyrusWorx.Shell.Versioning/SemanticVersion.cs:369-389 | Every string the Management grammar accepts, the Shell grammar accepts with the same result. |
| Versioning.ShellReadsTwoPart | module-src/lib/XyrusWorx.Shell.Versioning/SemanticVersion.cs:382 | "1.2" is read by the Shell grammar as 1.2.0. |
| Versioning.ManagementRefusesTwoPart | XyrusWorx.Management.Common/SemanticVersion.cs:318 | "1.2" is refused by the Management grammar. |
| Versioning.LeadingZeroRefused | XyrusWorx.Management.Common/SemanticVersion.cs:318 | "01.2.3" is refused by both grammars. |
| Versioning.ManagementZeroMinor | XyrusWorx.Management.Common/SemanticVersion.cs:139-145 | For any 0.0.x version, the empty one included, the Management range is everything below 1.0.0, printed "(,1.0.0)". |
| Versioning.ShellCompatibleShape | module-src/lib/XyrusWorx.Shell.Versioning/SemanticVersion.cs:150-161 | The Shell range is empty exactly for the empty version. A plain 0.0.x collapses to "below 1.0.0". |
| Versioning.ShellCompatibleAdmits | module-src/lib/XyrusWorx.Shell.Versioning/SemanticVersion.cs:150-161 | A Shell version always lies inside its own compatible range. |
| Versioning.ManagementCompatibleAdmits | XyrusWorx.Management.Common/SemanticVersion.cs:139-145 | A Management version lies outside its own compatible range exactly when it is an x.y.0 pre-release outside 0.0: the range drops the pre-release. |
| VersionRange.Exactly | XyrusWorx.Management.Common/SemanticVersionRange.cs:33-41 | An empty version gives `Any`; any other version gives an exact range with both bounds inclusive. |
| VersionRange.AtLeast | XyrusWorx.Management.Common/SemanticVersionRange.cs:42-59 | An empty version gives `Any`; any other version gives a lower bound only, with the requested flag. |
| VersionRange.Until | XyrusWorx.Management.Common/SemanticVersionRange.cs:60-77 | An empty version gives `Any`; any other version gives an upper bound only, with the requested flag. |
| VersionRange.Between | XyrusWorx.Management.Common/SemanticVersionRange.cs:78-153 | Both bounds are kept. A flag survives only on a bound that is not the empty version. |
| VersionRange.BetweenIncluding | XyrusWorx.Management.Common/SemanticVersionRange.cs:78-96 | Each bound is inclusive exactly when it is not the empty version. |
| VersionRange.BetweenWithout | XyrusWorx.Management.Common/SemanticVersionRange.cs:97-115 | Both bounds are exclusive. |
| VersionRange.BetweenWithoutMinimumIncludingMaximum | XyrusWorx.Management.Common/SemanticVersionRange.cs:116-134 | The lower bound is exclusive. The upper bound is inclusive unless it is empty. |
| VersionRange.BetweenIncludingMinimumWithoutMaximum | XyrusWorx.Management.Common/SemanticVersionRange.cs:135-153 | The lower bound is inclusive unless it is empty. The upper bound is exclusive. |
| VersionRange.Parse | XyrusWorx.Management.Common/SemanticVersionRange.cs:226-234 | `Parse` succeeds exactly where `TryParse` does; otherwise it throws. |
| VersionRange.TryParsePlain | XyrusWorx.Management.Common/SemanticVersionRange.cs:235-303 | No parsed range has a pre-release or metadata on either bound. |
| VersionRange.PrintedUpper | XyrusWorx.Management.Common/SemanticVersionRange.cs:174-205 | A range with only an upper bound prints as `(,max)` or `(,max]`. |
| VersionRange.PrintedLower | XyrusWorx.Management.Common/SemanticVersionRange.cs:174-205 | A range with only a lower bound prints bare when the bound is inclusive, and as `(min,)` when it is exclusive. |
| VersionRange.PrintedEqual | XyrusWorx.Management.Common/SemanticVersionRange.cs:174-205 | A range with equal bounds prints as `[v]`, whatever its flags. |
| VersionRange.PrintedPair | XyrusWorx.Management.Common/SemanticVersionRange.cs:174-205 | A range with two distinct bounds prints each bound with the bracket its flag selects. |
| VersionRange.ParseAssembled | XyrusWorx.Management.Common/SemanticVersionRange.cs:237-248 | A string made of brackets and ','-separated pieces without delimiters is split back into exactly those brackets and pieces. |
| VersionRange.ParseUpperOnly | XyrusWorx.Management.Common/SemanticVersionRange.cs:268-299 | An upper-bound-only range reads back as itself. |
| VersionRange.ParseLowerInclusive | XyrusWorx.Management.Common/SemanticVersionRange.cs:256-266 | An inclusive lower-bound-only range prints as a bare version, which the parser refuses. |
| VersionRange.ParseLowerExclusive | XyrusWorx.Management.Common/SemanticVersionRange.cs:268-299 | An exclusive lower-bound-only range reads back as itself. |
| VersionRange.ParseEqualBounds | XyrusWorx.Management.Common/SemanticVersionRange.cs:256-266 | A range with equal bounds reads back as the exact range of that bound, whatever its flags were. |
| VersionRange.ParseTwoBounds | XyrusWorx.Management.Common/SemanticVersionRange.cs:268-299 | A range with two distinct plain bounds reads back as itself. |
| VersionRange.ToStringTryParse | module-src/lib/XyrusWorx.Shell.Versioning/SemanticVersionRange.cs:123-239 | Printing and re-parsing gives a range back exactly when both bounds are plain and the range has a shape the bracket notation can express. This holds for both copies' bound grammars. |
| XmlNodes.Placeholder | XyrusWorx.Management.Common/IO/XmlNode.cs:31-40 | The node for a missing child carries only the requested identifier and no namespace. |
| XmlNodes.Resolve | XyrusWorx.Management.Common/IO/XmlNode.cs:184-196 | A lookup namespace is never empty: the given one, else the node's own, else the default key. |
| XmlNodes.Build | XyrusWorx.Management.Common/IO/XmlNode.cs:41-92 | A built node is named after the element and lives in the element's namespace or the default key. Its text is the element's value. Its value and child maps have no repeated keys and no empty lists. |
| XmlNodes.ValueOf | XyrusWorx.Management.Common/IO/XmlNode.cs:117-120 | `Value(id)` is the first of `Values(id)`, or null when there are none. |
| XmlNodes.TextValue | XyrusWorx.Management.Common/IO/XmlNode.cs:111-114 | `Value()` is the node's text, or null when that text is blank. |
| XmlNodes.Child | XyrusWorx.Management.Common/IO/XmlNode.cs:147-150 | `Child` is the first matching child, or a placeholder carrying the requested identifier. |
| XmlNodes.ValuesInDocumentOrder | XyrusWorx.Management.Common/IO/XmlNode.cs:53-80 | The values under a key are the matching attributes in document order, then the matching text-only children in document order. None is overwritten. |
| XmlNodes.ChildrenInDocumentOrder | XyrusWorx.Management.Common/IO/XmlNode.cs:82-88 | The children under a key are the nodes of the matching non-leaf child elements, in document order. |
| XmlNodes.LeafBecomesValue | XyrusWorx.Management.Common/IO/XmlNode.cs:66-88 | Every child element becomes exactly one thing: a value when it has no attributes and no elements, otherwise a child node. |
| XmlNodes.PresentIffNonEmpty | XyrusWorx.Management.Common/IO/XmlNode.cs:101-108 | In a built node, `HasValue` and `HasChild` hold exactly when the keyed lookup is non-empty. |
| XmlNodes.ValueOfPrefersAttributes | XyrusWorx.Management.Common/IO/XmlNode.cs:53-80 | The first value under a key comes from an attribute when there is one, otherwise from the first text-only child element. |
| XmlNodes.UnqualifiedLookup | XyrusWorx.Management.Common/IO/XmlNode.cs:164-196 | An unqualified lookup reads the node's own namespace, which is also where unqualified names were filed. |
| XmlNodes.PlaceholderIsEmpty | XyrusWorx.Management.Common/IO/XmlNode.cs:31-40 | A placeholder answers every lookup with nothing and every child request with another placeholder. |
| XmlNodes.ChildOrPlaceholder | XyrusWorx.Management.Common/IO/XmlNode.cs:147-150 | A missing child is answered by the placeholder. A present child is one of the node's children. |
| XmlNodes.ValuesInAgrees | XyrusWorx.Management.Common/IO/XmlNode.cs:123-144 | `Values(namespace)` holds exactly the names that have values there, each with the list the keyed lookup returns, and never an empty list. |
| XmlNodes.AllChildrenComplete | XyrusWorx.Management.Common/IO/XmlNode.cs:153-156 | `Children()` holds every child node exactly once. |
| Grouping.GroupedLookup | XyrusWorx.Management.Common/IO/XmlNode.cs:53-88 | Each key's group holds exactly the values of the entries with that key, in entry order. |
| Grouping.GroupedWellFormed | XyrusWorx.Management.Common/IO/XmlNode.cs:53-88 | Grouping never repeats a key and never leaves a group empty. |
| Grouping.GroupedFlatten | XyrusWorx.Management.Common/IO/XmlNode.cs:53-88 | Grouping neither loses nor invents a value. |
| Grouping.GroupedKeys | XyrusWorx.Management.Common/ObjectModel/PackageModel.cs:136-140 | There is a group for exactly the keys that occur, in order of each key's first occurrence. |
| Grouping.LookupNonEmpty | XyrusWorx.Management.Common/IO/XmlNode.cs:101-108 | In a well-formed map, a key has a group exactly when it has values. |
| Wrappers.CollectAppend | XyrusWorx.Management.Pacman/Strategies/MSBuildVersion15ProjectDefinition.cs:64-107 | Collecting a concatenation collects its parts in order, so no yielded value is reordered, dropped or repeated. |
| Wrappers.CollectSingle | XyrusWorx.Management.Pacman/Strategies/MSBuildVersion15ProjectDefinition.cs:64-84 | One item yields its value once, or nothing. |
| Wrappers.CollectAllAppend | XyrusWorx.Management.Pacman/Strategies/MsBuild15PackagingStrategy.cs:170-211 | A loop of fallible steps over a concatenation runs over its parts in turn. The first part's error wins, then the second's, and otherwise the values follow each other in order. |
| Wrappers.CollectAllSingle | XyrusWorx.Management.Pacman/Strategies/MsBuild15PackagingStrategy.cs:172-211 | One step gives its error, or its value once, or nothing. |
| Packages.FolderKeysDistinct | XyrusWorx.Management.Common/ObjectModel/PackageLibFolder.cs:8 | Different package folders have different keys. |
| Packages.TargetSegments | XyrusWorx.Management.Common/ObjectModel/PackageModel.cs:191 | A target path is the folder key followed by the child segments. |
| Packages.NewPackageFile | XyrusWorx.Management.Common/ObjectModel/PackageFileModel.cs:12-26 | The constructor succeeds exactly for a non-blank pattern and a present folder; the pattern is checked first. |
| Packages.NewContentFile | XyrusWorx.Management.Common/ObjectModel/FileModel.cs:12-26 | The constructor succeeds exactly when both strings are non-blank; the pattern is checked first. |
| Packages.NewDependency | XyrusWorx.Management.Common/ObjectModel/DependencyModel.cs:10-13 | A new dependency allows any version and has no framework. |
| Packages.WithRange | XyrusWorx.Management.Common/ObjectModel/DependencyModel.cs:16 | Setting the version range changes nothing else. |
| Packages.WithFramework | XyrusWorx.Management.Common/ObjectModel/DependencyModel.cs:18-19 | Setting the target framework changes nothing else. |
| Packages.NewPackage | XyrusWorx.Management.Common/ObjectModel/PackageModel.cs:16-58 | A new package has its id, the empty version and no other data. |
| Manifest.WriteDefinition | XyrusWorx.Management.Common/ObjectModel/PackageModel.cs:67-74 | The manifest is a `package` element in the nuspec namespace holding exactly one `metadata` element. |
| Manifest.MetadataOrder | XyrusWorx.Management.Common/ObjectModel/PackageModel.cs:76-197 | The children of `metadata` are the emitted fields, each once, in the fixed order id, title, …, files. |
| Manifest.FieldOrderComplete | XyrusWorx.Management.Common/ObjectModel/PackageModel.cs:76-197 | The fixed order lists every field exactly once. |
| Manifest.FieldNameInjective | XyrusWorx.Management.Common/ObjectModel/PackageModel.cs:76-196 | Different fields have different element names. |
| Manifest.LicenseFollowedByAcceptance | XyrusWorx.Management.Common/ObjectModel/PackageModel.cs:113-117 | A license URL is always directly followed by `requireLicenseAcceptance` = "true". |
| Manifest.EveryDependencyOnce | XyrusWorx.Management.Common/ObjectModel/PackageModel.cs:134-179 | Every dependency is written exactly once: in its framework's group or in the untagged list. |
| Manifest.TaggedSelect | XyrusWorx.Management.Common/ObjectModel/PackageModel.cs:136-140 | The group of a non-blank framework holds the dependencies with exactly that framework, in order. |
| Manifest.DependencyGroups | XyrusWorx.Management.Common/ObjectModel/PackageModel.cs:136-161 | One group per distinct non-blank framework, in order of first appearance. Each group holds that framework's dependencies in their original order, and every tagged dependency has its group. |
| Manifest.DependencyVersionAttribute | XyrusWorx.Management.Common/ObjectModel/PackageModel.cs:149-157 | A dependency element carries its id, plus a `version` attribute holding the range text exactly when the range is not empty. |
| Manifest.DependenciesNotLeaf | XyrusWorx.Management.Common/ObjectModel/PackageModel.cs:134-182 | A package with dependencies writes a `dependencies` element with children. |
| ManifestReadBack.ReadBackText | XyrusWorx.Management.Common/ObjectModel/PackageModel.cs:76-132 | Read back through the node view, each text field holds its written text exactly when it is emitted, and nothing otherwise. |
| ManifestReadBack.ReadBackOptionalTexts | XyrusWorx.Management.Common/ObjectModel/PackageModel.cs:76-91 | Title, description and copyright come back exactly when they are neither null nor blank, and then unchanged. The id comes back as written unless it is blank, in which case it reads back as null. |
| ManifestReadBack.ReadBackVersion | XyrusWorx.Management.Common/ObjectModel/PackageModel.cs:93-96 | The version is written exactly when it is not empty, and what is written parses back to the same version. |
| ManifestReadBack.ReadBackLists | XyrusWorx.Management.Common/ObjectModel/PackageModel.cs:98-106 | Authors, owners and tags come back comma-joined when the list is not empty, and as nothing otherwise. |
| ManifestReadBack.ReadBackLicenseUrl | XyrusWorx.Management.Common/ObjectModel/PackageModel.cs:113-116 | A set license URL comes back as given unless it is blank, in which case it reads back as null. |
| ManifestReadBack.ReadBackLicenseFlag | XyrusWorx.Management.Common/ObjectModel/PackageModel.cs:113-117 | The license flag reads "true" exactly when a license URL is set. |
| ManifestReadBack.ReadBackDependency | XyrusWorx.Management.Common/ObjectModel/PackageModel.cs:149-157 | A dependency element reads back its id, and its range text exactly when the range is not empty. A plain range of a printable shape re-parses to itself. |
| ManifestReadBack.ReadBackFile | XyrusWorx.Management.Common/ObjectModel/PackageModel.cs:188-193 | A file element reads back its pattern and its target path: the folder key, then the child segments, joined by the separator. |
| RelativePath.Combine | XyrusWorx.Management.Common/ObjectModel/ProjectDefinition.cs:212-220 | An empty second part gives the first, and an empty first part or a rooted second part gives the second. The result always ends with the second part. |
| RelativePath.GetRelativePath | XyrusWorx.Management.Common/ObjectModel/ProjectDefinition.cs:168-173 | The call fails with a missing-argument error exactly when the path is null or blank. |
| RelativePath.AncestorLevelIsLeast | XyrusWorx.Management.Common/ObjectModel/ProjectDefinition.cs:183-195 | The level found is the least level whose joined base segments plus a separator prefix the file's directory, ignoring case. None is found exactly when no level is such a prefix. |
| RelativePath.NoAncestorOutcome | XyrusWorx.Management.Common/ObjectModel/ProjectDefinition.cs:197-210 | With no common ancestor, a path whose first segment has a drive colon is refused; any other path comes back unchanged. |
| RelativePath.LevelZeroOutcome | XyrusWorx.Management.Common/ObjectModel/ProjectDefinition.cs:212-220 | A file directory inside the base directory itself asks for -1 ".." segments, which throws. |
| RelativePath.AncestorOutcome | XyrusWorx.Management.Common/ObjectModel/ProjectDefinition.cs:212-220 | With the ancestor i ≥ 1 levels up, the result is i-1 ".." segments combined with the base directory's last i segments. The file's own segments below the ancestor play no part. |
| RelativePath.RelativePathUnchanged | XyrusWorx.Management.Common/ObjectModel/ProjectDefinition.cs:197-210 | For a base directory rooted by a leading separator or by a drive (`C:`), a relative path that starts with no separator and has no drive colon comes back unchanged. |
| RelativePath.FileInBase | XyrusWorx.Management.Common/ObjectModel/ProjectDefinition.cs:183-220 | A file directly in the base directory yields the base directory's last segment, whatever the file is called. |
| RelativePath.FileBelowBase | XyrusWorx.Management.Common/ObjectModel/ProjectDefinition.cs:183-220 | A file one directory below the base directory throws. |
| RelativePath.OtherDriveExample | XyrusWorx.Management.Common/ObjectModel/ProjectDefinition.cs:197-210 | `D:\x` relative to `C:\r` has no common ancestor and is refused. |
| ProjectDefinitions.Test | XyrusWorx.Management.Common/ObjectModel/ProjectDefinition.cs:52-67 | `Test` succeeds exactly when loading succeeds and the override accepts the loaded model. The first error wins. On success the loaded model is kept. |
| ProjectDefinitions.DefaultTestIsLoad | XyrusWorx.Management.Common/ObjectModel/ProjectDefinition.cs:124 | With the default override, `Test` is `Load`. |
| ProjectDefinitions.NonBlank | XyrusWorx.Management.Common/ObjectModel/ProjectDefinition.cs:152-166 | The kept items are the non-blank items, none lost and none invented. |
| ProjectDefinitions.IncludeItem | XyrusWorx.Management.Common/ObjectModel/ProjectDefinition.cs:152-166 | An item becomes an entry exactly when its relative path is computed and is non-blank. The entry has that path as its pattern, in the given folder. |
| ProjectDefinitions.IncludeEach | XyrusWorx.Management.Common/ObjectModel/ProjectDefinition.cs:152-166 | The loop succeeds exactly when every item is includable. It then yields one entry per item, in order. Its failures are exceptions, never reported errors. |
| ProjectDefinitions.Include | XyrusWorx.Management.Common/ObjectModel/ProjectDefinition.cs:152-166 | `Include` succeeds exactly when every non-blank item is includable. It yields one entry per non-blank item, all in the given folder. |
| ProjectDefinitions.IncludeRelative | XyrusWorx.Management.Common/ObjectModel/ProjectDefinition.cs:152-166 | For a base directory rooted by a leading separator or by a drive, and items that start with no separator and have no drive colon, every non-blank item becomes an entry with itself as pattern, in order. |
| ProjectDefinitions.FileGroups | XyrusWorx.Management.Common/ObjectModel/ProjectDefinition.cs:75-89 | The groups are the binaries under `lib\<framework>` for each non-blank framework (or under `lib` when there is none), then `src`, then `content`. |
| ProjectDefinitions.IncludeAll | XyrusWorx.Management.Common/ObjectModel/ProjectDefinition.cs:75-89 | Including all groups succeeds exactly when every group's inclusion does; a failure is never an override error. The entries, group by group in group order, are stated by IncludeAllAppend and IncludeAllSingle. |
| ProjectDefinitions.IncludeAllAppend | XyrusWorx.Management.Common/ObjectModel/ProjectDefinition.cs:75-89 | Including a concatenation of groups includes its parts in turn. The first failure wins, and otherwise the first part's entries come before the second part's. |
| ProjectDefinitions.IncludeAllSingle | XyrusWorx.Management.Common/ObjectModel/ProjectDefinition.cs:75-89 | A single group's entries are exactly what `Include` gives for it. |
| ProjectDefinitions.Draft | XyrusWorx.Management.Common/ObjectModel/ProjectDefinition.cs:68-89 | The draft is a new package with the project id as id and title, plus only the file entries. It is built exactly when every group is included, and its files are then the included entries of all groups, in group order (by IncludeAllAppend and IncludeAllSingle). |
| ProjectDefinitions.CreatePackage | XyrusWorx.Management.Common/ObjectModel/ProjectDefinition.cs:68-98 | The package fails without an override error exactly when some file group cannot be included. The override is called only once every group was included, on the draft with the project id as id and title and the included files of all groups in group order, and its outcome is the package or the override error. |
| ProjectDefinitions.IncludeAllOrdered | XyrusWorx.Management.Common/ObjectModel/ProjectDefinition.cs:75-89 | Groups whose folder kinds never go back give entries whose folder kinds never go back. |
| ProjectDefinitions.DraftOrdered | XyrusWorx.Management.Common/ObjectModel/ProjectDefinition.cs:75-89 | The draft lists its lib entries, then its src entries, then its content entries, and no other kind. |
| MsBuildDefinition.TestOverride | XyrusWorx.Management.Pacman/Strategies/MSBuildVersion15ProjectDefinition.cs:112-130 | The model is accepted exactly when its root is `Project` and its tools version is unparsed, empty, or not "below" 15.0.0 under the inverted `<`. |
| MsBuildDefinition.ToolsVersionGate | XyrusWorx.Management.Pacman/Strategies/MSBuildVersion15ProjectDefinition.cs:124 | A parsed tools version is refused exactly when it ranks strictly above 15.0.0: the check is inverted. |
| MsBuildDefinition.UnparsedToolsVersionAccepted | XyrusWorx.Management.Pacman/Strategies/MSBuildVersion15ProjectDefinition.cs:119-122 | A tools version the three-part grammar refuses is read as empty and accepted. |
| MsBuildDefinition.ClassicToolsVersionUnparsed | XyrusWorx.Management.Pacman/Strategies/MSBuildVersion15ProjectDefinition.cs:119 | "15.0" is such a version. |
| MsBuildDefinition.ValuesAcross | XyrusWorx.Management.Pacman/Strategies/MSBuildVersion15ProjectDefinition.cs:167-176 | The property values are the values of every group, group after group, and nothing else. |
| MsBuildDefinition.FirstProperty | XyrusWorx.Management.Pacman/Strategies/MSBuildVersion15ProjectDefinition.cs:21-33 | The first property value is null when no group holds the property. |
| MsBuildDefinition.ItemsAcross | XyrusWorx.Management.Pacman/Strategies/MSBuildVersion15ProjectDefinition.cs:177-199 | An item is yielded exactly when it is a `key` child of some `ItemGroup` that applies to the framework. Order and multiplicity are stated by ItemsAcrossAppend and ItemsAcrossSingle. |
| MsBuildDefinition.ItemsAcrossAppend | XyrusWorx.Management.Pacman/Strategies/MSBuildVersion15ProjectDefinition.cs:179-198 | The items of a run of groups are the items of its parts, in order: groups are read one after another, and nothing is dropped, repeated or reordered. |
| MsBuildDefinition.ItemsAcrossSingle | XyrusWorx.Management.Pacman/Strategies/MSBuildVersion15ProjectDefinition.cs:181-197 | One group yields all its `key` children in order when it applies, and nothing otherwise. |
| MsBuildDefinition.EmptyFrameworkTakesAll | XyrusWorx.Management.Pacman/Strategies/MSBuildVersion15ProjectDefinition.cs:183 | For the empty framework, every group contributes all its items in document order. |
| MsBuildDefinition.UnconditionalApplies | XyrusWorx.Management.Pacman/Strategies/MSBuildVersion15ProjectDefinition.cs:181-183 | A group without a condition, or with a blank one, always applies. |
| MsBuildDefinition.OtherFrameworkSkipped | XyrusWorx.Management.Pacman/Strategies/MSBuildVersion15ProjectDefinition.cs:185-190 | A condition that tests `$(TargetFramework)` against another framework hides the group. |
| MsBuildDefinition.Frameworks | XyrusWorx.Management.Pacman/Strategies/MSBuildVersion15ProjectDefinition.cs:132-141 | The frameworks are never an empty list. Joined with ';' they give back the property text, and none holds a ';'. Without the property they are the empty framework alone. |
| MsBuildDefinition.BinaryFiles | XyrusWorx.Management.Pacman/Strategies/MSBuildVersion15ProjectDefinition.cs:142-146 | A framework's binaries are its DLL pattern then its PDB pattern, prefixed by `<framework>\` unless the framework is blank. |
| MsBuildDefinition.SourceFiles | XyrusWorx.Management.Pacman/Strategies/MSBuildVersion15ProjectDefinition.cs:147-150 | The source pattern is the single `..\..\**\*.cs`. |
| MsBuildDefinition.TrySet | XyrusWorx.Management.Pacman/Strategies/MSBuildVersion15ProjectDefinition.cs:152-165 | A field takes the parsed value when the data is non-blank and parses, and otherwise keeps its value. |
| MsBuildDefinition.TrySetOpt | XyrusWorx.Management.Pacman/Strategies/MSBuildVersion15ProjectDefinition.cs:152-165 | An optional field either keeps its value or takes what the parser made of non-blank data. |
| MsBuildDefinition.ListProperty | XyrusWorx.Management.Pacman/Strategies/MSBuildVersion15ProjectDefinition.cs:25-40 | Only the first value of the property is used: nothing when it is blank, else its non-blank ','-pieces. |
| MsBuildDefinition.ListPropertyPieces | XyrusWorx.Management.Pacman/Strategies/MSBuildVersion15ProjectDefinition.cs:39-40 | Every author or owner is a non-blank, comma-free piece of the first property value. |
| MsBuildDefinition.Declared | XyrusWorx.Management.Pacman/Strategies/MSBuildVersion15ProjectDefinition.cs:48-51 | The pre-release is declared only on a non-empty version with a non-blank pre-release. The numbers are kept, and the version stays non-empty. |
| MsBuildDefinition.DeclaredIdempotent | XyrusWorx.Management.Pacman/Strategies/MSBuildVersion15ProjectDefinition.cs:95-100 | Declaring the same pre-release twice changes nothing, so the second declaration cannot throw. |
| MsBuildDefinition.WithMetadata | XyrusWorx.Management.Pacman/Strategies/MSBuildVersion15ProjectDefinition.cs:21-51 | Metadata fails only where the pre-release declaration throws. The title falls back to the id. Description and copyright are null when blank. Authors and owners are appended. The project, icon and license URLs and the culture go through TrySetOpt. Id, files, tags and dependencies are unchanged. |
| MsBuildDefinition.MetadataFieldsTrySet | XyrusWorx.Management.Pacman/Strategies/MSBuildVersion15ProjectDefinition.cs:42-46 | The project, icon and license URLs, the version and the culture each keep their value unless the property is non-blank and parses; then they take the parsed value. |
| MsBuildDefinition.PreReleaseOnlyWhenVersioned | XyrusWorx.Management.Pacman/Strategies/MSBuildVersion15ProjectDefinition.cs:48-51 | A pre-release is added only to a version the project declares, as its single identifier. |
| MsBuildDefinition.PackageReference | XyrusWorx.Management.Pacman/Strategies/MSBuildVersion15ProjectDefinition.cs:64-84 | An item with a non-blank `Include` becomes a dependency on that id, tagged with the framework. Its range is compatible with the parsed `Version`, or with the empty version. |
| MsBuildDefinition.ProjectReference | XyrusWorx.Management.Pacman/Strategies/MSBuildVersion15ProjectDefinition.cs:86-107 | An item with a non-blank `Include` becomes a dependency on the file's name without extension, at the range compatible with the package version. |
| MsBuildDefinition.FrameworkReferences | XyrusWorx.Management.Pacman/Strategies/MSBuildVersion15ProjectDefinition.cs:61-107 | A framework's dependency is exactly what one of its package or project reference items yields. Each one carries the framework's tag and the compatible range of some version. The package references come first, then the project references, each in item order with duplicates kept (order and count by Wrappers.CollectAppend and CollectSingle). |
| MsBuildDefinition.References | XyrusWorx.Management.Pacman/Strategies/MSBuildVersion15ProjectDefinition.cs:59-108 | A dependency is collected exactly when some framework's package or project references yield it. Each one carries that framework's tag and the compatible range of some version. Frameworks are handled in order, by ReferencesAppend. |
| MsBuildDefinition.ReferencesAppend | XyrusWorx.Management.Pacman/Strategies/MSBuildVersion15ProjectDefinition.cs:59-108 | The references of a list of frameworks are the references of its parts, in framework order. |
| MsBuildDefinition.CreatePackageOverride | XyrusWorx.Management.Pacman/Strategies/MSBuildVersion15ProjectDefinition.cs:19-111 | The override fails, always by raising, exactly where the metadata step does. Otherwise only the dependency list differs from the metadata step's package. It keeps the existing dependencies as a prefix. The appended list is exactly the frameworks' references, in framework order, each tagged with its framework and at a compatible range. |
| MsBuildDefinition.UnversionedPackageReference | XyrusWorx.Management.Pacman/Strategies/MSBuildVersion15ProjectDefinition.cs:74-82 | A package reference whose version is missing or does not parse gets the range printed "(,1.0.0)". |
| MsBuildDefinition.ProjectRangeIgnoresPreRelease | XyrusWorx.Management.Pacman/Strategies/MSBuildVersion15ProjectDefinition.cs:95-105 | Project references get the same range with or without a declared pre-release. |
| MsBuildDefinition.CreatePackage | XyrusWorx.Management.Common/ObjectModel/ProjectDefinition.cs:68-98 | Override failures are always raised exceptions. A built package has the project id, no tags, the included files of this definition's groups, and the `AssemblyTitle` property or else the id as title. The files themselves are stated by PackageFiles. |
| MsBuildDefinition.DraftLibEntries | XyrusWorx.Management.Pacman/Strategies/MSBuildVersion15ProjectDefinition.cs:142-146 | For a base directory rooted by a separator or a drive, the lib group of each non-empty framework yields `<framework>\*.dll` and `<framework>\*.pdb` under `lib\<framework>`, and the single lib group yields `*.dll` and `*.pdb` under `lib` when there is no such framework. |
| MsBuildDefinition.PackageFiles | XyrusWorx.Management.Common/ObjectModel/ProjectDefinition.cs:75-89 | For a base directory rooted by a separator or a drive, every group is included. A built package's files are the DLL and PDB entries of each non-empty framework in framework order, or the unprefixed pair in `lib` when there is none, then the single source pattern in `src`, and nothing else. |
| ProjectController.PackageKey | XyrusWorx.Management.Pacman/Controllers/ProjectController.cs:75 | The blob key is the package id followed by ".nuspec". |
| ProjectController.Probing | XyrusWorx.Management.Pacman/Controllers/ProjectController.cs:51-89 | The events follow the definitions in order, and the loop ends at the first export or at the end of the list. "Found" means some definition's `Test` succeeded. A throw names a definition that threw. |
| ProjectController.Export | XyrusWorx.Management.Pacman/Controllers/ProjectController.cs:40-43 | The call is refused with a missing-argument error exactly when the path is blank. |
| ProjectController.FirstDecisive | XyrusWorx.Management.Pacman/Controllers/ProjectController.cs:51-89 | The index found is the first definition that packages the project or throws. |
| ProjectController.ProbingStopsAtFirstDecisive | XyrusWorx.Management.Pacman/Controllers/ProjectController.cs:51-89 | The loop stops at the first definition that succeeds or throws. It writes the success and passes on the exception, and nothing earlier is exported. |
| ProjectController.AtMostOneExport | XyrusWorx.Management.Pacman/Controllers/ProjectController.cs:75-88 | At most one package is written per call, and only as the last event. |
| ProjectController.WarningIffNoneApplicable | XyrusWorx.Management.Pacman/Controllers/ProjectController.cs:91-94 | The closing warning appears exactly when no definition's `Test` succeeded. |
| ProjectController.ExportWritesFirstSuccess | XyrusWorx.Management.Pacman/Controllers/ProjectController.cs:65-88 | Without a throw, what is written is the first successful definition's package, under its id plus ".nuspec", in the given store or else the file's directory. |
| ProjectController.ExportThrows | XyrusWorx.Management.Pacman/Controllers/ProjectController.cs:68 | When the first decisive definition throws, `Export` ends with that exception. |
| LegacyStrategy.ToolsVersion | XyrusWorx.Management.Pacman/Strategies/MsBuild15PackagingStrategy.cs:149-154 | The tools version is the root's unqualified `ToolsVersion` attribute, or "" when it is absent. |
| LegacyStrategy.Open | XyrusWorx.Management.Pacman/Strategies/MsBuild15PackagingStrategy.cs:129-166 | An opened project is the document itself. |
| LegacyStrategy.ToolsVersionRule | XyrusWorx.Management.Pacman/Strategies/MsBuild15PackagingStrategy.cs:149-154 | A `Project` root whose `ToolsVersion` attribute (at any position) is `v` applies exactly when `v` is blank or exactly "15.0". 14.0, 15.0.0 and 16.0 are refused. |
| LegacyStrategy.MissingToolsVersionAccepted | XyrusWorx.Management.Pacman/Strategies/MsBuild15PackagingStrategy.cs:143-154 | Without a tools version, the root's name alone decides. |
| LegacyStrategy.FirstValue | XyrusWorx.Management.Pacman/Strategies/MsBuild15PackagingStrategy.cs:33-37 | A field is null exactly when no descendant has that name. Otherwise it is the value of the first such descendant in document order. |
| LegacyStrategy.FrameworksOf | XyrusWorx.Management.Pacman/Strategies/MsBuild15PackagingStrategy.cs:30 | Every framework is free of ';', and each element yields at least one. |
| LegacyStrategy.FrameworksKeepText | XyrusWorx.Management.Pacman/Strategies/MsBuild15PackagingStrategy.cs:30 | Joined with ';', the frameworks give back the elements' values joined with ';'. |
| LegacyStrategy.ValueList | XyrusWorx.Management.Pacman/Strategies/MsBuild15PackagingStrategy.cs:30 | One value per element, in order. |
| LegacyStrategy.WithYear | XyrusWorx.Management.Pacman/Strategies/MsBuild15PackagingStrategy.cs:35 | The copyright is null exactly when the notice is blank. |
| LegacyStrategy.WithFields | XyrusWorx.Management.Pacman/Strategies/MsBuild15PackagingStrategy.cs:33-102 | Title and description are set exactly when non-blank. Authors and owners gain the whole text, unsplit. Id, dependencies, files and tags are unchanged. |
| LegacyStrategy.VersionParsedOrKept | XyrusWorx.Management.Pacman/Strategies/MsBuild15PackagingStrategy.cs:39-50 | A version that is blank or does not parse leaves the version unchanged; one that parses replaces it. |
| LegacyStrategy.UrlsParsedOrKept | XyrusWorx.Management.Pacman/Strategies/MsBuild15PackagingStrategy.cs:52-89 | Each URL is replaced by its parsed form when it is non-blank and parses, and is otherwise unchanged. |
| LegacyStrategy.CultureParsedOrKept | XyrusWorx.Management.Pacman/Strategies/MsBuild15PackagingStrategy.cs:91-102 | The language is replaced by its culture when it is non-blank and known, and is otherwise unchanged. |
| LegacyStrategy.CopyrightWithoutPlaceholder | XyrusWorx.Management.Pacman/Strategies/MsBuild15PackagingStrategy.cs:35 | A notice without '$' is kept as written. |
| LegacyStrategy.YearSubstituted | XyrusWorx.Management.Pacman/Strategies/MsBuild15PackagingStrategy.cs:35 | A "$(Year)" becomes the year's decimal digits, and the text around it is kept. |
| LegacyStrategy.LibEntry | XyrusWorx.Management.Pacman/Strategies/MsBuild15PackagingStrategy.cs:104-110 | A framework's entry takes the framework-prefixed pattern into `lib\<framework>`. |
| LegacyStrategy.LibContents | XyrusWorx.Management.Pacman/Strategies/MsBuild15PackagingStrategy.cs:104-110 | Each framework gives its binaries entry, then its symbols entry, in framework order. |
| LegacyStrategy.Contents | XyrusWorx.Management.Pacman/Strategies/MsBuild15PackagingStrategy.cs:104-110 | The content entries are the lib entries, then the single sources entry. |
| LegacyStrategy.ContentsAccepted | XyrusWorx.Management.Pacman/Strategies/MsBuild15PackagingStrategy.cs:104-110 | Every entry passes the content constructor's checks, even for an empty framework, so adding them never throws. |
| LegacyStrategy.ReferencedVersion | XyrusWorx.Management.Pacman/Strategies/MsBuild15PackagingStrategy.cs:170-201 | A missing or blank version, or one that neither the strict grammar nor `System.Version` reads, is the empty version. A strictly parsed version is taken as parsed. Otherwise the result is the constructor's outcome on `System.Version`'s major, minor and build, which is the only way to fail. |
| LegacyStrategy.Versioned | XyrusWorx.Management.Pacman/Strategies/MsBuild15PackagingStrategy.cs:203-210 | An empty version gives a dependency on any version; any other version gives its compatible range. The dependency is never tagged. |
| LegacyStrategy.PackageReference | XyrusWorx.Management.Pacman/Strategies/MsBuild15PackagingStrategy.cs:170-211 | An item without a non-blank `Include` yields nothing. Otherwise it yields a dependency on the id at the referenced version's range, or that version's exception. |
| LegacyStrategy.PackageReferences | XyrusWorx.Management.Pacman/Strategies/MsBuild15PackagingStrategy.cs:170-211 | The loop succeeds exactly when no item throws, and then holds exactly the dependencies the items yield. Otherwise it fails with the first item's exception. Order and multiplicity are stated by PackageReferencesAppend and PackageReferencesSingle. |
| LegacyStrategy.PackageReferencesAppend | XyrusWorx.Management.Pacman/Strategies/MsBuild15PackagingStrategy.cs:170-211 | The loop over a concatenation of items runs over its parts in turn. The first part's exception wins, and otherwise the dependencies follow each other in document order. |
| LegacyStrategy.PackageReferencesSingle | XyrusWorx.Management.Pacman/Strategies/MsBuild15PackagingStrategy.cs:172-211 | One item yields its exception, or its dependency once, or nothing. |
| LegacyStrategy.ProjectReference | XyrusWorx.Management.Pacman/Strategies/MsBuild15PackagingStrategy.cs:213-231 | A project reference yields a dependency exactly when its path and file name are non-blank, and then one at the package's version. |
| LegacyStrategy.CollectDependencies | XyrusWorx.Management.Pacman/Strategies/MsBuild15PackagingStrategy.cs:168-232 | Collection fails exactly when a package reference throws, with the first exception. Otherwise every dependency is untagged, and every package reference's dependency and every project reference's `Versioned(file name, version)` is present. The package references form a prefix. The rest is one dependency per project reference with a file name, in document order, duplicates kept. |
| LegacyStrategy.MetadataRead | XyrusWorx.Management.Pacman/Strategies/MsBuild15PackagingStrategy.cs:39-102 | On a fresh package, the version is the strict parse of the first `VersionPrefix`, and the URLs and language are their parsers' results, each only where the text is non-blank and accepted. |
| LegacyStrategy.Process | XyrusWorx.Management.Pacman/Strategies/MsBuild15PackagingStrategy.cs:17-115 | A processed package is named after the file and has no file entries and no tags. Title, description, authors and owners come from the first element of each name. The copyright has the year substituted. The version is the strict parse of `VersionPrefix` or else empty, and the URLs and culture are their parsers' results or else null. The package has the contents of its frameworks and the collected dependencies at its own version. An applicable document fails exactly when collecting its dependencies throws, with that exception. Otherwise it is processed into exactly that metadata plus those dependencies. |
| LegacyStrategy.ProcessRefusesIffNotApplicable | XyrusWorx.Management.Pacman/Strategies/MsBuild15PackagingStrategy.cs:17-27 | `Process` refuses exactly the documents `IsApplicable` refuses. An applicable document fails only with a version exception. |
| LegacyStrategy.DependenciesUntagged | XyrusWorx.Management.Pacman/Strategies/MsBuild15PackagingStrategy.cs:168-232 | Every dependency of a processed package is untagged, with any range or a compatible range. |
| LegacyStrategy.ProjectReferencesFollowVersion | XyrusWorx.Management.Pacman/Strategies/MsBuild15PackagingStrategy.cs:213-231 | Each project reference becomes a dependency at the processed package's own version. |
| LegacyStrategy.TwoPartVersionThrows | XyrusWorx.Management.Pacman/Strategies/MsBuild15PackagingStrategy.cs:183-201 | A two-part version such as "1.2" is refused by the strict grammar and read by `System.Version` with build -1. It makes the constructor, and hence `Process`, throw. |

## Left out

- `Load`, `XmlLoader` and the XML parser. Documents are given as element trees; a load failure is an error value.
- The XML serialisation of `WriteDefinition`: `Save`, the `TextWriter` and escaping. The model stops at the element tree.
- Logging, at every level. It has no effect on results.
- Reflection-based discovery of the definition types and of strategies. `Export` receives the definitions' outcomes as an ordered list.
- The blob store is reduced to an "exported" event. `Erase` and `Open` on the store are not modelled separately.
- `Export` passes no pre-release to `CreatePackage`, so the model's `Export` takes the definitions' outcomes as given.
- `Model` access before `Load`, which throws in the source, is not modelled: `Test` hands the loaded model on.
- `includeBaseDirectory` is always false at the call sites, so only that branch of `Include` is modelled.
- An exception thrown inside `Test` is not modelled. Only exceptions from `CreatePackage` reach `Export`'s error case.
- `$` in the .NET patterns also matches before a final newline. The model treats it as end of input.
- `\d` under .NET also matches non-ASCII digits, and `IgnoreCase` folds beyond ASCII. The model uses ASCII digits and ASCII case folding.
- `int.Parse` overflow on more than 2^31-1 is not modelled: numbers are unbounded, and `major + 1` never wraps.
- `Path.Combine`'s alternate separator and invalid-character checks are not modelled.
- `StringKey` comparisons are taken as exact string comparisons, and `StringKey.IsEmpty` as "blank".
- `Dictionary` and LINQ `GroupBy` enumeration order is taken as first-seen key order.
- `XElement.Value` is taken as the element's own text followed by its descendants' values.
- `Uri`, `CultureInfo` and `System.Version` are host functions returning the printed text or the parsed numbers. Their own parsing is not part of this model.
- The regular expressions in `GetItems` are host predicates. Only their use in the group filter is modelled.
- `GetHashCode` on versions and ranges is not modelled.
- The legacy strategy's null-container check: containers are never null in the model, and a missing document is `None`.
- The legacy content entries are kept as a list next to the package rather than inside it. The package's `files` list stays as the strategy leaves it.
- The Shell `CompatibleRange` results are not re-validated through the range constructor.
- MsBuildDefinition.TrySetOpt: states only "kept, or set to the parse of non-blank data". The exact case split is stated by MetadataFieldsTrySet.
- LegacyStrategy.WithYear: states only when the copyright is null. The substitution itself is stated by CopyrightWithoutPlaceholder and YearSubstituted for notices with at most one placeholder.
- LegacyStrategy.FrameworksOf: states the shape of the pieces. That nothing is lost or reordered is stated by FrameworksKeepText.
- SemVer.CompareToAntisymmetric: `CompareTo` is modelled up to its sign. For two differing non-numeric pre-release identifiers the source returns the raw ordinal `string.Compare` value, whose magnitude .NET does not specify; every caller in this model tests only its sign.
- SemVer.ComparePreReleaseAntisymmetric: the identifier loop is likewise modelled up to its sign, for the same reason.
- `Path.Combine` and `GetRelativePath` follow Windows rooting rules: a path is rooted when it starts with a separator or has a drive colon as its second character, whatever separator is passed in.

=== FILE: Grouping.dfy ===
/** Insertion-ordered multimaps. The source keeps `Dictionary<K, List<V>>`
    values filled by "look the list up, add it when missing, append", and
    groups with LINQ's `group by`; both keep the keys in the order they
    were first seen and each key's values in the order they arrived. Here
    such a map is a list of groups, one per key. */
module Grouping {

  type Groups<K, V> = seq<(K, seq<V>)>

  /** The keys of the groups, in group order: a map is itself a list of
      entries, one per key, whose values are the groups. */
  function Keys<K, V>(gs: Groups<K, V>): seq<K> {
    EntryKeys(gs)
  }

  /** No key twice, and no group without values. */
  predicate WellFormed<K(==), V>(gs: Groups<K, V>) {
    && (forall i, j :: 0 <= i < j < |gs| ==> gs[i].0 != gs[j].0)
    && (forall i :: 0 <= i < |gs| ==> |gs[i].1| > 0)
  }

  /** The values under `k`; the empty list when `k` has no group. */
  function Lookup<K(==), V>(gs: Groups<K, V>, k: K): seq<V> {
    if |gs| == 0 then []
    else if gs[0].0 == k then gs[0].1
    else Lookup(gs[1..], k)
  }

  /** Appends `v` to the group of `k`, opening a new last group when `k`
      has none. */
  function Add<K(==), V>(gs: Groups<K, V>, k: K, v: V): Groups<K, V> {
    if |gs| == 0 then [(k, [v])]
    else if gs[0].0 == k then [(k, gs[0].1 + [v])] + gs[1..]
    else [gs[0]] + Add(gs[1..], k, v)
  }

  /** The groups built by adding the entries one by one, first to last. */
  function Grouped<K(==), V>(es: seq<(K, V)>): Groups<K, V> {
    if |es| == 0 then []
    else
      var last := es[|es| - 1];
      Add(Grouped(es[..|es| - 1]), last.0, last.1)
  }

  /** All values, group after group. */
  function Flatten<K, V>(gs: Groups<K, V>): seq<V> {
    if |gs| == 0 then [] else gs[0].1 + Flatten(gs[1..])
  }

  // ---------------------------------------------------------------------
  // Reference readings of an entry list
  // ---------------------------------------------------------------------

  /** The values of the entries with key `k`, in entry order. */
  function Select<K(==), V>(es: seq<(K, V)>, k: K): seq<V> {
    if |es| == 0 then []
    else (if es[0].0 == k then [es[0].1] else []) + Select(es[1..], k)
  }

  /** The keys of the entries, repeats included. */
  function EntryKeys<K, V>(es: seq<(K, V)>): (r: seq<K>)
    ensures |r| == |es| && forall i :: 0 <= i < |es| ==> r[i] == es[i].0
  {
    seq(|es|, i requires 0 <= i < |es| => es[i].0)
  }

  /** The values of the entries, in entry order. */
  function EntryValues<K, V>(es: seq<(K, V)>): (r: seq<V>)
    ensures |r| == |es| && forall i :: 0 <= i < |es| ==> r[i] == es[i].1
  {
    seq(|es|, i requires 0 <= i < |es| => es[i].1)
  }

  /** The position of the first entry with key `k`. */
  function FirstIndex<K(==), V>(es: seq<(K, V)>, k: K): (r: nat)
    requires k in EntryKeys(es)
    ensures r < |es| && es[r].0 == k && k !in EntryKeys(es[..r])
  {
    if es[0].0 == k then 0
    else
      KeyInTail(es, k);
      var i := FirstIndex(es[1..], k);
      KeyNotInShift(es, i, k);
      i + 1
  }

  /** A key of the entries other than the first entry's is a key of the
      rest. */
  lemma KeyInTail<K, V>(es: seq<(K, V)>, k: K)
    requires k in EntryKeys(es) && es[0].0 != k
    ensures k in EntryKeys(es[1..])
  {
    var j :| 0 <= j < |es| && EntryKeys(es)[j] == k;
    assert EntryKeys(es[1..])[j - 1] == k;
  }

  /** A key missing from a prefix of the rest, and not the first entry's,
      is missing from the prefix one longer. */
  lemma KeyNotInShift<K, V>(es: seq<(K, V)>, i: nat, k: K)
    requires i < |es| - 1 && es[0].0 != k && k !in EntryKeys(es[1..][..i])
    ensures k !in EntryKeys(es[..i + 1])
  {
    var p, q := es[..i + 1], es[1..][..i];
    forall m | 0 <= m < |p| ensures EntryKeys(p)[m] != k {
      if m > 0 {
        assert EntryKeys(q)[m - 1] == es[m].0;
      }
    }
  }

  // ---------------------------------------------------------------------
  // One insertion
  // ---------------------------------------------------------------------

  lemma {:induction false} AddLookup<K, V>(gs: Groups<K, V>, k: K, v: V, j: K)
    ensures Lookup(Add(gs, k, v), j) == Lookup(gs, j) + (if j == k then [v] else [])
  {
    if |gs| > 0 && gs[0].0 != k {
      AddLookup(gs[1..], k, v, j);
      assert Add(gs, k, v)[1..] == Add(gs[1..], k, v);
    }
  }

  lemma {:induction false} AddKeys<K, V>(gs: Groups<K, V>, k: K, v: V)
    ensures Keys(Add(gs, k, v)) == if k in Keys(gs) then Keys(gs) else Keys(gs) + [k]
  {
    if |gs| > 0 {
      KeysHead(gs);
      if gs[0].0 == k {
        KeysCons((k, gs[0].1 + [v]), gs[1..]);
      } else {
        AddKeys(gs[1..], k, v);
        KeysCons(gs[0], Add(gs[1..], k, v));
      }
    }
  }

  lemma KeysHead<K, V>(es: seq<(K, V)>)
    requires |es| > 0
    ensures EntryKeys(es) == [es[0].0] + EntryKeys(es[1..])
  {
    var r := [es[0].0] + EntryKeys(es[1..]);
    forall i | 0 <= i < |es| ensures EntryKeys(es)[i] == r[i] {
      if i > 0 {
        assert r[i] == EntryKeys(es[1..])[i - 1];
      }
    }
  }

  lemma KeysCons<K, V>(e: (K, V), es: seq<(K, V)>)
    ensures EntryKeys([e] + es) == [e.0] + EntryKeys(es)
  {
    var r := [e.0] + EntryKeys(es);
    forall i | 0 <= i < |es| + 1 ensures EntryKeys([e] + es)[i] == r[i] {
      if i > 0 {
        assert r[i] == EntryKeys(es)[i - 1];
      }
    }
  }

  lemma ValuesCons<K, V>(e: (K, V), es: seq<(K, V)>)
    ensures EntryValues([e] + es) == [e.1] + EntryValues(es)
  {
    var r := [e.1] + EntryValues(es);
    forall i | 0 <= i < |es| + 1 ensures EntryValues([e] + es)[i] == r[i] {
      if i > 0 {
        assert r[i] == EntryValues(es)[i - 1];
      }
    }
  }

  lemma {:induction false} AddWellFormed<K, V>(gs: Groups<K, V>, k: K, v: V)
    requires WellFormed(gs)
    ensures WellFormed(Add(gs, k, v))
  {
    if |gs| > 0 && gs[0].0 != k {
      var rest := Add(gs[1..], k, v);
      AddWellFormed(gs[1..], k, v);
      AddKeys(gs[1..], k, v);
      HeadNotInTail(gs);
      ConsWellFormed(gs[0], rest);
      assert Add(gs, k, v) == [gs[0]] + rest;
    }
  }

  /** In a well-formed map the first key does not recur. */
  lemma HeadNotInTail<K, V>(gs: Groups<K, V>)
    requires WellFormed(gs) && |gs| > 0
    ensures WellFormed(gs[1..]) && gs[0].0 !in Keys(gs[1..])
  {
    forall i | 0 <= i < |gs| - 1 ensures Keys(gs[1..])[i] != gs[0].0 {
      assert gs[1..][i] == gs[i + 1];
    }
  }

  /** A group with a new key and some values, put in front of a
      well-formed map, keeps it well-formed. */
  lemma ConsWellFormed<K, V>(g: (K, seq<V>), rest: Groups<K, V>)
    requires WellFormed(rest) && |g.1| > 0 && g.0 !in Keys(rest)
    ensures WellFormed([g] + rest)
  {
    var r := [g] + rest;
    forall j | 1 <= j < |r| ensures r[j].0 != g.0 {
      assert r[j] == rest[j - 1] && Keys(rest)[j - 1] == rest[j - 1].0;
    }
    forall i, j | 1 <= i < j < |r| ensures r[i].0 != r[j].0 {
      assert r[i] == rest[i - 1] && r[j] == rest[j - 1];
    }
  }

  lemma {:induction false} AddFlatten<K, V>(gs: Groups<K, V>, k: K, v: V)
    ensures multiset(Flatten(Add(gs, k, v))) == multiset(Flatten(gs)) + multiset{v}
  {
    if |gs| > 0 {
      if gs[0].0 == k {
        assert Add(gs, k, v)[1..] == gs[1..];
      } else {
        AddFlatten(gs[1..], k, v);
        assert Add(gs, k, v)[1..] == Add(gs[1..], k, v);
      }
    }
  }

  // ---------------------------------------------------------------------
  // Grouping an entry list
  // ---------------------------------------------------------------------

  lemma {:induction false} SelectAppend<K, V>(es: seq<(K, V)>, e: (K, V), k: K)
    ensures Select(es + [e], k) == Select(es, k) + (if e.0 == k then [e.1] else [])
  {
    if |es| > 0 {
      assert (es + [e])[1..] == es[1..] + [e];
      SelectAppend(es[1..], e, k);
    }
  }

  lemma {:induction false} SelectConcat<K, V>(a: seq<(K, V)>, b: seq<(K, V)>, k: K)
    ensures Select(a + b, k) == Select(a, k) + Select(b, k)
  {
    if |a| > 0 {
      assert (a + b)[1..] == a[1..] + b;
      SelectConcat(a[1..], b, k);
    } else {
      assert a + b == b;
    }
  }

  /** Each key's group holds exactly the values of the entries with that
      key, in entry order. */
  lemma {:induction false} GroupedLookup<K, V>(es: seq<(K, V)>, k: K)
    ensures Lookup(Grouped(es), k) == Select(es, k)
  {
    if |es| > 0 {
      var init, last := es[..|es| - 1], es[|es| - 1];
      GroupedLookup(init, k);
      AddLookup(Grouped(init), last.0, last.1, k);
      assert es == init + [last];
      SelectAppend(init, last, k);
    }
  }

  lemma {:induction false} GroupedWellFormed<K, V>(es: seq<(K, V)>)
    ensures WellFormed(Grouped(es))
  {
    if |es| > 0 {
      GroupedWellFormed(es[..|es| - 1]);
      AddWellFormed(Grouped(es[..|es| - 1]), es[|es| - 1].0, es[|es| - 1].1);
    }
  }

  /** Grouping neither loses nor invents a value. */
  lemma {:induction false} GroupedFlatten<K, V>(es: seq<(K, V)>)
    ensures multiset(Flatten(Grouped(es))) == multiset(EntryValues(es))
  {
    if |es| > 0 {
      var init, last := es[..|es| - 1], es[|es| - 1];
      GroupedFlatten(init);
      FlattenStep(Grouped(init), EntryValues(init), last.0, last.1);
      EntryValuesLast(es);
    }
  }

  /** The values of a non-empty entry list: those of all but the last
      entry, then the last entry's value. */
  lemma EntryValuesLast<K, V>(es: seq<(K, V)>)
    requires |es| > 0
    ensures EntryValues(es) == EntryValues(es[..|es| - 1]) + [es[|es| - 1].1]
  {
    var init := es[..|es| - 1];
    var r := EntryValues(init) + [es[|es| - 1].1];
    forall i | 0 <= i < |es| ensures EntryValues(es)[i] == r[i] {
      if i < |init| {
        assert init[i] == es[i];
      }
    }
  }

  /** Adding one entry adds its value to the values of the map. */
  lemma FlattenStep<K, V>(gs: Groups<K, V>, vs: seq<V>, k: K, v: V)
    requires multiset(Flatten(gs)) == multiset(vs)
    ensures multiset(Flatten(Add(gs, k, v))) == multiset(vs + [v])
  {
    AddFlatten(gs, k, v);
  }

  lemma EntryKeysAppend<K, V>(es: seq<(K, V)>, e: (K, V))
    ensures EntryKeys(es + [e]) == EntryKeys(es) + [e.0]
  {
  }

  /** The groups appear in the order in which their keys first occur among
      the entries, and there is a group for exactly the keys that occur. */
  lemma {:induction false} GroupedKeys<K, V>(es: seq<(K, V)>)
    ensures forall k :: k in Keys(Grouped(es)) <==> k in EntryKeys(es)
    ensures var ks := Keys(Grouped(es));
            forall i, j :: 0 <= i < j < |ks| ==> FirstIndex(es, ks[i]) < FirstIndex(es, ks[j])
  {
    if |es| > 0 {
      var init, last := es[..|es| - 1], es[|es| - 1];
      assert es == init + [last];
      assert Grouped(es) == Add(Grouped(init), last.0, last.1);
      GroupedKeys(init);
      AddKeys(Grouped(init), last.0, last.1);
      EntryKeysAppend(init, last);
      GroupedKeysStep(init, last);
    }
  }

  /** The ordering step of `GroupedKeys`: adding one entry keeps the keys
      sorted by first occurrence. */
  lemma GroupedKeysStep<K, V>(init: seq<(K, V)>, last: (K, V))
    requires forall k :: k in Keys(Grouped(init)) <==> k in EntryKeys(init)
    requires var ks := Keys(Grouped(init));
             forall i, j :: 0 <= i < j < |ks| ==> FirstIndex(init, ks[i]) < FirstIndex(init, ks[j])
    requires Keys(Add(Grouped(init), last.0, last.1)) ==
             if last.0 in Keys(Grouped(init)) then Keys(Grouped(init)) else Keys(Grouped(init)) + [last.0]
    ensures EntryKeys(init + [last]) == EntryKeys(init) + [last.0]
    ensures var ks := Keys(Add(Grouped(init), last.0, last.1));
            forall i, j :: 0 <= i < j < |ks| ==>
              ks[i] in EntryKeys(init + [last]) && ks[j] in EntryKeys(init + [last]) &&
              FirstIndex(init + [last], ks[i]) < FirstIndex(init + [last], ks[j])
  {
    EntryKeysAppend(init, last);
    var es := init + [last];
    var ks := Keys(Add(Grouped(init), last.0, last.1));
    var ks0 := Keys(Grouped(init));
    forall i, j | 0 <= i < j < |ks|
      ensures ks[i] in EntryKeys(es) && ks[j] in EntryKeys(es) && FirstIndex(es, ks[i]) < FirstIndex(es, ks[j])
    {
      KeysStepPair(init, last, ks0, ks, i, j);
    }
  }

  /** One pair of keys of `GroupedKeysStep`. */
  lemma KeysStepPair<K, V>(init: seq<(K, V)>, last: (K, V), ks0: seq<K>, ks: seq<K>, i: nat, j: nat)
    requires forall k :: k in ks0 <==> k in EntryKeys(init)
    requires forall a, b :: 0 <= a < b < |ks0| ==> FirstIndex(init, ks0[a]) < FirstIndex(init, ks0[b])
    requires ks == if last.0 in ks0 then ks0 else ks0 + [last.0]
    requires i < j < |ks|
    ensures ks[i] in EntryKeys(init + [last]) && ks[j] in EntryKeys(init + [last])
    ensures FirstIndex(init + [last], ks[i]) < FirstIndex(init + [last], ks[j])
  {
    assert ks[i] == ks0[i];
    FirstIndexPrefix(init, last, ks[i]);
    if j < |ks0| {
      assert ks[j] == ks0[j];
      FirstIndexPrefix(init, last, ks[j]);
    } else {
      FirstIndexNew(init, last);
    }
  }

  /** The first index is the one index holding the key with no earlier
      entry holding it. */
  lemma FirstIndexUnique<K, V>(es: seq<(K, V)>, k: K, i: nat)
    requires i < |es| && es[i].0 == k && k !in EntryKeys(es[..i])
    ensures k in EntryKeys(es) && FirstIndex(es, k) == i
  {
    assert EntryKeys(es)[i] == k;
    var j := FirstIndex(es, k);
    KeyInPrefix(es, j, i);
    KeyInPrefix(es, i, j);
  }

  /** An entry's key is among the keys of every prefix that holds it. */
  lemma KeyInPrefix<K, V>(es: seq<(K, V)>, j: nat, n: nat)
    requires j < |es| && n <= |es|
    ensures j < n ==> es[j].0 in EntryKeys(es[..n])
  {
    if j < n {
      assert EntryKeys(es[..n])[j] == es[j].0;
    }
  }

  lemma FirstIndexPrefix<K, V>(es: seq<(K, V)>, e: (K, V), k: K)
    requires k in EntryKeys(es)
    ensures k in EntryKeys(es + [e]) && FirstIndex(es + [e], k) == FirstIndex(es, k)
  {
    var i := FirstIndex(es, k);
    assert (es + [e])[..i] == es[..i];
    FirstIndexUnique(es + [e], k, i);
  }

  lemma FirstIndexNew<K, V>(es: seq<(K, V)>, e: (K, V))
    requires e.0 !in EntryKeys(es)
    ensures e.0 in EntryKeys(es + [e]) && FirstIndex(es + [e], e.0) == |es|
  {
    assert (es + [e])[..|es|] == es;
    FirstIndexUnique(es + [e], e.0, |es|);
  }

  /** In a well-formed map a key has a group exactly when it has values. */
  lemma {:induction false} LookupNonEmpty<K, V>(gs: Groups<K, V>, k: K)
    requires WellFormed(gs)
    ensures k in Keys(gs) <==> |Lookup(gs, k)| > 0
  {
    if |gs| > 0 {
      assert Keys(gs) == [gs[0].0] + Keys(gs[1..]);
      assert WellFormed(gs[1..]) by {
        forall i, j | 0 <= i < j < |gs[1..]| ensures gs[1..][i].0 != gs[1..][j].0 {
          assert gs[1..][i] == gs[i + 1] && gs[1..][j] == gs[j + 1];
        }
      }
      LookupNonEmpty(gs[1..], k);
    }
  }

  /** A value found under a key is one of the map's values. */
  lemma {:induction false} LookupInFlatten<K, V>(gs: Groups<K, V>, k: K)
    ensures multiset(Lookup(gs, k)) <= multiset(Flatten(gs))
  {
    if |gs| > 0 && gs[0].0 != k {
      LookupInFlatten(gs[1..], k);
    }
  }
}

=== FILE: Host.dfy ===
/** The platform behaviour the project definitions call but whose code is
    not part of this model, passed in as plain functions: `new Uri(s)`
    and `CultureInfo.GetCultureInfo(s)` (None where they throw, else the
    text the manifest prints), `System.Version.TryParse` (major, minor and
    build, the build being -1 when the input has two parts),
    `Path.GetFileNameWithoutExtension`, the current year, and the two
    regular expressions `GetItems` matches conditions against. */
module Hosts {
  import opened Wrappers

  datatype Host = Host(
    parseUri: string -> Option<string>,
    parseCulture: string -> Option<string>,
    systemVersion: string -> Option<(int, int, int)>,
    fileNameWithoutExtension: string -> string,
    year: nat,
    // `\$\(\s*TargetFramework\s*\)` occurs in the condition
    mentionsTargetFramework: string -> bool,
    // `'\$\(\s*TargetFramework\s*\)'\s*==\s*'<framework>'` occurs in the condition
    selectsFramework: (string, string) -> bool)
}

=== FILE: LegacyStrategy.dfy ===
/** `MsBuild15PackagingStrategy`: an older rule set that reads an
    SDK-style project file directly as XML and builds a package from it.
    It stands apart from the project definitions: nothing in the program
    calls it, and it adds content entries (`PackageContentModel`) to the
    package's file list, which is declared to hold `PackageFileModel`
    entries. The model therefore keeps those entries in a list of their
    own next to the package. */
module LegacyStrategy {
  import opened Wrappers
  import opened Text
  import opened XmlDoc
  import opened Packages
  import opened Hosts
  import SemVer
  import Versioning
  import VersionRange
  import MsBuildDefinition

  type Version = SemVer.Version

  /** What `Process` gives: the package, and the content entries it adds. */
  datatype LegacyPackage = LegacyPackage(package: Package, contents: seq<ContentFile>)

  /** How `Process` ends with an exception: `InvalidDataException` when
      the strategy does not apply, or the version constructor's exception
      while collecting dependencies. */
  datatype LegacyError = InvalidData | BadVersion(error: SemVer.VersionError)

  /** The only tools version the strategy accepts besides none at all. */
  const SupportedToolsVersion := "15.0"

  /** The root's `ToolsVersion` attribute (no namespace), "" when absent. */
  function ToolsVersion(root: Element): (r: string)
    ensures AttributeValue(root, QName("ToolsVersion", "")).None? ==> r == ""
    ensures AttributeValue(root, QName("ToolsVersion", "")).Some? ==> Some(r) == AttributeValue(root, QName("ToolsVersion", ""))
  {
    AttributeValue(root, QName("ToolsVersion", "")).GetOr("")
  }

  /** Whether the root is a `Project` element (in any namespace) whose
      tools version is blank or exactly "15.0". */
  predicate Supported(root: Element) {
    root.name.local == "Project" && (IsBlank(ToolsVersion(root)) || ToolsVersion(root) == SupportedToolsVersion)
  }

  // ---------------------------------------------------------------------
  // Applicability
  // ---------------------------------------------------------------------

  /** `Open`: the document's root when the strategy applies. The document
      is None when the stream is not well-formed XML or has no root; both
      are refused like a root with another name or tools version. */
  function Open(document: Option<Element>): (r: Option<Element>)
    ensures r.Some? ==> r == document
  {
    if document.Some? && Supported(document.value) then document else None
  }

  /** `IsApplicable`. */
  predicate IsApplicable(document: Option<Element>) {
    Open(document).Some?
  }

  /** A `Project` root is accepted when it names no tools version or
      exactly "15.0", and refused for every other tools version, older
      and newer alike, and for a two-part version with extra text. */
  lemma ToolsVersionRule(root: Element, v: string)
    requires root.name.local == "Project"
    requires AttributeValue(root, QName("ToolsVersion", "")) == Some(v)
    ensures IsApplicable(Some(root)) <==> IsBlank(v) || v == "15.0"
    ensures v == "14.0" || v == "15.0.0" || v == "16.0" ==> !IsApplicable(Some(root))
  {
    assert ToolsVersion(root) == v;
    if v == "14.0" || v == "15.0.0" || v == "16.0" {
      NotBlank(v, 0);
    }
  }

  /** A root without a `ToolsVersion` attribute is accepted by name alone. */
  lemma MissingToolsVersionAccepted(root: Element)
    requires forall i :: 0 <= i < |root.attributes| ==> root.attributes[i].name != QName("ToolsVersion", "")
    ensures IsApplicable(Some(root)) <==> root.name.local == "Project"
  {
    assert ToolsVersion(root) == "";
  }

  // ---------------------------------------------------------------------
  // Reading the project
  // ---------------------------------------------------------------------

  /** The descendants of the root named `local` in the root's namespace. */
  function Elements(root: Element, local: string): (r: seq<Element>)
    ensures forall x :: x in r <==> x in Descendants(root) && x.name == QName(local, root.name.ns)
  {
    Named(Descendants(root), QName(local, root.name.ns))
  }

  /** The value of the first such descendant, None when there is none. */
  function FirstValue(root: Element, local: string): (r: Option<string>)
    ensures r.None? <==> forall x :: x in Descendants(root) ==> x.name != QName(local, root.name.ns)
    ensures r.None? <==> |Elements(root, local)| == 0
    ensures r.Some? ==> r.value == Value(Elements(root, local)[0])
    ensures var ds := Descendants(root);
            r.Some? ==> exists i :: 0 <= i < |ds| && ds[i].name == QName(local, root.name.ns) && r.value == Value(ds[i]) &&
                                    forall j :: 0 <= j < i ==> ds[j].name != QName(local, root.name.ns)
  {
    FirstNamedIsFirstOfNamed(Descendants(root), QName(local, root.name.ns));
    match FirstNamed(Descendants(root), QName(local, root.name.ns))
    case None => None
    case Some(e) => Some(Value(e))
  }

  /** The values of the elements split on ';', every piece kept (empty
      ones included), element after element. */
  function FrameworksOf(es: seq<Element>): (r: seq<string>)
    ensures |r| >= |es|
    ensures forall i :: 0 <= i < |r| ==> ';' !in r[i]
  {
    if |es| == 0 then [] else Split(Value(es[0]), ';') + FrameworksOf(es[1..])
  }

  /** The target frameworks: every `TargetFrameworks` element's value
      split on ';'. */
  function TargetFrameworks(root: Element): seq<string> {
    FrameworksOf(Elements(root, "TargetFrameworks"))
  }

  /** The values of a list of elements. */
  function ValueList(es: seq<Element>): (r: seq<string>)
    ensures |r| == |es| && forall i :: 0 <= i < |es| ==> r[i] == Value(es[i])
  {
    if |es| == 0 then [] else [Value(es[0])] + ValueList(es[1..])
  }

  /** Nothing is lost or reordered by the splitting: joined with ';', the
      frameworks give back the elements' values joined with ';'. */
  lemma {:induction false} FrameworksKeepText(es: seq<Element>)
    ensures Join(";", FrameworksOf(es)) == Join(";", ValueList(es))
  {
    if |es| > 1 {
      var head := Split(Value(es[0]), ';');
      var tail := FrameworksOf(es[1..]);
      assert FrameworksOf(es) == head + tail;
      FrameworksKeepText(es[1..]);
      JoinAppend(";", head, tail);
      assert Join(";", head) == Value(es[0]) by {
        assert [';'] == ";";
      }
      var values := ValueList(es);
      assert values[0] == Value(es[0]) && values[1..] == ValueList(es[1..]);
    } else if |es| == 1 {
      assert FrameworksOf(es[1..]) == [];
      assert FrameworksOf(es) == Split(Value(es[0]), ';');
      assert ValueList(es) == [Value(es[0])];
      assert [';'] == ";";
    }
  }

  // ---------------------------------------------------------------------
  // Metadata
  // ---------------------------------------------------------------------

  /** The placeholder a copyright notice may hold for the current year. */
  const YearPlaceholder := "$(Year)"

  /** The text of the first element of each name `Process` reads, None
      where the project has no such element. */
  datatype Fields = Fields(
    title: Option<string>,
    description: Option<string>,
    copyright: Option<string>,
    authors: Option<string>,
    owners: Option<string>,
    version: Option<string>,
    projectUrl: Option<string>,
    iconUrl: Option<string>,
    licenseUrl: Option<string>,
    language: Option<string>)

  function ReadFields(root: Element): Fields {
    Fields(FirstValue(root, "AssemblyTitle"), FirstValue(root, "Description"), FirstValue(root, "Copyright"),
           FirstValue(root, "Authors"), FirstValue(root, "Owners"), FirstValue(root, "VersionPrefix"),
           FirstValue(root, "PackageProjectUrl"), FirstValue(root, "PackageIconUrl"), FirstValue(root, "PackageLicenseUrl"),
           FirstValue(root, "NeutralLanguage"))
  }

  /** The authors or owners: the whole text, when it is not blank; unlike
      the project definition, the text is not split on ','. */
  function Listed(text: Option<string>): (r: seq<string>)
    ensures |r| <= 1
    ensures |r| == 1 <==> !IsBlankOpt(text)
    ensures |r| == 1 ==> Some(r[0]) == text
  {
    if IsBlankOpt(text) then [] else [text.value]
  }

  /** The copyright notice, when not blank, with every "$(Year)" replaced
      by the current year. */
  function WithYear(copyright: Option<string>, year: nat): (r: Option<string>)
    ensures r.None? <==> IsBlankOpt(copyright)
  {
    match NormalizeOpt(copyright)
    case None => None
    case Some(c) => Some(ReplaceAll(c, YearPlaceholder, NatToString(year)))
  }

  /** The package with the fields read from the project: the texts of
      title, description, copyright, authors and owners, and the version,
      URLs and language where their parsers accept them. */
  function WithFields(p: Package, f: Fields, host: Host): (r: Package)
    ensures r.id == p.id && r.dependencies == p.dependencies && r.files == p.files && r.tags == p.tags
    ensures r.title.None? <==> IsBlankOpt(f.title)
    ensures r.title.Some? ==> r.title == f.title
    ensures r.description.None? <==> IsBlankOpt(f.description)
    ensures r.description.Some? ==> r.description == f.description
    ensures r.copyright.None? <==> IsBlankOpt(f.copyright)
    ensures r.authors == p.authors + Listed(f.authors)
    ensures r.owners == p.owners + Listed(f.owners)
  {
    p.(title := NormalizeOpt(f.title),
       description := NormalizeOpt(f.description),
       copyright := WithYear(f.copyright, host.year),
       authors := p.authors + Listed(f.authors),
       owners := p.owners + Listed(f.owners),
       version := MsBuildDefinition.TrySet(NormalizeOpt(f.version), (s: string) => Versioning.TryParse(Versioning.Management, s), p.version),
       projectUrl := MsBuildDefinition.TrySetOpt(NormalizeOpt(f.projectUrl), host.parseUri, p.projectUrl),
       iconUrl := MsBuildDefinition.TrySetOpt(NormalizeOpt(f.iconUrl), host.parseUri, p.iconUrl),
       licenseUrl := MsBuildDefinition.TrySetOpt(NormalizeOpt(f.licenseUrl), host.parseUri, p.licenseUrl),
       culture := MsBuildDefinition.TrySetOpt(NormalizeOpt(f.language), host.parseCulture, p.culture))
  }

  /** The metadata `Process` reads from the first element of each name. */
  function Metadata(p: Package, root: Element, host: Host): Package {
    WithFields(p, ReadFields(root), host)
  }

  /** A version that is absent, blank or refused by the strict grammar
      leaves the version as it was (the exception is logged); otherwise
      the version is the parsed one. */
  lemma VersionParsedOrKept(p: Package, f: Fields, host: Host)
    ensures var q := WithFields(p, f, host);
            && (IsBlankOpt(f.version) || Versioning.TryParse(Versioning.Management, f.version.value).None? ==> q.version == p.version)
            && (!IsBlankOpt(f.version) && Versioning.TryParse(Versioning.Management, f.version.value).Some? ==>
                  q.version == Versioning.TryParse(Versioning.Management, f.version.value).value)
  {
    assert WithFields(p, f, host).version == MsBuildDefinition.TrySet(NormalizeOpt(f.version), (s: string) => Versioning.TryParse(Versioning.Management, s), p.version);
  }

  /** Likewise a URL the URI parser refuses leaves the URL as it was. */
  lemma UrlsParsedOrKept(p: Package, f: Fields, host: Host)
    ensures var q := WithFields(p, f, host);
            && (IsBlankOpt(f.projectUrl) || host.parseUri(f.projectUrl.value).None? ==> q.projectUrl == p.projectUrl)
            && (!IsBlankOpt(f.projectUrl) && host.parseUri(f.projectUrl.value).Some? ==> q.projectUrl == host.parseUri(f.projectUrl.value))
            && (IsBlankOpt(f.iconUrl) || host.parseUri(f.iconUrl.value).None? ==> q.iconUrl == p.iconUrl)
            && (!IsBlankOpt(f.iconUrl) && host.parseUri(f.iconUrl.value).Some? ==> q.iconUrl == host.parseUri(f.iconUrl.value))
            && (IsBlankOpt(f.licenseUrl) || host.parseUri(f.licenseUrl.value).None? ==> q.licenseUrl == p.licenseUrl)
            && (!IsBlankOpt(f.licenseUrl) && host.parseUri(f.licenseUrl.value).Some? ==> q.licenseUrl == host.parseUri(f.licenseUrl.value))
  {
    var q := WithFields(p, f, host);
    assert q.projectUrl == MsBuildDefinition.TrySetOpt(NormalizeOpt(f.projectUrl), host.parseUri, p.projectUrl);
    assert q.iconUrl == MsBuildDefinition.TrySetOpt(NormalizeOpt(f.iconUrl), host.parseUri, p.iconUrl);
    assert q.licenseUrl == MsBuildDefinition.TrySetOpt(NormalizeOpt(f.licenseUrl), host.parseUri, p.licenseUrl);
  }

  /** Likewise a language the culture lookup refuses leaves the culture
      as it was. */
  lemma CultureParsedOrKept(p: Package, f: Fields, host: Host)
    ensures var q := WithFields(p, f, host);
            && (IsBlankOpt(f.language) || host.parseCulture(f.language.value).None? ==> q.culture == p.culture)
            && (!IsBlankOpt(f.language) && host.parseCulture(f.language.value).Some? ==> q.culture == host.parseCulture(f.language.value))
  {
    assert WithFields(p, f, host).culture == MsBuildDefinition.TrySetOpt(NormalizeOpt(f.language), host.parseCulture, p.culture);
  }

  /** A copyright notice without a '$' is taken as written. */
  lemma CopyrightWithoutPlaceholder(c: string, year: nat)
    requires '$' !in c && !IsBlank(c)
    ensures WithYear(Some(c), year) == Some(c)
  {
    ReplaceAllAbsent(c, YearPlaceholder, NatToString(year));
  }

  /** One "$(Year)" after text without a '$' becomes the year's decimal
      digits; the text around it is kept. */
  lemma YearSubstituted(prefix: string, suffix: string, year: nat)
    requires '$' !in prefix && '$' !in suffix
    ensures WithYear(Some(prefix + YearPlaceholder + suffix), year) == Some(prefix + NatToString(year) + suffix)
  {
    var s := prefix + YearPlaceholder + suffix;
    assert s[|prefix|] == '$';
    NotBlank(s, |prefix|);
    var rest := YearPlaceholder + suffix;
    assert s == prefix + rest;
    ReplaceAllAfter(prefix, rest, YearPlaceholder, NatToString(year));
    var digits := NatToString(year);
    assert rest[..|YearPlaceholder|] == YearPlaceholder;
    assert rest[|YearPlaceholder|..] == suffix;
    assert ReplaceAll(rest, YearPlaceholder, digits) == digits + ReplaceAll(suffix, YearPlaceholder, digits);
    ReplaceAllAbsent(suffix, YearPlaceholder, digits);
    assert prefix + (digits + suffix) == prefix + digits + suffix;
  }

  // ---------------------------------------------------------------------
  // Content entries
  // ---------------------------------------------------------------------

  /** The file patterns added per framework, below its directory. */
  const Binaries := "\\*.dll"
  const Symbols := "\\*.pdb"

  /** One framework's entry for the files matching `pattern`, into
      `lib\<framework>`. */
  function LibEntry(framework: string, pattern: string): (c: ContentFile)
    ensures c.pattern == framework + pattern && c.target == "lib\\" + framework
  {
    ContentFile(framework + pattern, "lib\\" + framework)
  }

  /** The binaries and symbols of each framework, in framework order. */
  function LibContents(frameworks: seq<string>): (r: seq<ContentFile>)
    ensures |r| == 2 * |frameworks|
    ensures forall k :: 0 <= k < |frameworks| ==>
              r[2 * k] == LibEntry(frameworks[k], Binaries) && r[2 * k + 1] == LibEntry(frameworks[k], Symbols)
  {
    if |frameworks| == 0 then []
    else
      var rest := LibContents(frameworks[1..]);
      var r := [LibEntry(frameworks[0], Binaries), LibEntry(frameworks[0], Symbols)] + rest;
      assert forall k :: 1 <= k < |frameworks| ==> frameworks[k] == frameworks[1..][k - 1];
      assert forall k :: 2 <= k < |r| ==> r[k] == rest[k - 2];
      r
  }

  /** The sources, two directories up, into `src`. */
  const SourceContent := ContentFile("../../**/*.cs", "src")

  /** The content entries of a project: binaries and symbols per
      framework, in framework order, then the sources. */
  function Contents(frameworks: seq<string>): (r: seq<ContentFile>)
    ensures |r| == 2 * |frameworks| + 1 && r[|r| - 1] == SourceContent
    ensures r[..|r| - 1] == LibContents(frameworks)
  {
    LibContents(frameworks) + [SourceContent]
  }

  /** An entry whose pattern starts, after the framework, with a
      character that is not whitespace passes the constructor's checks. */
  lemma LibEntryAccepted(framework: string, pattern: string)
    requires |pattern| > 0 && !IsWhiteSpace(pattern[0])
    ensures var c := LibEntry(framework, pattern); NewContentFile(c.pattern, c.target) == Ok(c)
  {
    var c := LibEntry(framework, pattern);
    assert c.pattern[|framework|] == pattern[0];
    NotBlank(c.pattern, |framework|);
    NotBlank(c.target, 0);
  }

  /** Every entry passes the `PackageContentModel` constructor's checks,
      even for an empty framework piece, so adding them never throws. */
  lemma ContentsAccepted(frameworks: seq<string>, c: ContentFile)
    requires c in Contents(frameworks)
    ensures NewContentFile(c.pattern, c.target) == Ok(c)
  {
    var r := Contents(frameworks);
    var i :| 0 <= i < |r| && r[i] == c;
    if i == |r| - 1 {
      NotBlank(c.pattern, 0);
      NotBlank(c.target, 0);
    } else {
      assert r[i] == LibContents(frameworks)[i];
      var k := i / 2;
      assert i == 2 * k || i == 2 * k + 1;
      LibPairAccepted(frameworks, k);
    }
  }

  /** Both `lib` entries of a framework pass the constructor's checks. */
  lemma LibPairAccepted(frameworks: seq<string>, k: nat)
    requires k < |frameworks|
    ensures var r := LibContents(frameworks);
            && NewContentFile(r[2 * k].pattern, r[2 * k].target) == Ok(r[2 * k])
            && NewContentFile(r[2 * k + 1].pattern, r[2 * k + 1].target) == Ok(r[2 * k + 1])
  {
    LibEntryAccepted(frameworks[k], Binaries);
    LibEntryAccepted(frameworks[k], Symbols);
  }

  // ---------------------------------------------------------------------
  // Dependencies
  // ---------------------------------------------------------------------

  /** The version a `PackageReference` names: empty when blank; else the
      strict parse, else `System.Version`'s major, minor and build (a
      two-part version has build -1, which the constructor refuses), else
      empty. */
  function ReferencedVersion(versionString: Option<string>, host: Host): (r: Result<Version, SemVer.VersionError>)
    ensures IsBlankOpt(versionString) ==> r == Ok(SemVer.Empty)
    ensures (!IsBlankOpt(versionString) && Versioning.TryParse(Versioning.Management, versionString.value).None? &&
             host.systemVersion(versionString.value).None?) ==> r == Ok(SemVer.Empty)
    ensures !IsBlankOpt(versionString) && Versioning.TryParse(Versioning.Management, versionString.value).Some? ==>
              r == Ok(Versioning.TryParse(Versioning.Management, versionString.value).value)
    ensures !IsBlankOpt(versionString) && Versioning.TryParse(Versioning.Management, versionString.value).None? &&
            host.systemVersion(versionString.value).Some? ==>
              var (major, minor, build) := host.systemVersion(versionString.value).value;
              r == SemVer.Create(major, minor, build, [], [])
    ensures r.Ok? ==> SemVer.Valid(r.value)
    ensures r.Err? ==> !IsBlankOpt(versionString) && Versioning.TryParse(Versioning.Management, versionString.value).None?
                       && host.systemVersion(versionString.value).Some?
    ensures r.Ok? && !SemVer.IsEmpty(r.value) ==>
              r.value.meta == [] || Versioning.TryParse(Versioning.Management, versionString.value) == Some(r.value)
  {
    if IsBlankOpt(versionString) then Ok(SemVer.Empty)
    else
      match Versioning.TryParse(Versioning.Management, versionString.value)
      case Some(v) => Ok(v)
      case None =>
        match host.systemVersion(versionString.value)
        case None => Ok(SemVer.Empty)
        case Some((major, minor, build)) => SemVer.Create(major, minor, build, [], [])
  }

  /** A new dependency on `id`: any version when `version` is empty, else
      the range compatible with it. */
  function Versioned(id: string, version: Version): (d: Dependency)
    ensures d.id == id && d.framework.None?
    ensures SemVer.IsEmpty(version) ==> d.range == VersionRange.Any
    ensures !SemVer.IsEmpty(version) ==> d.range == Versioning.CompatibleRange(Versioning.Management, version)
  {
    if SemVer.IsEmpty(version) then NewDependency(id)
    else WithRange(NewDependency(id), Versioning.CompatibleRange(Versioning.Management, version))
  }

  /** The dependency a `PackageReference` element yields: none when its
      `Include` attribute is missing or blank. */
  function PackageReference(item: Element, ns: string, host: Host): (r: Result<Option<Dependency>, SemVer.VersionError>)
    ensures IsBlankOpt(AttributeValue(item, QName("Include", ""))) ==> r == Ok(None)
    ensures !IsBlankOpt(AttributeValue(item, QName("Include", ""))) ==>
              match ReferencedVersion(NormalizeOpt(ChildValue(item, QName("Version", ns))), host)
              case Err(e) => r == Err(e)
              case Ok(v) => r == Ok(Some(Versioned(AttributeValue(item, QName("Include", "")).value, v)))
  {
    var id := NormalizeOpt(AttributeValue(item, QName("Include", "")));
    var versionString := NormalizeOpt(ChildValue(item, QName("Version", ns)));
    if id.None? then Ok(None)
    else
      match ReferencedVersion(versionString, host)
      case Err(e) => Err(e)
      case Ok(v) => Ok(Some(Versioned(id.value, v)))
  }

  /** The package references in order; the first exception ends the loop. */
  function PackageReferences(items: seq<Element>, ns: string, host: Host): (r: Result<seq<Dependency>, SemVer.VersionError>)
    ensures r.Ok? <==> forall k :: 0 <= k < |items| ==> PackageReference(items[k], ns, host).Ok?
    ensures r.Ok? ==> |r.value| <= |items|
    ensures r.Ok? ==> forall d :: d in r.value ==>
              exists k :: 0 <= k < |items| && PackageReference(items[k], ns, host) == Ok(Some(d))
    ensures r.Ok? ==> forall k :: 0 <= k < |items| && PackageReference(items[k], ns, host).value.Some? ==>
              PackageReference(items[k], ns, host).value.value in r.value
    ensures r.Err? ==> exists k :: 0 <= k < |items| && PackageReference(items[k], ns, host) == Err(r.error) &&
                                   forall j :: 0 <= j < k ==> PackageReference(items[j], ns, host).Ok?
  {
    CollectAll(ReferenceSteps(items, ns, host))
  }

  /** The outcome of each package reference, item by item. */
  function ReferenceSteps(items: seq<Element>, ns: string, host: Host): (rs: seq<Result<Option<Dependency>, SemVer.VersionError>>)
    ensures |rs| == |items| && forall k :: 0 <= k < |items| ==> rs[k] == PackageReference(items[k], ns, host)
  {
    Map(items, (x: Element) => PackageReference(x, ns, host))
  }

  /** The loop over a concatenation of items runs over its parts in
      turn: the first part's exception wins, and otherwise the
      dependencies follow each other in document order. */
  lemma PackageReferencesAppend(a: seq<Element>, b: seq<Element>, ns: string, host: Host)
    ensures PackageReferences(a + b, ns, host) == match PackageReferences(a, ns, host)
                                                  case Err(e) => Err(e)
                                                  case Ok(xs) => match PackageReferences(b, ns, host)
                                                                 case Err(e) => Err(e)
                                                                 case Ok(ys) => Ok(xs + ys)
  {
    ReferenceStepsAppend(a, b, ns, host);
    CollectAllAppend(ReferenceSteps(a, ns, host), ReferenceSteps(b, ns, host));
  }

  /** The steps of a concatenation of items are the steps of its parts. */
  lemma ReferenceStepsAppend(a: seq<Element>, b: seq<Element>, ns: string, host: Host)
    ensures ReferenceSteps(a + b, ns, host) == ReferenceSteps(a, ns, host) + ReferenceSteps(b, ns, host)
  {
    MapAppend(a, b, (x: Element) => PackageReference(x, ns, host));
  }

  /** One item yields its exception, or its dependency once, or nothing. */
  lemma PackageReferencesSingle(item: Element, ns: string, host: Host)
    ensures PackageReferences([item], ns, host) == match PackageReference(item, ns, host)
                                                   case Err(e) => Err(e)
                                                   case Ok(d) => Ok(if d.Some? then [d.value] else [])
  {
    assert ReferenceSteps([item], ns, host) == [PackageReference(item, ns, host)];
    CollectAllSingle(PackageReference(item, ns, host));
  }

  /** The dependency a `ProjectReference` element yields: none when its
      `Include` attribute is missing or blank, or names a file whose name
      without extension is blank. */
  function ProjectReference(item: Element, version: Version, host: Host): (r: Option<Dependency>)
    ensures var path := AttributeValue(item, QName("Include", ""));
            r.Some? <==> !IsBlankOpt(path) && !IsBlank(host.fileNameWithoutExtension(path.value))
    ensures r.Some? ==> r.value == Versioned(host.fileNameWithoutExtension(AttributeValue(item, QName("Include", "")).value), version)
  {
    var path := NormalizeOpt(AttributeValue(item, QName("Include", "")));
    var id := if path.None? then None else Some(host.fileNameWithoutExtension(path.value));
    if IsBlankOpt(id) then None else Some(Versioned(id.value, version))
  }

  /** Whether `d` is what some project reference of `items` yields. */
  ghost predicate FromProjectReference(d: Dependency, items: seq<Element>, version: Version, host: Host) {
    exists x :: x in items && ProjectReference(x, version, host) == Some(d)
  }

  /** `CollectDependencies`: the package references, then the project
      references, each depending on the package's own version. */
  function CollectDependencies(root: Element, version: Version, host: Host): (r: Result<seq<Dependency>, SemVer.VersionError>)
    ensures var items, ns := Elements(root, "PackageReference"), root.name.ns;
            r.Ok? <==> forall k :: 0 <= k < |items| ==> PackageReference(items[k], ns, host).Ok?
    ensures var items, ns := Elements(root, "PackageReference"), root.name.ns;
            r.Err? ==> exists k :: 0 <= k < |items| && PackageReference(items[k], ns, host) == Err(r.error) &&
                                   forall j :: 0 <= j < k ==> PackageReference(items[j], ns, host).Ok?
    ensures r.Ok? ==> forall d :: d in r.value ==> Untagged(d)
    ensures var items, ns := Elements(root, "PackageReference"), root.name.ns;
            r.Ok? ==> forall k :: 0 <= k < |items| && PackageReference(items[k], ns, host).value.Some? ==>
                        PackageReference(items[k], ns, host).value.value in r.value
    ensures r.Ok? ==> forall x :: x in Elements(root, "ProjectReference") && ProjectReference(x, version, host).Some? ==>
                        Versioned(host.fileNameWithoutExtension(AttributeValue(x, QName("Include", "")).value), version) in r.value
    ensures var items, ns := Elements(root, "PackageReference"), root.name.ns;
            r.Ok? ==> && PackageReferences(items, ns, host).Ok?
                      && var ds := PackageReferences(items, ns, host).value;
                         && |ds| <= |r.value| && r.value[..|ds|] == ds
                         && forall i :: |ds| <= i < |r.value| ==> FromProjectReference(r.value[i], Elements(root, "ProjectReference"), version, host)
    ensures var items, ns := Elements(root, "PackageReference"), root.name.ns;
            r.Ok? ==> var ds := PackageReferences(items, ns, host).value;
                      r.value[|ds|..] == Collect(Elements(root, "ProjectReference"), (x: Element) => ProjectReference(x, version, host))
  {
    var items := Elements(root, "PackageReference");
    match PackageReferences(items, root.name.ns, host)
    case Err(e) => Err(e)
    case Ok(ds) =>
      var js := Collect(Elements(root, "ProjectReference"), (item: Element) => ProjectReference(item, version, host));
      CollectedDependencies(items, root.name.ns, Elements(root, "ProjectReference"), version, host, ds, js);
      Ok(ds + js)
  }

  /** The package references followed by the project references are
      untagged, hold every dependency either loop yields, and yield the
      package references first. */
  lemma CollectedUntagged(items: seq<Element>, ns: string, projects: seq<Element>, version: Version, host: Host,
                          ds: seq<Dependency>, js: seq<Dependency>)
    requires PackageReferences(items, ns, host) == Ok(ds)
    requires js == Collect(projects, (item: Element) => ProjectReference(item, version, host))
    ensures forall d :: d in ds + js ==> Untagged(d)
  {
    forall d | d in ds + js ensures Untagged(d) {
      if d in ds {
        PackageReferencesUntagged(items, ns, host, d);
      } else {
        ProjectReferencesUntagged(projects, version, host, d);
      }
    }
  }

  lemma CollectedDependencies(items: seq<Element>, ns: string, projects: seq<Element>, version: Version, host: Host,
                              ds: seq<Dependency>, js: seq<Dependency>)
    requires PackageReferences(items, ns, host) == Ok(ds)
    requires js == Collect(projects, (item: Element) => ProjectReference(item, version, host))
    ensures forall d :: d in ds + js ==> Untagged(d)
    ensures forall x :: x in projects && ProjectReference(x, version, host).Some? ==>
              Versioned(host.fileNameWithoutExtension(AttributeValue(x, QName("Include", "")).value), version) in ds + js
    ensures (ds + js)[..|ds|] == ds
    ensures (ds + js)[|ds|..] == js
    ensures forall i :: |ds| <= i < |ds + js| ==> FromProjectReference((ds + js)[i], projects, version, host)
  {
    CollectedUntagged(items, ns, projects, version, host, ds, js);
    forall i | |ds| <= i < |ds + js| ensures FromProjectReference((ds + js)[i], projects, version, host) {
      assert (ds + js)[i] == js[i - |ds|];
    }
  }

  // ---------------------------------------------------------------------
  // Process
  // ---------------------------------------------------------------------

  /** What a URL or language field of a fresh package becomes: null when
      the text is missing or blank or the parser refuses it, else the
      parsed value. */
  function Parsed(text: Option<string>, parse: string -> Option<string>): (r: Option<string>)
    ensures IsBlankOpt(text) ==> r.None?
    ensures !IsBlankOpt(text) ==> r == parse(text.value)
  {
    if IsBlankOpt(text) then None else parse(text.value)
  }

  /** On a fresh package, each field is read from the first element of its
      name: the version and the URLs and language only where their
      parsers accept the text. */
  lemma MetadataRead(p: Package, root: Element, host: Host)
    requires p.version == SemVer.Empty && p.projectUrl.None? && p.iconUrl.None? && p.licenseUrl.None? && p.culture.None?
    ensures var q, v := Metadata(p, root, host), NormalizeOpt(FirstValue(root, "VersionPrefix"));
            && (v.None? || Versioning.TryParse(Versioning.Management, v.value).None? ==> q.version == SemVer.Empty)
            && (v.Some? && Versioning.TryParse(Versioning.Management, v.value).Some? ==>
                  q.version == Versioning.TryParse(Versioning.Management, v.value).value)
    ensures var q := Metadata(p, root, host);
            && q.projectUrl == Parsed(FirstValue(root, "PackageProjectUrl"), host.parseUri)
            && q.iconUrl == Parsed(FirstValue(root, "PackageIconUrl"), host.parseUri)
            && q.licenseUrl == Parsed(FirstValue(root, "PackageLicenseUrl"), host.parseUri)
            && q.culture == Parsed(FirstValue(root, "NeutralLanguage"), host.parseCulture)
  {
    var f := ReadFields(root);
    VersionParsedOrKept(p, f, host);
    UrlsParsedOrKept(p, f, host);
    CultureParsedOrKept(p, f, host);
  }

  /** `Process(container)`: the package named after the container's file
      name, its metadata, content entries and dependencies. */
  function Process(document: Option<Element>, identifier: string, host: Host): (r: Result<LegacyPackage, LegacyError>)
    ensures r.Ok? ==> document.Some? && r.value.contents == Contents(TargetFrameworks(document.value))
    ensures r.Ok? ==> r.value.package.id == host.fileNameWithoutExtension(identifier)
                      && r.value.package.files == [] && r.value.package.tags == []
    ensures r.Ok? ==> CollectDependencies(document.value, r.value.package.version, host) == Ok(r.value.package.dependencies)
    ensures r.Ok? ==> var q, root := r.value.package, document.value;
            && q.title == NormalizeOpt(FirstValue(root, "AssemblyTitle"))
            && q.description == NormalizeOpt(FirstValue(root, "Description"))
            && q.copyright == WithYear(FirstValue(root, "Copyright"), host.year)
            && q.authors == Listed(FirstValue(root, "Authors"))
            && q.owners == Listed(FirstValue(root, "Owners"))
    ensures r.Ok? ==> var q, v := r.value.package, NormalizeOpt(FirstValue(document.value, "VersionPrefix"));
            && (v.None? || Versioning.TryParse(Versioning.Management, v.value).None? ==> q.version == SemVer.Empty)
            && (v.Some? && Versioning.TryParse(Versioning.Management, v.value).Some? ==>
                  q.version == Versioning.TryParse(Versioning.Management, v.value).value)
    ensures r.Ok? ==> var q, root := r.value.package, document.value;
            && q.projectUrl == Parsed(FirstValue(root, "PackageProjectUrl"), host.parseUri)
            && q.iconUrl == Parsed(FirstValue(root, "PackageIconUrl"), host.parseUri)
            && q.licenseUrl == Parsed(FirstValue(root, "PackageLicenseUrl"), host.parseUri)
            && q.culture == Parsed(FirstValue(root, "NeutralLanguage"), host.parseCulture)
    ensures IsApplicable(document) ==>
              var p := Metadata(NewPackage(host.fileNameWithoutExtension(identifier)), document.value, host);
              var deps := CollectDependencies(document.value, p.version, host);
              && (r.Ok? <==> deps.Ok?)
              && (deps.Err? ==> r == Err(BadVersion(deps.error)))
              && (deps.Ok? ==> r.value.package == p.(dependencies := deps.value))
  {
    match Open(document)
    case None => Err(InvalidData)
    case Some(root) =>
      var r := ProcessRoot(root, identifier, host);
      if r.Ok? then
        ProcessedPackage(identifier, root, host, r.value.package.dependencies);
        r
      else r
  }

  /** `Process` once the document is accepted: the metadata, then the
      dependencies, whose exception ends it. */
  function ProcessRoot(root: Element, identifier: string, host: Host): (r: Result<LegacyPackage, LegacyError>)
    ensures var p := Metadata(NewPackage(host.fileNameWithoutExtension(identifier)), root, host);
            var deps := CollectDependencies(root, p.version, host);
            && (r.Ok? <==> deps.Ok?)
            && (deps.Err? ==> r == Err(BadVersion(deps.error)))
            && (deps.Ok? ==> r.value == LegacyPackage(p.(dependencies := deps.value), Contents(TargetFrameworks(root))))
  {
    var p := Metadata(NewPackage(host.fileNameWithoutExtension(identifier)), root, host);
    match CollectDependencies(root, p.version, host)
    case Err(e) => Err(BadVersion(e))
    case Ok(deps) => Ok(LegacyPackage(p.(dependencies := deps), Contents(TargetFrameworks(root))))
  }

  /** The fresh package named after the identifier, with its metadata read
      from `root` and the given dependencies, has the fields `Process`
      promises. */
  lemma ProcessedPackage(identifier: string, root: Element, host: Host, deps: seq<Dependency>)
    ensures var q := Metadata(NewPackage(host.fileNameWithoutExtension(identifier)), root, host).(dependencies := deps);
            && q.id == host.fileNameWithoutExtension(identifier) && q.files == [] && q.tags == []
            && q.title == NormalizeOpt(FirstValue(root, "AssemblyTitle"))
            && q.description == NormalizeOpt(FirstValue(root, "Description"))
            && q.copyright == WithYear(FirstValue(root, "Copyright"), host.year)
            && q.authors == Listed(FirstValue(root, "Authors"))
            && q.owners == Listed(FirstValue(root, "Owners"))
            && q.projectUrl == Parsed(FirstValue(root, "PackageProjectUrl"), host.parseUri)
            && q.iconUrl == Parsed(FirstValue(root, "PackageIconUrl"), host.parseUri)
            && q.licenseUrl == Parsed(FirstValue(root, "PackageLicenseUrl"), host.parseUri)
            && q.culture == Parsed(FirstValue(root, "NeutralLanguage"), host.parseCulture)
    ensures var q, v := Metadata(NewPackage(host.fileNameWithoutExtension(identifier)), root, host).(dependencies := deps),
                        NormalizeOpt(FirstValue(root, "VersionPrefix"));
            && (v.None? || Versioning.TryParse(Versioning.Management, v.value).None? ==> q.version == SemVer.Empty)
            && (v.Some? && Versioning.TryParse(Versioning.Management, v.value).Some? ==>
                  q.version == Versioning.TryParse(Versioning.Management, v.value).value)
  {
    MetadataRead(NewPackage(host.fileNameWithoutExtension(identifier)), root, host);
  }

  /** `Process` refuses exactly the documents `IsApplicable` refuses; an
      applicable document fails only with a version exception. */
  lemma ProcessRefusesIffNotApplicable(document: Option<Element>, identifier: string, host: Host)
    ensures Process(document, identifier, host) == Err(InvalidData) <==> !IsApplicable(document)
    ensures IsApplicable(document) && Process(document, identifier, host).Err? ==> Process(document, identifier, host).error.BadVersion?
  {
  }

  /** What every collected dependency looks like: untagged (no
      framework), with a non-blank id, allowing any version or exactly the
      versions compatible with some non-empty version. */
  ghost predicate Untagged(d: Dependency) {
    && d.framework.None? && !IsBlank(d.id)
    && (d.range == VersionRange.Any ||
        exists v: Version :: !SemVer.IsEmpty(v) && d.range == Versioning.CompatibleRange(Versioning.Management, v))
  }

  /** A dependency on a non-blank id is untagged. */
  lemma VersionedUntagged(id: string, version: Version)
    requires !IsBlank(id)
    ensures Untagged(Versioned(id, version))
  {
  }

  lemma PackageReferencesUntagged(items: seq<Element>, ns: string, host: Host, d: Dependency)
    requires PackageReferences(items, ns, host).Ok? && d in PackageReferences(items, ns, host).value
    ensures Untagged(d)
  {
    var k :| 0 <= k < |items| && PackageReference(items[k], ns, host) == Ok(Some(d));
    var v := ReferencedVersion(NormalizeOpt(ChildValue(items[k], QName("Version", ns))), host).value;
    var id := AttributeValue(items[k], QName("Include", "")).value;
    assert d == Versioned(id, v);
    VersionedUntagged(id, v);
  }

  lemma ProjectReferencesUntagged(items: seq<Element>, version: Version, host: Host, d: Dependency)
    requires d in Collect(items, (item: Element) => ProjectReference(item, version, host))
    ensures Untagged(d)
  {
    var x :| x in items && ProjectReference(x, version, host) == Some(d);
    var id := host.fileNameWithoutExtension(AttributeValue(x, QName("Include", "")).value);
    VersionedUntagged(id, version);
  }

  /** Every dependency of a processed package is untagged, unlike the
      project definition's, which carry their framework. */
  lemma DependenciesUntagged(document: Option<Element>, identifier: string, host: Host, d: Dependency)
    requires Process(document, identifier, host).Ok?
    requires d in Process(document, identifier, host).value.package.dependencies
    ensures Untagged(d)
  {
    var root := document.value;
    var version := Process(document, identifier, host).value.package.version;
    var packages := PackageReferences(Elements(root, "PackageReference"), root.name.ns, host);
    var projects := Collect(Elements(root, "ProjectReference"), (item: Element) => ProjectReference(item, version, host));
    assert d in packages.value + projects;
    if d in packages.value {
      PackageReferencesUntagged(Elements(root, "PackageReference"), root.name.ns, host, d);
    } else {
      ProjectReferencesUntagged(Elements(root, "ProjectReference"), version, host, d);
    }
  }

  /** A project reference depends on the range compatible with the
      package's own version (from `VersionPrefix`), and on any version
      when the package has none. */
  lemma ProjectReferencesFollowVersion(document: Option<Element>, identifier: string, host: Host, item: Element)
    requires Process(document, identifier, host).Ok?
    requires item in Descendants(document.value) && item.name == QName("ProjectReference", document.value.name.ns)
    requires ProjectReference(item, SemVer.Empty, host).Some?
    ensures var q := Process(document, identifier, host).value.package;
            Versioned(host.fileNameWithoutExtension(AttributeValue(item, QName("Include", "")).value), q.version) in q.dependencies
  {
    var root := document.value;
    var q := Process(document, identifier, host).value.package;
    var f := (x: Element) => ProjectReference(x, q.version, host);
    assert item in Elements(root, "ProjectReference");
    assert f(item).Some?;
    var projects := Collect(Elements(root, "ProjectReference"), f);
    assert f(item).value in projects;
    var packages := PackageReferences(Elements(root, "PackageReference"), root.name.ns, host);
    assert q.dependencies == packages.value + projects;
  }

  /** A package reference whose version the strict grammar refuses but
      `System.Version` reads as two parts makes `Process` throw. */
  lemma TwoPartVersionThrows(item: Element, ns: string, host: Host, s: string, major: int, minor: int)
    requires !IsBlankOpt(AttributeValue(item, QName("Include", "")))
    requires ChildValue(item, QName("Version", ns)) == Some(s) && !IsBlank(s)
    requires Versioning.TryParse(Versioning.Management, s).None?
    requires host.systemVersion(s) == Some((major, minor, -1)) && major >= 0 && minor >= 0
    ensures PackageReference(item, ns, host) == Err(SemVer.PatchOutOfRange)
  {
  }
}

=== FILE: Manifest.dfy ===
/** `PackageModel.WriteDefinition` (PackageModel.cs) as the construction of
    the manifest's element tree: a `package` element holding one
    `metadata` element whose children follow a fixed order, leave out
    absent fields, group dependencies by target framework and finish with
    the `files` list. Writing the tree out as text is not modelled. */
module Manifest {
  import opened Wrappers
  import opened Text
  import opened Grouping
  import opened XmlDoc
  import SemVer
  import VersionRange
  import opened Packages

  /** The manifest namespace. */
  const Xmlns: string := "http://schemas.microsoft.com/packaging/2012/06/nuspec.xsd"

  /** A name in the manifest namespace. */
  function N(local: string): QName {
    QName(local, Xmlns)
  }

  /** An unqualified attribute. */
  function Attr(local: string, value: string): Attribute {
    Attribute(QName(local, ""), value)
  }

  /** A text field of the metadata. */
  function Field(local: string, value: string): Element {
    TextElement(N(local), value)
  }

  /** `[e]` when `present`, else nothing. */
  function Opt(present: bool, e: Element): (r: seq<Element>)
    ensures present ==> r == [e]
    ensures !present ==> r == []
  {
    if present then [e] else []
  }

  // ---------------------------------------------------------------------
  // Dependencies
  // ---------------------------------------------------------------------

  /** One `dependency` element: the id, and the range's text when the range
      is not empty. */
  function DependencyElement(d: Dependency): Element {
    var version := if VersionRange.IsEmpty(d.range) then [] else [Attr("version", VersionRange.ToString(d.range))];
    Empty(N("dependency"), [Attr("id", d.id)] + version)
  }

  function DependencyElements(ds: seq<Dependency>): (r: seq<Element>)
    ensures |r| == |ds| && forall i :: 0 <= i < |ds| ==> r[i] == DependencyElement(ds[i])
  {
    if |ds| == 0 then [] else [DependencyElement(ds[0])] + DependencyElements(ds[1..])
  }

  /** The dependencies with a non-blank framework, each under it. */
  function TaggedEntries(ds: seq<Dependency>): seq<(string, Dependency)> {
    if |ds| == 0 then []
    else (if IsTagged(ds[0]) then [(ds[0].framework.value, ds[0])] else []) + TaggedEntries(ds[1..])
  }

  /** The dependencies without a framework, in order. */
  function Untagged(ds: seq<Dependency>): seq<Dependency> {
    if |ds| == 0 then []
    else (if IsTagged(ds[0]) then [] else [ds[0]]) + Untagged(ds[1..])
  }

  /** One `group` element for a framework. */
  function GroupElement(framework: string, ds: seq<Dependency>): Element {
    Element(N("group"), [Attr("targetFramework", framework)], DependencyElements(ds), "")
  }

  function GroupElements(gs: Groups<string, Dependency>): (r: seq<Element>)
    ensures |r| == |gs| && forall i :: 0 <= i < |gs| ==> r[i] == GroupElement(gs[i].0, gs[i].1)
  {
    if |gs| == 0 then [] else [GroupElement(gs[0].0, gs[0].1)] + GroupElements(gs[1..])
  }

  /** The `dependencies` element: the framework groups in first-seen order,
      then the untagged dependencies. */
  function DependenciesElement(ds: seq<Dependency>): Element {
    Element(N("dependencies"), [], GroupElements(Grouped(TaggedEntries(ds))) + DependencyElements(Untagged(ds)), "")
  }

  // ---------------------------------------------------------------------
  // Files
  // ---------------------------------------------------------------------

  /** One `file` element: the pattern and the folder's target path, its
      segments joined by the directory separator `sep`. */
  function FileElement(f: PackageFile, sep: char): Element {
    Empty(N("file"), [Attr("src", f.pattern), Attr("target", Join([sep], TargetSegments(f.target)))])
  }

  function FileElements(fs: seq<PackageFile>, sep: char): (r: seq<Element>)
    ensures |r| == |fs| && forall i :: 0 <= i < |fs| ==> r[i] == FileElement(fs[i], sep)
  {
    if |fs| == 0 then [] else [FileElement(fs[0], sep)] + FileElements(fs[1..], sep)
  }

  /** The `files` element: one `file` per entry, in order. */
  function FilesElement(fs: seq<PackageFile>, sep: char): Element {
    Element(N("files"), [], FileElements(fs, sep), "")
  }

  // ---------------------------------------------------------------------
  // The manifest
  // ---------------------------------------------------------------------

  /** The children `metadata` may have. */
  datatype MetaField =
    | Id | Title | Description | Copyright | VersionField | Authors | Owners
    | ProjectUrl | LicenseUrl | RequireLicenseAcceptance | IconUrl | Language
    | Tags | Dependencies | Files

  /** The element name of a field. */
  function FieldName(f: MetaField): string {
    match f
    case Id => "id"
    case Title => "title"
    case Description => "description"
    case Copyright => "copyright"
    case VersionField => "version"
    case Authors => "authors"
    case Owners => "owners"
    case ProjectUrl => "projectUrl"
    case LicenseUrl => "licenseUrl"
    case RequireLicenseAcceptance => "requireLicenseAcceptance"
    case IconUrl => "iconUrl"
    case Language => "language"
    case Tags => "tags"
    case Dependencies => "dependencies"
    case Files => "files"
  }

  /** The order in which the fields are added. */
  const FieldOrder: seq<MetaField> := [
    Id, Title, Description, Copyright, VersionField, Authors, Owners,
    ProjectUrl, LicenseUrl, RequireLicenseAcceptance, IconUrl, Language,
    Tags, Dependencies, Files]

  /** Whether the field is added: id always, the optional texts when not
      null or blank, the version when not empty, lists when not empty,
      URLs and the culture when set (the license flag with the license). */
  predicate Emits(p: Package, f: MetaField) {
    match f
    case Id => true
    case Title => !IsBlankOpt(p.title)
    case Description => !IsBlankOpt(p.description)
    case Copyright => !IsBlankOpt(p.copyright)
    case VersionField => !SemVer.IsEmpty(p.version)
    case Authors => |p.authors| > 0
    case Owners => |p.owners| > 0
    case ProjectUrl => p.projectUrl.Some?
    case LicenseUrl => p.licenseUrl.Some?
    case RequireLicenseAcceptance => p.licenseUrl.Some?
    case IconUrl => p.iconUrl.Some?
    case Language => p.culture.Some?
    case Tags => |p.tags| > 0
    case Dependencies => |p.dependencies| > 0
    case Files => |p.files| > 0
  }

  /** Whether the field is a text-only element. */
  predicate IsText(f: MetaField) {
    f != Dependencies && f != Files
  }

  /** The text of a text field: the id's raw text, the version with its
      build metadata, the lists joined with commas, the URLs and the
      culture name as given, and "true" for the license flag. */
  function FieldText(p: Package, f: MetaField): string
    requires IsText(f)
  {
    match f
    case Id => p.id
    case Title => p.title.GetOr("")
    case Description => p.description.GetOr("")
    case Copyright => p.copyright.GetOr("")
    case VersionField => SemVer.ToString(p.version, true)
    case Authors => Join(",", p.authors)
    case Owners => Join(",", p.owners)
    case ProjectUrl => p.projectUrl.GetOr("")
    case LicenseUrl => p.licenseUrl.GetOr("")
    case RequireLicenseAcceptance => "true"
    case IconUrl => p.iconUrl.GetOr("")
    case Language => p.culture.GetOr("")
    case Tags => Join(",", p.tags)
  }

  /** The element of a field. */
  function FieldElement(p: Package, f: MetaField, sep: char): Element {
    match f
    case Dependencies => DependenciesElement(p.dependencies)
    case Files => FilesElement(p.files, sep)
    case _ => Field(FieldName(f), FieldText(p, f))
  }

  /** The field's element when the field is emitted, else nothing. */
  function Piece(p: Package, f: MetaField, sep: char): seq<Element> {
    if Emits(p, f) then [FieldElement(p, f, sep)] else []
  }

  /** The elements of the emitted fields of `order`, in that order. */
  function Fields(p: Package, order: seq<MetaField>, sep: char): seq<Element> {
    if |order| == 0 then [] else Piece(p, order[0], sep) + Fields(p, order[1..], sep)
  }

  /** The `metadata` element. */
  function MetadataElement(p: Package, sep: char): Element {
    Element(N("metadata"), [], Fields(p, FieldOrder, sep), "")
  }

  /** The manifest tree (`WriteDefinition`): `package` holding `metadata`;
      `sep` is the directory separator used in file targets. */
  function WriteDefinition(p: Package, sep: char): (r: Element)
    ensures r.name == N("package") && r.elements == [MetadataElement(p, sep)]
  {
    Element(N("package"), [], [MetadataElement(p, sep)], "")
  }

  // ---------------------------------------------------------------------
  // Field order
  // ---------------------------------------------------------------------

  /** The fields of `order` the package emits, in that order. */
  function Emitted(p: Package, order: seq<MetaField>): (r: seq<MetaField>)
    ensures forall f :: f in r <==> f in order && Emits(p, f)
  {
    if |order| == 0 then []
    else (if Emits(p, order[0]) then [order[0]] else []) + Emitted(p, order[1..])
  }

  /** The element names of a list of fields. */
  function Names(fs: seq<MetaField>): (r: seq<string>)
    ensures |r| == |fs| && forall i :: 0 <= i < |fs| ==> r[i] == FieldName(fs[i])
  {
    if |fs| == 0 then [] else [FieldName(fs[0])] + Names(fs[1..])
  }

  /** The local names of a list of elements. */
  function LocalNames(es: seq<Element>): (r: seq<string>)
    ensures |r| == |es| && forall i :: 0 <= i < |es| ==> r[i] == es[i].name.local
  {
    if |es| == 0 then [] else [es[0].name.local] + LocalNames(es[1..])
  }

  /** Different fields have different element names. */
  lemma FieldNameInjective(a: MetaField, b: MetaField)
    ensures FieldName(a) == FieldName(b) <==> a == b
  {
  }

  /** Every field of the order in the order's position, without repeats. */
  lemma FieldOrderComplete(f: MetaField)
    ensures f in FieldOrder
    ensures forall i, j :: 0 <= i < j < |FieldOrder| ==> FieldOrder[i] != FieldOrder[j]
  {
  }

  /** The metadata children are the emitted fields, each once, in the
      fixed order. */
  lemma {:induction false} MetadataOrder(p: Package, order: seq<MetaField>, sep: char)
    ensures LocalNames(Fields(p, order, sep)) == Names(Emitted(p, order))
  {
    if |order| > 0 {
      MetadataOrder(p, order[1..], sep);
      var f := order[0];
      if Emits(p, f) {
        assert FieldElement(p, f, sep).name.local == FieldName(f);
        assert LocalNames(Fields(p, order, sep)) == [FieldName(f)] + LocalNames(Fields(p, order[1..], sep));
        assert Names(Emitted(p, order)) == [FieldName(f)] + Names(Emitted(p, order[1..]));
      }
    }
  }

  lemma {:induction false} FieldsConcat(p: Package, a: seq<MetaField>, b: seq<MetaField>, sep: char)
    ensures Fields(p, a + b, sep) == Fields(p, a, sep) + Fields(p, b, sep)
  {
    if |a| > 0 {
      assert (a + b)[1..] == a[1..] + b;
      FieldsConcat(p, a[1..], b, sep);
    } else {
      assert a + b == b;
    }
  }

  /** A license URL is always directly followed by the license flag. */
  lemma LicenseFollowedByAcceptance(p: Package, sep: char)
    requires p.licenseUrl.Some?
    ensures var ms := MetadataElement(p, sep).elements;
            exists i :: 0 <= i < |ms| - 1 &&
              ms[i] == Field("licenseUrl", p.licenseUrl.value) &&
              ms[i + 1] == Field("requireLicenseAcceptance", "true")
  {
    var o := FieldOrder;
    var pair := Fields(p, [LicenseUrl, RequireLicenseAcceptance], sep);
    assert o == o[..8] + [LicenseUrl, RequireLicenseAcceptance] + o[10..];
    FieldsConcat(p, o[..8] + [LicenseUrl, RequireLicenseAcceptance], o[10..], sep);
    FieldsConcat(p, o[..8], [LicenseUrl, RequireLicenseAcceptance], sep);
    LicensePair(p, sep);
    var i := |Fields(p, o[..8], sep)|;
    var ms := MetadataElement(p, sep).elements;
    assert ms[i] == pair[0] && ms[i + 1] == pair[1];
  }

  /** The license URL and the flag, as the two fields write them. */
  lemma LicensePair(p: Package, sep: char)
    requires p.licenseUrl.Some?
    ensures Fields(p, [LicenseUrl, RequireLicenseAcceptance], sep) ==
            [Field("licenseUrl", p.licenseUrl.value), Field("requireLicenseAcceptance", "true")]
  {
    assert [LicenseUrl, RequireLicenseAcceptance][1..] == [RequireLicenseAcceptance];
    assert Fields(p, [RequireLicenseAcceptance], sep) == [Field("requireLicenseAcceptance", "true")] by {
      assert [RequireLicenseAcceptance][1..] == [];
    }
    assert FieldElement(p, LicenseUrl, sep) == Field("licenseUrl", p.licenseUrl.value);
  }

  // ---------------------------------------------------------------------
  // Dependency groups
  // ---------------------------------------------------------------------

  /** The dependencies whose framework is exactly `framework`. */
  function FrameworkDependencies(ds: seq<Dependency>, framework: string): seq<Dependency> {
    if |ds| == 0 then []
    else (if ds[0].framework == Some(framework) then [ds[0]] else []) + FrameworkDependencies(ds[1..], framework)
  }

  /** Every dependency goes either to a framework group or to the untagged
      list, never to both and never twice. */
  lemma {:induction false} PartitionOnce(ds: seq<Dependency>)
    ensures multiset(EntryValues(TaggedEntries(ds))) + multiset(Untagged(ds)) == multiset(ds)
  {
    if |ds| > 0 {
      PartitionOnce(ds[1..]);
      assert ds == [ds[0]] + ds[1..];
      assert multiset(ds) == multiset{ds[0]} + multiset(ds[1..]);
      var t, t' := TaggedEntries(ds), TaggedEntries(ds[1..]);
      if IsTagged(ds[0]) {
        assert t == [(ds[0].framework.value, ds[0])] + t';
        ValuesCons((ds[0].framework.value, ds[0]), t');
        assert multiset(EntryValues(t)) == multiset{ds[0]} + multiset(EntryValues(t'));
        assert Untagged(ds) == Untagged(ds[1..]);
      } else {
        assert t == t';
        assert Untagged(ds) == [ds[0]] + Untagged(ds[1..]);
        assert multiset(Untagged(ds)) == multiset{ds[0]} + multiset(Untagged(ds[1..]));
      }
    }
  }

  /** The manifest lists every dependency exactly once: the framework
      groups and the untagged list together are a permutation of the
      package's dependencies. */
  lemma EveryDependencyOnce(ds: seq<Dependency>)
    ensures multiset(Flatten(Grouped(TaggedEntries(ds)))) + multiset(Untagged(ds)) == multiset(ds)
  {
    GroupedFlatten(TaggedEntries(ds));
    PartitionOnce(ds);
  }

  /** The tagged entries under a non-blank framework are the dependencies
      with exactly that framework, in order. */
  lemma {:induction false} TaggedSelect(ds: seq<Dependency>, framework: string)
    requires !IsBlank(framework)
    ensures Select(TaggedEntries(ds), framework) == FrameworkDependencies(ds, framework)
  {
    if |ds| > 0 {
      TaggedSelect(ds[1..], framework);
      var head := if IsTagged(ds[0]) then [(ds[0].framework.value, ds[0])] else [];
      SelectConcat(head, TaggedEntries(ds[1..]), framework);
    }
  }

  /** The entries of the tagged list all carry their dependency's
      non-blank framework. */
  lemma {:induction false} TaggedKeys(ds: seq<Dependency>)
    ensures forall k :: k in EntryKeys(TaggedEntries(ds)) ==> !IsBlank(k)
    ensures forall d :: d in ds && IsTagged(d) ==> d.framework.value in EntryKeys(TaggedEntries(ds))
  {
    if |ds| > 0 {
      TaggedKeys(ds[1..]);
      var t := TaggedEntries(ds);
      if IsTagged(ds[0]) {
        assert t == [(ds[0].framework.value, ds[0])] + TaggedEntries(ds[1..]);
        KeysCons((ds[0].framework.value, ds[0]), TaggedEntries(ds[1..]));
      } else {
        assert t == TaggedEntries(ds[1..]);
      }
      forall d | d in ds && IsTagged(d) ensures d.framework.value in EntryKeys(t) {
        if d != ds[0] {
          assert d in ds[1..];
        }
      }
    }
  }

  /** One group per distinct non-blank framework, in the order of first
      appearance; each holds exactly the dependencies with that framework,
      in their original order. */
  lemma DependencyGroups(ds: seq<Dependency>)
    ensures var gs := Grouped(TaggedEntries(ds));
            && (forall i, j :: 0 <= i < j < |gs| ==> gs[i].0 != gs[j].0)
            && (forall i :: 0 <= i < |gs| ==> !IsBlank(gs[i].0) && gs[i].1 == FrameworkDependencies(ds, gs[i].0))
            && (forall d :: d in ds && IsTagged(d) ==> d.framework.value in Keys(gs))
            && (forall i, j :: 0 <= i < j < |gs| ==>
                  gs[i].0 in EntryKeys(TaggedEntries(ds)) && gs[j].0 in EntryKeys(TaggedEntries(ds)) &&
                  FirstIndex(TaggedEntries(ds), gs[i].0) < FirstIndex(TaggedEntries(ds), gs[j].0))
  {
    var es := TaggedEntries(ds);
    var gs := Grouped(es);
    GroupedWellFormed(es);
    GroupedKeys(es);
    TaggedKeys(ds);
    forall i | 0 <= i < |gs| ensures !IsBlank(gs[i].0) && gs[i].1 == FrameworkDependencies(ds, gs[i].0) {
      var k := gs[i].0;
      assert k in Keys(gs);
      GroupedLookup(es, k);
      LookupAt(gs, i);
      TaggedSelect(ds, k);
    }
    forall i | 0 <= i < |gs| ensures gs[i].0 in EntryKeys(es) {
      assert Keys(gs)[i] == gs[i].0;
    }
  }

  /** In a well-formed map the group at position `i` is what its key
      looks up. */
  lemma {:induction false} LookupAt<K, V>(gs: Groups<K, V>, i: nat)
    requires WellFormed(gs) && i < |gs|
    ensures Lookup(gs, gs[i].0) == gs[i].1
  {
    if i > 0 {
      assert gs[0].0 != gs[i].0;
      assert WellFormed(gs[1..]) by {
        forall a, b | 0 <= a < b < |gs[1..]| ensures gs[1..][a].0 != gs[1..][b].0 {
          assert gs[1..][a] == gs[a + 1] && gs[1..][b] == gs[b + 1];
        }
      }
      LookupAt(gs[1..], i - 1);
    }
  }

  /** A dependency carries a version attribute exactly when its range is
      not empty, and then the range's text. */
  lemma DependencyVersionAttribute(d: Dependency)
    ensures var attrs := DependencyElement(d).attributes;
            && attrs[0] == Attr("id", d.id)
            && (|attrs| == 2 <==> !VersionRange.IsEmpty(d.range))
            && (|attrs| == 2 ==> attrs[1] == Attr("version", VersionRange.ToString(d.range)))
            && |attrs| <= 2
  {
  }

  /** A non-empty dependency list gives a `dependencies` element with
      children. */
  lemma DependenciesNotLeaf(ds: seq<Dependency>)
    requires |ds| > 0
    ensures !IsLeaf(DependenciesElement(ds))
  {
    PartitionOnce(ds);
    var es := TaggedEntries(ds);
    if |Untagged(ds)| == 0 {
      assert |EntryValues(es)| > 0;
      GroupedKeys(es);
      assert es[0].0 in EntryKeys(es);
    }
  }
}

=== FILE: ManifestReadBack.dfy ===
/** Reading a written manifest back through the document model: every text
    field of the package comes back from the `metadata` node under its
    name, and the version, dependency ranges and file targets come back in
    a form their own parsers accept. */
module ManifestReadBack {
  import opened Wrappers
  import opened Text
  import opened Grouping
  import opened XmlDoc
  import opened XmlNodes
  import opened Packages
  import opened Manifest
  import SemVer
  import VersionRange
  import Versioning

  /** The node of the written `metadata` element. */
  function MetadataNode(p: Package, sep: char): Node {
    Build(MetadataElement(p, sep))
  }

  /** A field's element is a leaf exactly when it is a text field. */
  lemma FieldElementShape(p: Package, g: MetaField, sep: char)
    requires Emits(p, g)
    ensures IsText(g) ==> FieldElement(p, g, sep) == Field(FieldName(g), FieldText(p, g))
    ensures !IsText(g) ==> !IsLeaf(FieldElement(p, g, sep))
  {
    if g == Dependencies {
      DependenciesNotLeaf(p.dependencies);
    } else if g == Files {
      assert |FilesElement(p.files, sep).elements| > 0;
    }
  }

  /** The leaf entry one field contributes: its value under its name when
      it is an emitted text field, else nothing. */
  lemma PieceLeaves(p: Package, g: MetaField, sep: char)
    ensures LeafEntries(Piece(p, g, sep), Xmlns) ==
            if IsText(g) && Emits(p, g) then [(Key(FieldName(g), Xmlns), NormalizeNull(FieldText(p, g)))] else []
  {
    var es := Piece(p, g, sep);
    if Emits(p, g) {
      FieldElementShape(p, g, sep);
      assert LeafEntries(es, Xmlns) ==
             (if IsLeaf(es[0]) then [(KeyOf(es[0].name, Xmlns), NormalizeNull(Value(es[0])))] else [])
             + LeafEntries([], Xmlns);
    }
  }

  /** The value one field contributes under the name of `f`. */
  lemma PieceSelect(p: Package, g: MetaField, sep: char, f: MetaField)
    ensures Select(LeafEntries(Piece(p, g, sep), Xmlns), Key(FieldName(f), Xmlns)) ==
            if g == f && IsText(f) && Emits(p, f) then [NormalizeNull(FieldText(p, f))] else []
  {
    PieceLeaves(p, g, sep);
    var l := LeafEntries(Piece(p, g, sep), Xmlns);
    if IsText(g) {
      SelectField(l, g, f, Emits(p, g), NormalizeNull(FieldText(p, g)));
    } else {
      SelectField(l, g, f, false, None);
    }
  }

  /** Selecting a field's name from what at most one field contributes. */
  lemma SelectField(l: seq<(Key, Option<string>)>, g: MetaField, f: MetaField, present: bool, v: Option<string>)
    requires l == if present then [(Key(FieldName(g), Xmlns), v)] else []
    ensures Select(l, Key(FieldName(f), Xmlns)) == if g == f && present then [v] else []
  {
    if present {
      SelectSingle((Key(FieldName(g), Xmlns), v), Key(FieldName(f), Xmlns));
      FieldNameInjective(f, g);
    }
  }

  lemma SelectSingle<K, V>(e: (K, V), k: K)
    ensures Select([e], k) == if e.0 == k then [e.1] else []
  {
    assert [e][1..] == [];
  }

  /** The values of the text-only fields among `order`, as the node keys
      them: each emitted text field once, under its own name. */
  lemma {:induction false} LeafFields(p: Package, order: seq<MetaField>, sep: char, f: MetaField)
    requires forall i, j :: 0 <= i < j < |order| ==> order[i] != order[j]
    ensures Select(LeafEntries(Fields(p, order, sep), Xmlns), Key(FieldName(f), Xmlns)) ==
            if f in order && IsText(f) && Emits(p, f) then [NormalizeNull(FieldText(p, f))] else []
  {
    if |order| > 0 {
      var g, rest := order[0], order[1..];
      var k := Key(FieldName(f), Xmlns);
      LeafEntriesConcat(Piece(p, g, sep), Fields(p, rest, sep), Xmlns);
      SelectConcat(LeafEntries(Piece(p, g, sep), Xmlns), LeafEntries(Fields(p, rest, sep), Xmlns), k);
      DistinctTail(order);
      LeafFields(p, rest, sep, f);
      PieceSelect(p, g, sep, f);
      assert f in order <==> f == g || f in rest;
    }
  }

  /** The tail of a repeat-free list is repeat-free and misses the head. */
  lemma DistinctTail<T>(xs: seq<T>)
    requires |xs| > 0 && forall i, j :: 0 <= i < j < |xs| ==> xs[i] != xs[j]
    ensures forall i, j :: 0 <= i < j < |xs| - 1 ==> xs[1..][i] != xs[1..][j]
    ensures xs[0] !in xs[1..]
  {
    forall i, j | 0 <= i < j < |xs| - 1 ensures xs[1..][i] != xs[1..][j] {
      assert xs[1..][i] == xs[i + 1] && xs[1..][j] == xs[j + 1];
    }
    forall i | 0 <= i < |xs| - 1 ensures xs[1..][i] != xs[0] {
      assert xs[1..][i] == xs[i + 1];
    }
  }

  /** Each text field reads back from the metadata node as the one value
      under its name, null-normalised; a field that is not written reads
      back as nothing. */
  lemma ReadBackText(p: Package, sep: char, f: MetaField)
    requires IsText(f)
    ensures ValuesOf(MetadataNode(p, sep), FieldName(f), "") ==
            if Emits(p, f) then [NormalizeNull(FieldText(p, f))] else []
  {
    ValuesInDocumentOrder(MetadataElement(p, sep), FieldName(f), "");
    FieldOrderComplete(f);
    LeafFields(p, FieldOrder, sep, f);
  }

  /** The optional texts come back exactly when they are neither null nor
      blank, and then unchanged. */
  lemma ReadBackOptionalTexts(p: Package, sep: char)
    ensures ValueOf(MetadataNode(p, sep), "title", "") == NormalizeOpt(p.title)
    ensures ValueOf(MetadataNode(p, sep), "description", "") == NormalizeOpt(p.description)
    ensures ValueOf(MetadataNode(p, sep), "copyright", "") == NormalizeOpt(p.copyright)
    ensures ValueOf(MetadataNode(p, sep), "id", "") == NormalizeNull(p.id)
  {
    ReadBackText(p, sep, Title);
    ReadBackText(p, sep, Description);
    ReadBackText(p, sep, Copyright);
    ReadBackText(p, sep, Id);
  }

  /** A printed version never reads as blank: it starts with a digit. */
  lemma VersionTextNotBlank(v: SemVer.Version)
    ensures !IsBlank(SemVer.ToString(v, true))
  {
    SemVer.ToStringIsRender(v, true);
    SemVer.NumberTextThree(v.major, v.minor, v.patch);
    NatToStringIsCanonical(v.major);
    var s := SemVer.ToString(v, true);
    assert s[0] == NatToString(v.major)[0];
    assert !IsWhiteSpace(s[0]);
  }

  /** The version is written exactly when it is not empty, and what is
      written parses back (three-part grammar) to the same version. */
  lemma ReadBackVersion(p: Package, sep: char)
    requires SemVer.Valid(p.version)
    ensures var t := ValueOf(MetadataNode(p, sep), "version", "");
            && (t.None? <==> SemVer.IsEmpty(p.version))
            && (t.Some? ==> Versioning.TryParse(Versioning.Management, t.value) == Some(p.version))
  {
    ReadBackText(p, sep, VersionField);
    VersionTextNotBlank(p.version);
    var s := SemVer.ToString(p.version, true);
    Versioning.ManagementTryParseExact(s, p.version);
  }

  /** The lists come back comma-joined when they are not empty. */
  lemma ReadBackLists(p: Package, sep: char)
    ensures var m := MetadataNode(p, sep);
            && ValueOf(m, "authors", "") == (if |p.authors| > 0 then NormalizeNull(Join(",", p.authors)) else None)
            && ValueOf(m, "owners", "") == (if |p.owners| > 0 then NormalizeNull(Join(",", p.owners)) else None)
            && ValueOf(m, "tags", "") == (if |p.tags| > 0 then NormalizeNull(Join(",", p.tags)) else None)
  {
    var m := MetadataNode(p, sep);
    assert ValueOf(m, "authors", "") == (if |p.authors| > 0 then NormalizeNull(Join(",", p.authors)) else None) by {
      ReadBackFirst(p, sep, Authors);
    }
    assert ValueOf(m, "owners", "") == (if |p.owners| > 0 then NormalizeNull(Join(",", p.owners)) else None) by {
      ReadBackFirst(p, sep, Owners);
    }
    assert ValueOf(m, "tags", "") == (if |p.tags| > 0 then NormalizeNull(Join(",", p.tags)) else None) by {
      ReadBackFirst(p, sep, Tags);
    }
  }

  /** The first value under a text field's name: its null-normalised text
      when it is written, else nothing. */
  lemma ReadBackFirst(p: Package, sep: char, f: MetaField)
    requires IsText(f)
    ensures ValueOf(MetadataNode(p, sep), FieldName(f), "") ==
            if Emits(p, f) then NormalizeNull(FieldText(p, f)) else None
  {
    ReadBackText(p, sep, f);
  }

  /** The license URL comes back as given when one is set. */
  lemma ReadBackLicenseUrl(p: Package, sep: char)
    ensures ValueOf(MetadataNode(p, sep), "licenseUrl", "") ==
            if p.licenseUrl.Some? then NormalizeNull(p.licenseUrl.value) else None
  {
    ReadBackText(p, sep, LicenseUrl);
  }

  /** The license flag comes back as "true" exactly when a license URL is
      set. */
  lemma ReadBackLicenseFlag(p: Package, sep: char)
    ensures ValueOf(MetadataNode(p, sep), "requireLicenseAcceptance", "") ==
            if p.licenseUrl.Some? then Some("true") else None
  {
    ReadBackText(p, sep, RequireLicenseAcceptance);
    assert !IsWhiteSpace("true"[0]);
    assert NormalizeNull("true") == Some("true");
  }

  /** A dependency element reads back its id and, for a non-empty range,
      the range's text; that text parses back to the range when the range
      has one of the printable shapes. */
  lemma ReadBackDependency(d: Dependency)
    ensures var n := Build(DependencyElement(d));
            && ValueOf(n, "id", "") == NormalizeNull(d.id)
            && (VersionRange.IsEmpty(d.range) <==> ValuesOf(n, "version", "") == [])
            && (!VersionRange.IsEmpty(d.range) ==>
                  ValuesOf(n, "version", "") == [NormalizeNull(VersionRange.ToString(d.range))])
    ensures !VersionRange.IsEmpty(d.range) && VersionRange.IsPlain(d.range.min) && VersionRange.IsPlain(d.range.max)
            && VersionRange.RoundTrips(d.range) ==>
            VersionRange.TryParse(VersionRange.ToString(d.range), false) == Some(d.range)
  {
    DependencyAttributes(d, "id");
    DependencyAttributes(d, "version");
    VersionRange.ToStringTryParse(d.range, false);
  }

  /** The values under a name in a dependency element: the id under "id",
      the range's text under "version" when the range is not empty. */
  lemma DependencyAttributes(d: Dependency, name: string)
    ensures var k := Key(name, Xmlns);
            var id := (Key("id", Xmlns), NormalizeNull(d.id));
            var version := (Key("version", Xmlns), NormalizeNull(VersionRange.ToString(d.range)));
            ValuesOf(Build(DependencyElement(d)), name, "") ==
              (if id.0 == k then [id.1] else [])
              + (if !VersionRange.IsEmpty(d.range) && version.0 == k then [version.1] else [])
  {
    var e := DependencyElement(d);
    var k := Key(name, Xmlns);
    var id := (Key("id", Xmlns), NormalizeNull(d.id));
    var version := (Key("version", Xmlns), NormalizeNull(VersionRange.ToString(d.range)));
    var es := AttributeEntries(e.attributes, Xmlns);
    assert ValuesOf(Build(e), name, "") == Select(es, k) by {
      AttributesOnly(e, name);
    }
    if VersionRange.IsEmpty(d.range) {
      assert es == [id];
      SelectSingle(id, k);
    } else {
      assert es == [id, version];
      SelectPair(id, version, k);
    }
  }

  lemma SelectPair<K, V>(a: (K, V), b: (K, V), k: K)
    ensures Select([a, b], k) == (if a.0 == k then [a.1] else []) + (if b.0 == k then [b.1] else [])
  {
    assert [a, b][1..] == [b];
    SelectSingle(b, k);
  }

  /** The values of an element without child elements are its attribute
      values. */
  lemma AttributesOnly(e: Element, name: string)
    requires e.elements == [] && e.name.ns == Xmlns
    ensures ValuesOf(Build(e), name, "") == Select(AttributeEntries(e.attributes, Xmlns), Key(name, Xmlns))
  {
    ValuesInDocumentOrder(e, name, "");
    assert LeafEntries([], Xmlns) == [];
  }

  /** A file element reads back its pattern and its target path: the
      folder key, then the child segments, joined by the separator. */
  lemma ReadBackFile(f: PackageFile, sep: char)
    ensures var n := Build(FileElement(f, sep));
            && ValueOf(n, "src", "") == NormalizeNull(f.pattern)
            && ValueOf(n, "target", "") == NormalizeNull(Join([sep], TargetSegments(f.target)))
  {
    var e := FileElement(f, sep);
    var target := Join([sep], TargetSegments(f.target));
    ValuesInDocumentOrder(e, "src", "");
    ValuesInDocumentOrder(e, "target", "");
    var es := AttributeEntries(e.attributes, Xmlns);
    assert es == [(Key("src", Xmlns), NormalizeNull(f.pattern)), (Key("target", Xmlns), NormalizeNull(target))];
    assert es[1..] == [(Key("target", Xmlns), NormalizeNull(target))];
    assert LeafEntries([], Xmlns) == [];
  }
}

=== FILE: MsBuildDefinition.dfy ===
/** `MSBuildVersion15ProjectDefinition`: the project definition for SDK-style
    MSBuild project files. It reads the loaded document model of the
    project (a `Node`): properties from the `PropertyGroup` children,
    items from the `ItemGroup` children, and fills the package drafted by
    the template with metadata and dependencies. */
module MsBuildDefinition {
  import opened Wrappers
  import opened Text
  import opened XmlNodes
  import opened Packages
  import opened ProjectDefinitions
  import opened Hosts
  import opened RelativePath
  import SemVer
  import VersionRange
  import Versioning

  // ---------------------------------------------------------------------
  // Applicability
  // ---------------------------------------------------------------------

  /** `new SemanticVersion(15, 0)`. */
  const ToolsVersionFloor: SemVer.Version := SemVer.Version(15, 0, 0, [], [])

  /** `SemanticVersion.TryParse` on a value that may be null, with the
      empty version where it fails. */
  function ParseOrEmpty(s: Option<string>): (v: SemVer.Version)
    ensures s.None? ==> v == SemVer.Empty
    ensures s.Some? ==> v == Versioning.TryParseOrEmpty(Versioning.Management, s.value)
  {
    match s
    case None => SemVer.Empty
    case Some(t) => Versioning.TryParseOrEmpty(Versioning.Management, t)
  }

  /** `TestOverride`: the root must be a `Project` element, and a tools
      version that parses must not be "below" 15.0.0 under the inverted
      `<` operator. None is success. */
  function TestOverride(model: Node): (r: Option<string>)
    ensures model.identifier != "Project" ==> r.Some?
    ensures var tv := ParseOrEmpty(ValueOf(model, "ToolsVersion", ""));
            r.None? <==> model.identifier == "Project" && (SemVer.IsEmpty(tv) || !SemVer.Less(tv, ToolsVersionFloor))
  {
    if model.identifier != "Project" then Some("Unexpected element")
    else
      var toolsVersion := ParseOrEmpty(ValueOf(model, "ToolsVersion", ""));
      if !SemVer.IsEmpty(toolsVersion) && SemVer.Less(toolsVersion, ToolsVersionFloor) then Some("Unsupported SDK tools version")
      else None
  }

  /** Because `<` is inverted, a `Project` whose tools version parses is
      refused exactly when that version ranks strictly ABOVE 15.0.0;
      14.0.0 and 15.0.0 pass, 16.0.0 does not. */
  lemma ToolsVersionGate(model: Node)
    requires model.identifier == "Project"
    ensures var tv := ParseOrEmpty(ValueOf(model, "ToolsVersion", ""));
            !SemVer.IsEmpty(tv) ==> (TestOverride(model).Some? <==> SemVer.CompareTo(tv, ToolsVersionFloor) > 0)
  {
    var tv := ParseOrEmpty(ValueOf(model, "ToolsVersion", ""));
    SemVer.OperatorsInverted(tv, ToolsVersionFloor);
    SemVer.CompareToAntisymmetric(tv, ToolsVersionFloor);
  }

  /** A tools version the three-part grammar refuses, such as "15.0", is
      read as the empty version and accepted. */
  lemma UnparsedToolsVersionAccepted(model: Node)
    requires model.identifier == "Project"
    requires ValueOf(model, "ToolsVersion", "").Some?
    requires Versioning.TryParse(Versioning.Management, ValueOf(model, "ToolsVersion", "").value).None?
    ensures TestOverride(model).None?
  {
  }

  /** "15.0", the tools version of classic project files, is one such
      string. */
  lemma ClassicToolsVersionUnparsed()
    ensures Versioning.TryParse(Versioning.Management, "15.0").None?
  {
    assert NatToString(15) == "15";
    assert Join(".", ["15", "0"]) == "15.0" by {
      assert ["15", "0"][1..] == ["0"];
    }
    Versioning.PlainCore("15.0", ["15", "0"]);
  }

  // ---------------------------------------------------------------------
  // Properties and items
  // ---------------------------------------------------------------------

  /** The values under `key` of each group in turn. */
  function ValuesAcross(groups: seq<Node>, key: string): (r: seq<Option<string>>)
    ensures forall x :: x in r <==> exists g :: 0 <= g < |groups| && x in ValuesOf(groups[g], key, "")
    ensures |groups| > 0 && |ValuesOf(groups[0], key, "")| > 0 ==> |r| > 0 && r[0] == ValuesOf(groups[0], key, "")[0]
    ensures |groups| > 0 && |ValuesOf(groups[0], key, "")| == 0 ==> r == ValuesAcross(groups[1..], key)
  {
    if |groups| == 0 then []
    else
      var rest := ValuesAcross(groups[1..], key);
      assert forall x :: x in rest <==> exists g :: 1 <= g < |groups| && x in ValuesOf(groups[g], key, "") by {
        forall x | x in rest ensures exists g :: 1 <= g < |groups| && x in ValuesOf(groups[g], key, "") {
          var g :| 0 <= g < |groups[1..]| && x in ValuesOf(groups[1..][g], key, "");
          assert groups[1..][g] == groups[g + 1];
        }
        forall x, g | 1 <= g < |groups| && x in ValuesOf(groups[g], key, "") ensures x in rest {
          assert groups[1..][g - 1] == groups[g];
        }
      }
      ValuesOf(groups[0], key, "") + rest
  }

  /** `GetProperties(key)`: the values under `key` of every `PropertyGroup`
      element, group after group. */
  function Properties(model: Node, key: string): seq<Option<string>> {
    ValuesAcross(ChildrenOf(model, "PropertyGroup", ""), key)
  }

  /** `GetProperties(key).FirstOrDefault()`: null when no group holds the
      property. */
  function FirstProperty(model: Node, key: string): (r: Option<string>)
    ensures |Properties(model, key)| == 0 ==> r.None?
    ensures |Properties(model, key)| > 0 ==> r == Properties(model, key)[0]
  {
    var ps := Properties(model, key);
    if |ps| == 0 then None else ps[0]
  }

  /** Whether an `ItemGroup` contributes items for a framework: it is
      skipped only when the framework is not empty and its non-blank
      condition mentions `$(TargetFramework)` without comparing it to
      that framework. */
  predicate Applies(group: Node, framework: string, host: Host) {
    var condition := ValueOf(group, "Condition", "");
    !(!IsBlankOpt(condition) && !IsBlank(framework)
      && host.mentionsTargetFramework(condition.value)
      && !host.selectsFramework(condition.value, framework))
  }

  /** The `key` children of the groups that apply, group after group. */
  function ItemsAcross(groups: seq<Node>, key: string, framework: string, host: Host): (r: seq<Node>)
    ensures forall n :: n in r <==> exists g :: 0 <= g < |groups| && Applies(groups[g], framework, host) && n in ChildrenOf(groups[g], key, "")
  {
    if |groups| == 0 then []
    else
      var rest := ItemsAcross(groups[1..], key, framework, host);
      assert forall n :: n in rest <==> exists g :: 1 <= g < |groups| && Applies(groups[g], framework, host) && n in ChildrenOf(groups[g], key, "") by {
        forall n | n in rest ensures exists g :: 1 <= g < |groups| && Applies(groups[g], framework, host) && n in ChildrenOf(groups[g], key, "") {
          var g :| 0 <= g < |groups[1..]| && Applies(groups[1..][g], framework, host) && n in ChildrenOf(groups[1..][g], key, "");
          assert groups[1..][g] == groups[g + 1];
        }
        forall n, g | 1 <= g < |groups| && Applies(groups[g], framework, host) && n in ChildrenOf(groups[g], key, "") ensures n in rest {
          assert groups[1..][g - 1] == groups[g];
        }
      }
      (if Applies(groups[0], framework, host) then ChildrenOf(groups[0], key, "") else []) + rest
  }

  /** `GetItems(key, framework)`. */
  function Items(model: Node, key: string, framework: string, host: Host): seq<Node> {
    ItemsAcross(ChildrenOf(model, "ItemGroup", ""), key, framework, host)
  }

  /** The items of a run of groups are those of its parts, in order: the
      groups are read one after the other in document order, and nothing
      is dropped, repeated or reordered. */
  lemma {:induction false} ItemsAcrossAppend(a: seq<Node>, b: seq<Node>, key: string, framework: string, host: Host)
    ensures ItemsAcross(a + b, key, framework, host) == ItemsAcross(a, key, framework, host) + ItemsAcross(b, key, framework, host)
  {
    if |a| == 0 {
      assert a + b == b;
    } else {
      assert (a + b)[0] == a[0];
      assert (a + b)[1..] == a[1..] + b;
      ItemsAcrossAppend(a[1..], b, key, framework, host);
    }
  }

  /** One group contributes all its `key` children, in order, when it
      applies, and nothing otherwise. */
  lemma ItemsAcrossSingle(g: Node, key: string, framework: string, host: Host)
    ensures ItemsAcross([g], key, framework, host) == if Applies(g, framework, host) then ChildrenOf(g, key, "") else []
  {
    assert [g][1..] == [];
  }

  /** The `key` children of every group, group after group. */
  function ChildrenAcross(groups: seq<Node>, key: string): seq<Node> {
    if |groups| == 0 then [] else ChildrenOf(groups[0], key, "") + ChildrenAcross(groups[1..], key)
  }

  /** The group filter is off for the empty framework: every `ItemGroup`
      contributes all its `key` children, in document order. */
  lemma {:induction false} EmptyFrameworkTakesAll(groups: seq<Node>, key: string, framework: string, host: Host)
    requires IsBlank(framework)
    ensures ItemsAcross(groups, key, framework, host) == ChildrenAcross(groups, key)
  {
    if |groups| > 0 {
      EmptyFrameworkTakesAll(groups[1..], key, framework, host);
    }
  }

  /** A group whose condition is absent or blank always applies. */
  lemma UnconditionalApplies(group: Node, framework: string, host: Host)
    requires IsBlankOpt(ValueOf(group, "Condition", ""))
    ensures Applies(group, framework, host)
  {
  }

  /** A condition that compares `$(TargetFramework)` to another framework
      hides the group from this one. */
  lemma OtherFrameworkSkipped(group: Node, framework: string, host: Host)
    requires ValueOf(group, "Condition", "").Some? && !IsBlankOpt(ValueOf(group, "Condition", ""))
    requires !IsBlank(framework)
    requires host.mentionsTargetFramework(ValueOf(group, "Condition", "").value)
    requires !host.selectsFramework(ValueOf(group, "Condition", "").value, framework)
    ensures !Applies(group, framework, host)
  {
  }

  // ---------------------------------------------------------------------
  // File patterns
  // ---------------------------------------------------------------------

  /** `GetFrameworks`: the first `TargetFrameworks` value split on ';',
      empty pieces kept; the empty string alone when it is absent. */
  function Frameworks(model: Node): (r: seq<string>)
    ensures |r| >= 1
    ensures Join(";", r) == FirstProperty(model, "TargetFrameworks").GetOr("")
    ensures forall k :: 0 <= k < |r| ==> ';' !in r[k]
    ensures FirstProperty(model, "TargetFrameworks").None? ==> r == [""]
  {
    var value := FirstProperty(model, "TargetFrameworks").GetOr("");
    Split(value, ';')
  }

  /** The prefix of a binary pattern: the framework and a backslash, or
      nothing for an empty framework. */
  function FrameworkPrefix(framework: string): (r: string)
    ensures IsBlank(framework) ==> r == ""
    ensures !IsBlank(framework) ==> r == framework + "\\"
  {
    match NormalizeNull(framework)
    case None => ""
    case Some(x) => x + "\\"
  }

  /** `GetBinaryFiles(framework)`: the framework's DLLs, then its PDBs. */
  function BinaryFiles(framework: string): (r: seq<string>)
    ensures |r| == 2
    ensures r[0] == FrameworkPrefix(framework) + "*.dll" && r[1] == FrameworkPrefix(framework) + "*.pdb"
  {
    [FrameworkPrefix(framework) + "*.dll", FrameworkPrefix(framework) + "*.pdb"]
  }

  /** The one `GetSourceFiles` pattern. */
  const SourcePattern: string := "..\\..\\**\\*.cs"

  /** `GetSourceFiles`. */
  function SourceFiles(): (r: seq<string>)
    ensures r == [SourcePattern]
  {
    [SourcePattern]
  }

  // ---------------------------------------------------------------------
  // Metadata
  // ---------------------------------------------------------------------

  /** `TrySet`: the parsed value when the data is non-blank and parses,
      else the current value (the failure is only logged). */
  function TrySet<T>(data: Option<string>, parse: string -> Option<T>, current: T): (r: T)
    ensures IsBlankOpt(data) ==> r == current
    ensures !IsBlankOpt(data) && parse(data.value).None? ==> r == current
    ensures !IsBlankOpt(data) && parse(data.value).Some? ==> r == parse(data.value).value
  {
    if IsBlankOpt(data) then current
    else match parse(data.value)
      case None => current
      case Some(v) => v
  }

  /** An Option-valued field set through `TrySet`. */
  function TrySetOpt(data: Option<string>, parse: string -> Option<string>, current: Option<string>): (r: Option<string>)
    ensures r == current || (!IsBlankOpt(data) && r == parse(data.value))
  {
    TrySet(data, (s: string) => match parse(s) case None => None case Some(u) => Some(Some(u)), current)
  }

  /** The authors or owners a list property contributes: the first
      property value, when non-blank, split on ',' with the blank pieces
      dropped and the others kept untrimmed. */
  function ListProperty(model: Node, key: string): (r: seq<string>)
    ensures IsBlankOpt(FirstProperty(model, key)) ==> r == []
    ensures !IsBlankOpt(FirstProperty(model, key)) ==> r == NonBlank(Split(FirstProperty(model, key).value, ','))
  {
    var first := FirstProperty(model, key);
    if IsBlankOpt(first) then [] else NonBlank(Split(first.value, ','))
  }

  /** The pieces of a list property are non-blank, hold no comma and are
      pieces of the property value. */
  lemma ListPropertyPieces(model: Node, key: string)
    ensures var r := ListProperty(model, key);
            forall k :: 0 <= k < |r| ==>
              !IsBlank(r[k]) && ',' !in r[k] && r[k] in Split(FirstProperty(model, key).value, ',')
  {
  }

  /** The pre-release declaration: `DeclarePreRelease(preRelease)` on a
      non-empty version when the pre-release is non-blank, else the
      version unchanged. The declaration can throw on an identifier the
      constructor refuses. */
  function Declared(v: SemVer.Version, preRelease: Option<string>): (r: Result<SemVer.Version, SemVer.VersionError>)
    ensures SemVer.IsEmpty(v) || IsBlankOpt(preRelease) ==> r == Ok(v)
    ensures r.Ok? ==> r.value.major == v.major && r.value.minor == v.minor && r.value.patch == v.patch
    ensures r.Ok? ==> (SemVer.IsEmpty(r.value) <==> SemVer.IsEmpty(v))
  {
    if !SemVer.IsEmpty(v) && !IsBlankOpt(preRelease) then SemVer.DeclarePreReleaseTags(v, preRelease.value, [])
    else Ok(v)
  }

  /** Declaring the same pre-release again changes nothing: the second
      declaration the project references perform cannot throw. */
  lemma DeclaredIdempotent(v: SemVer.Version, preRelease: Option<string>)
    requires Declared(v, preRelease).Ok?
    ensures Declared(Declared(v, preRelease).value, preRelease) == Declared(v, preRelease)
  {
  }

  /** The package after the metadata step of `CreatePackageOverride`,
      before any dependency is added, or the error the pre-release
      declaration throws. */
  function WithMetadata(p: Package, model: Node, preRelease: Option<string>, host: Host): (r: Result<Package, SemVer.VersionError>)
    ensures var version := TrySet(FirstProperty(model, "VersionPrefix"), (s: string) => Versioning.TryParse(Versioning.Management, s), p.version);
            r.Ok? <==> Declared(version, preRelease).Ok?
    ensures r.Ok? ==> var q := r.value;
            && q.id == p.id && q.files == p.files && q.tags == p.tags && q.dependencies == p.dependencies
            && q.title == Some(NormalizeOpt(FirstProperty(model, "AssemblyTitle")).GetOr(p.id))
            && q.description == NormalizeOpt(FirstProperty(model, "Description"))
            && q.copyright == NormalizeOpt(FirstProperty(model, "Copyright"))
            && q.authors == p.authors + ListProperty(model, "Authors")
            && q.owners == p.owners + ListProperty(model, "Owners")
            && q.projectUrl == TrySetOpt(FirstProperty(model, "PackageProjectUrl"), host.parseUri, p.projectUrl)
            && q.iconUrl == TrySetOpt(FirstProperty(model, "PackageIconUrl"), host.parseUri, p.iconUrl)
            && q.licenseUrl == TrySetOpt(FirstProperty(model, "PackageLicenseUrl"), host.parseUri, p.licenseUrl)
            && q.culture == TrySetOpt(FirstProperty(model, "NeutralLanguage"), host.parseCulture, p.culture)
  {
    var version := TrySet(FirstProperty(model, "VersionPrefix"), (s: string) => Versioning.TryParse(Versioning.Management, s), p.version);
    match Declared(version, preRelease)
    case Err(e) => Err(e)
    case Ok(v) =>
      Ok(p.(
        title := Some(NormalizeOpt(FirstProperty(model, "AssemblyTitle")).GetOr(p.id)),
        description := NormalizeOpt(FirstProperty(model, "Description")),
        copyright := NormalizeOpt(FirstProperty(model, "Copyright")),
        authors := p.authors + ListProperty(model, "Authors"),
        owners := p.owners + ListProperty(model, "Owners"),
        projectUrl := TrySetOpt(FirstProperty(model, "PackageProjectUrl"), host.parseUri, p.projectUrl),
        iconUrl := TrySetOpt(FirstProperty(model, "PackageIconUrl"), host.parseUri, p.iconUrl),
        licenseUrl := TrySetOpt(FirstProperty(model, "PackageLicenseUrl"), host.parseUri, p.licenseUrl),
        version := v,
        culture := TrySetOpt(FirstProperty(model, "NeutralLanguage"), host.parseCulture, p.culture)))
  }

  /** Each of the three URL properties, the version and the culture: a
      property that is absent, blank or refused by its parser leaves the
      field as the template set it; otherwise the field takes the parsed
      value. */
  lemma MetadataFieldsTrySet(p: Package, model: Node, host: Host)
    requires WithMetadata(p, model, None, host).Ok?
    ensures var q := WithMetadata(p, model, None, host).value;
            var url := FirstProperty(model, "PackageProjectUrl");
            var icon := FirstProperty(model, "PackageIconUrl");
            var license := FirstProperty(model, "PackageLicenseUrl");
            var ver := FirstProperty(model, "VersionPrefix");
            var lang := FirstProperty(model, "NeutralLanguage");
            && (IsBlankOpt(url) || host.parseUri(url.value).None? ==> q.projectUrl == p.projectUrl)
            && (!IsBlankOpt(url) && host.parseUri(url.value).Some? ==> q.projectUrl == host.parseUri(url.value))
            && (IsBlankOpt(icon) || host.parseUri(icon.value).None? ==> q.iconUrl == p.iconUrl)
            && (!IsBlankOpt(icon) && host.parseUri(icon.value).Some? ==> q.iconUrl == host.parseUri(icon.value))
            && (IsBlankOpt(license) || host.parseUri(license.value).None? ==> q.licenseUrl == p.licenseUrl)
            && (!IsBlankOpt(license) && host.parseUri(license.value).Some? ==> q.licenseUrl == host.parseUri(license.value))
            && (IsBlankOpt(ver) || Versioning.TryParse(Versioning.Management, ver.value).None? ==> q.version == p.version)
            && (!IsBlankOpt(ver) && Versioning.TryParse(Versioning.Management, ver.value).Some? ==>
                  q.version == Versioning.TryParse(Versioning.Management, ver.value).value)
            && (IsBlankOpt(lang) || host.parseCulture(lang.value).None? ==> q.culture == p.culture)
            && (!IsBlankOpt(lang) && host.parseCulture(lang.value).Some? ==> q.culture == host.parseCulture(lang.value))
  {
    var q := WithMetadata(p, model, None, host).value;
    var url := FirstProperty(model, "PackageProjectUrl");
    var lang := FirstProperty(model, "NeutralLanguage");
    assert q.projectUrl == TrySetOpt(url, host.parseUri, p.projectUrl);
    var icon := FirstProperty(model, "PackageIconUrl");
    var license := FirstProperty(model, "PackageLicenseUrl");
    assert q.culture == TrySetOpt(lang, host.parseCulture, p.culture);
    assert q.iconUrl == TrySetOpt(icon, host.parseUri, p.iconUrl);
    assert q.licenseUrl == TrySetOpt(license, host.parseUri, p.licenseUrl);
    TrySetOptCases(url, host.parseUri, p.projectUrl);
    TrySetOptCases(icon, host.parseUri, p.iconUrl);
    TrySetOptCases(license, host.parseUri, p.licenseUrl);
    TrySetOptCases(lang, host.parseCulture, p.culture);
  }

  /** An optional field keeps its value unless the data is non-blank and
      parses, and then takes the parsed value. */
  lemma TrySetOptCases(data: Option<string>, parse: string -> Option<string>, current: Option<string>)
    ensures IsBlankOpt(data) || parse(data.value).None? ==> TrySetOpt(data, parse, current) == current
    ensures !IsBlankOpt(data) && parse(data.value).Some? ==> TrySetOpt(data, parse, current) == parse(data.value)
  {
  }

  /** A pre-release is declared only on a non-empty version: it replaces
      the pre-release identifiers and keeps everything else of the
      version. */
  lemma PreReleaseOnlyWhenVersioned(p: Package, model: Node, pre: string, host: Host)
    requires !IsBlank(pre)
    requires WithMetadata(p, model, Some(pre), host).Ok?
    ensures var base := WithMetadata(p, model, None, host).value.version;
            var q := WithMetadata(p, model, Some(pre), host).value;
            && (SemVer.IsEmpty(base) ==> q.version == base)
            && (!SemVer.IsEmpty(base) ==> q.version == SemVer.Version(base.major, base.minor, base.patch, [pre], base.meta))
  {
  }

  // ---------------------------------------------------------------------
  // Dependencies
  // ---------------------------------------------------------------------

  /** The framework a dependency is tagged with: null for an empty one. */
  function Tag(framework: string): (r: Option<string>)
    ensures r.None? <==> IsBlank(framework)
    ensures r.Some? ==> r.value == framework
  {
    NormalizeNull(framework)
  }

  /** The dependency a `PackageReference` item yields, if its `Include`
      is non-blank: the compatible range of its parsed `Version`, or of
      the empty version when that does not parse. */
  function PackageReference(item: Node, framework: string): (r: Option<Dependency>)
    ensures r.Some? <==> !IsBlankOpt(ValueOf(item, "Include", ""))
    ensures r.Some? ==> r.value == Dependency(ValueOf(item, "Include", "").value,
                                              Versioning.CompatibleRange(Versioning.Management, ParseOrEmpty(ValueOf(item, "Version", ""))),
                                              Tag(framework))
  {
    var id := ValueOf(item, "Include", "");
    if IsBlankOpt(id) then None
    else
      var version := ParseOrEmpty(ValueOf(item, "Version", ""));
      Some(WithRange(WithFramework(NewDependency(id.value), Tag(framework)),
                     Versioning.CompatibleRange(Versioning.Management, version)))
  }

  /** The dependency a `ProjectReference` item yields, if its `Include`
      is non-blank: the referenced file's name without extension, with
      the compatible range of the (declared) package version. */
  function ProjectReference(item: Node, framework: string, version: SemVer.Version, host: Host): (r: Option<Dependency>)
    ensures r.Some? <==> !IsBlankOpt(ValueOf(item, "Include", ""))
    ensures r.Some? ==> r.value == Dependency(host.fileNameWithoutExtension(ValueOf(item, "Include", "").value),
                                              Versioning.CompatibleRange(Versioning.Management, version),
                                              Tag(framework))
  {
    var target := ValueOf(item, "Include", "");
    if IsBlankOpt(target) then None
    else
      Some(WithRange(WithFramework(NewDependency(host.fileNameWithoutExtension(target.value)), Tag(framework)),
                     Versioning.CompatibleRange(Versioning.Management, version)))
  }

  /** What every reference of a framework looks like: tagged with that
      framework, and depending on the compatible range of some version. */
  ghost predicate TaggedReference(d: Dependency, framework: string) {
    d.framework == Tag(framework) && exists v :: d.range == Versioning.CompatibleRange(Versioning.Management, v)
  }

  /** The dependencies of one framework: its package references, then its
      project references. */
  function FrameworkReferences(model: Node, framework: string, version: SemVer.Version, host: Host): (r: seq<Dependency>)
    ensures forall d :: d in r <==>
              || (exists n :: n in Items(model, "PackageReference", framework, host) && PackageReference(n, framework) == Some(d))
              || (exists n :: n in Items(model, "ProjectReference", framework, host) && ProjectReference(n, framework, version, host) == Some(d))
    ensures forall d :: d in r ==> TaggedReference(d, framework)
    ensures var packages := Collect(Items(model, "PackageReference", framework, host), (n: Node) => PackageReference(n, framework));
            && |packages| <= |r| && r[..|packages|] == packages
            && r[|packages|..] == Collect(Items(model, "ProjectReference", framework, host), (n: Node) => ProjectReference(n, framework, version, host))
  {
    var packages := Items(model, "PackageReference", framework, host);
    var projects := Items(model, "ProjectReference", framework, host);
    var fp := (n: Node) => PackageReference(n, framework);
    var fj := (n: Node) => ProjectReference(n, framework, version, host);
    ReferencesTaggedWith(packages, projects, framework, version, host);
    SplitConcat(Collect(packages, fp), Collect(projects, fj));
    Collect(packages, fp) + Collect(projects, fj)
  }

  /** The two halves of a concatenation are its parts. */
  lemma SplitConcat<T>(a: seq<T>, b: seq<T>)
    ensures (a + b)[..|a|] == a && (a + b)[|a|..] == b
  {
  }

  /** Package and project references of one framework are tagged with it
      and depend on a compatible range. */
  lemma ReferencesTaggedWith(packages: seq<Node>, projects: seq<Node>, framework: string, version: SemVer.Version, host: Host)
    ensures var fp := (n: Node) => PackageReference(n, framework);
            var fj := (n: Node) => ProjectReference(n, framework, version, host);
            forall d :: d in Collect(packages, fp) + Collect(projects, fj) ==> TaggedReference(d, framework)
  {
    var fp := (n: Node) => PackageReference(n, framework);
    var fj := (n: Node) => ProjectReference(n, framework, version, host);
    forall d | d in Collect(packages, fp) + Collect(projects, fj) ensures TaggedReference(d, framework) {
      if d in Collect(packages, fp) {
        var n :| n in packages && fp(n) == Some(d);
        assert d.range == Versioning.CompatibleRange(Versioning.Management, ParseOrEmpty(ValueOf(n, "Version", "")));
      } else {
        var n :| n in projects && fj(n) == Some(d);
        assert d.range == Versioning.CompatibleRange(Versioning.Management, version);
      }
    }
  }

  /** The dependencies of every framework in turn. */
  function References(model: Node, frameworks: seq<string>, version: SemVer.Version, host: Host): (r: seq<Dependency>)
    ensures forall d :: d in r <==> exists k :: 0 <= k < |frameworks| && d in FrameworkReferences(model, frameworks[k], version, host)
    ensures forall d :: d in r ==> exists k :: 0 <= k < |frameworks| && TaggedReference(d, frameworks[k])
  {
    if |frameworks| == 0 then []
    else
      var head := FrameworkReferences(model, frameworks[0], version, host);
      var rest := References(model, frameworks[1..], version, host);
      ReferencesCons(model, frameworks, version, host, head, rest);
      head + rest
  }

  /** The first framework's references followed by those of the others
      are the references of all of them. */
  lemma ReferencesCons(model: Node, frameworks: seq<string>, version: SemVer.Version, host: Host,
                       head: seq<Dependency>, rest: seq<Dependency>)
    requires |frameworks| > 0 && head == FrameworkReferences(model, frameworks[0], version, host)
    requires forall d :: d in rest <==> exists k :: 0 <= k < |frameworks| - 1 && d in FrameworkReferences(model, frameworks[1..][k], version, host)
    requires forall d :: d in rest ==> exists k :: 0 <= k < |frameworks| - 1 && TaggedReference(d, frameworks[1..][k])
    ensures forall d :: d in head + rest <==> exists k :: 0 <= k < |frameworks| && d in FrameworkReferences(model, frameworks[k], version, host)
    ensures forall d :: d in head + rest ==> exists k :: 0 <= k < |frameworks| && TaggedReference(d, frameworks[k])
  {
    var tail := frameworks[1..];
    assert forall k :: 0 <= k < |tail| ==> tail[k] == frameworks[k + 1];
    var fr := (f: string) => FrameworkReferences(model, f, version, host);
    ConsMembers(frameworks, fr, head, rest);
    forall d | d in head + rest ensures exists k :: 0 <= k < |frameworks| && TaggedReference(d, frameworks[k]) {
      if d in head {
        assert TaggedReference(d, frameworks[0]);
      } else {
        var j :| 0 <= j < |tail| && TaggedReference(d, tail[j]);
        assert TaggedReference(d, frameworks[j + 1]);
      }
    }
  }

  /** For any per-framework list: the first framework's list followed by
      a list holding exactly the others' elements holds exactly all
      frameworks' elements. */
  lemma ConsMembers<T>(frameworks: seq<string>, fr: string -> seq<T>, head: seq<T>, rest: seq<T>)
    requires |frameworks| > 0 && head == fr(frameworks[0])
    requires forall d :: d in rest <==> exists k :: 0 <= k < |frameworks| - 1 && d in fr(frameworks[1..][k])
    ensures forall d :: d in head + rest <==> exists k :: 0 <= k < |frameworks| && d in fr(frameworks[k])
  {
    var tail := frameworks[1..];
    forall d | d in head + rest ensures exists k :: 0 <= k < |frameworks| && d in fr(frameworks[k]) {
      if d !in head {
        var k :| 0 <= k < |tail| && d in fr(tail[k]);
        assert tail[k] == frameworks[k + 1];
      }
    }
    forall d, k | 0 <= k < |frameworks| && d in fr(frameworks[k]) ensures d in head + rest {
      if k > 0 {
        assert tail[k - 1] == frameworks[k];
      }
    }
  }

  /** The references of a list of frameworks are those of its parts, in
      order: frameworks are handled one after the other. */
  lemma {:induction false} ReferencesAppend(model: Node, a: seq<string>, b: seq<string>, version: SemVer.Version, host: Host)
    ensures References(model, a + b, version, host) == References(model, a, version, host) + References(model, b, version, host)
  {
    if |a| == 0 {
      assert a + b == b;
    } else {
      assert (a + b)[0] == a[0];
      assert (a + b)[1..] == a[1..] + b;
      ReferencesAppend(model, a[1..], b, version, host);
    }
  }

  /** `CreatePackageOverride`: the metadata step, then the dependencies of
      every framework appended in order. It never reports an error; it
      throws only where the pre-release declaration does. */
  function CreatePackageOverride(p: Package, model: Node, preRelease: Option<string>, host: Host): (r: Result<Package, OverrideError>)
    ensures r.Ok? <==> WithMetadata(p, model, preRelease, host).Ok?
    ensures r.Err? ==> r.error.Raised?
    ensures r.Ok? ==> var q := WithMetadata(p, model, preRelease, host).value;
            && r.value == q.(dependencies := r.value.dependencies)
            && |p.dependencies| <= |r.value.dependencies|
            && r.value.dependencies[..|p.dependencies|] == p.dependencies
            && var added := r.value.dependencies[|p.dependencies|..];
               && (forall d :: d in added <==>
                     exists k :: 0 <= k < |Frameworks(model)| && d in FrameworkReferences(model, Frameworks(model)[k], q.version, host))
               && (forall d :: d in added ==> exists k :: 0 <= k < |Frameworks(model)| && TaggedReference(d, Frameworks(model)[k]))
               && added == References(model, Frameworks(model), q.version, host)
  {
    match WithMetadata(p, model, preRelease, host)
    case Err(e) => Err(Raised(e))
    case Ok(q) =>
      DeclaredIdempotent(q.version, preRelease);
      var deps := p.dependencies + References(model, Frameworks(model), q.version, host);
      assert deps[..|p.dependencies|] == p.dependencies;
      assert deps[|p.dependencies|..] == References(model, Frameworks(model), q.version, host);
      Ok(q.(dependencies := deps))
  }

  /** A package reference whose version is missing or does not parse gets
      the compatible range of the empty version, printed "(,1.0.0)". */
  lemma UnversionedPackageReference(item: Node, framework: string)
    requires !IsBlankOpt(ValueOf(item, "Include", ""))
    requires SemVer.IsEmpty(ParseOrEmpty(ValueOf(item, "Version", "")))
    ensures VersionRange.ToString(PackageReference(item, framework).value.range) == "(,1.0.0)"
  {
    Versioning.ManagementZeroMinor(ParseOrEmpty(ValueOf(item, "Version", "")));
  }

  /** Project references get the same range whether or not a pre-release
      was declared: the Management compatible range drops it. */
  lemma ProjectRangeIgnoresPreRelease(p: Package, model: Node, pre: string, host: Host)
    requires WithMetadata(p, model, Some(pre), host).Ok?
    ensures var plain := WithMetadata(p, model, None, host).value.version;
            var declared := WithMetadata(p, model, Some(pre), host).value.version;
            Versioning.CompatibleRange(Versioning.Management, declared) == Versioning.CompatibleRange(Versioning.Management, plain)
  {
  }

  // ---------------------------------------------------------------------
  // The whole definition
  // ---------------------------------------------------------------------

  /** `CreatePackage` of this definition: the template with this
      definition's frameworks, patterns and override; no asset files. */
  function CreatePackage(projectId: string, model: Node, preRelease: Option<string>, baseDir: string, sep: char, host: Host): (r: Result<Package, BuildError>)
    ensures r.Err? && r.error.OverrideFailed? ==> r.error.failure.Raised?
    ensures var groups := FileGroups(Frameworks(model), BinaryFiles, SourceFiles(), []);
            r.Ok? ==> && IncludeAll(groups, baseDir, sep).Ok?
                      && r.value.id == projectId && r.value.tags == []
                      && r.value.files == IncludeAll(groups, baseDir, sep).value
                      && r.value.title == Some(NormalizeOpt(FirstProperty(model, "AssemblyTitle")).GetOr(projectId))
  {
    ProjectDefinitions.CreatePackage(projectId, Frameworks(model), BinaryFiles, SourceFiles(), [], baseDir, sep,
                                     (q: Package) => CreatePackageOverride(q, model, preRelease, host))
  }

  /** Under a rooted base directory (`\src` or `C:\src`) and for
      framework names without a separator start or a drive colon, the
      `k`-th lib group, that of the `k`-th non-empty framework, yields its
      DLL and PDB patterns as `lib/<framework>` entries; with no non-empty
      framework, the one lib group yields the unprefixed patterns in
      `lib`. `PackageFiles` puts the groups together. */
  lemma DraftLibEntries(projectId: string, model: Node, baseDir: string, sep: char, k: nat)
    requires IsSeparator(sep) && IsRooted(baseDir, sep)
    requires var fws := Qualified(Frameworks(model));
             forall x :: x in fws ==> x[0] != sep && ':' !in x
    ensures var fws := Qualified(Frameworks(model));
            var groups := FileGroups(Frameworks(model), BinaryFiles, SourceFiles(), []);
            && (|fws| == 0 ==> Include(groups[0].0, groups[0].1, baseDir, sep) ==
                                Ok([PackageFile("*.dll", Folder(LibFolder, [])), PackageFile("*.pdb", Folder(LibFolder, []))]))
            && (k < |fws| ==> Include(groups[k].0, groups[k].1, baseDir, sep) ==
                                Ok([PackageFile(fws[k] + "\\" + "*.dll", Folder(LibFolder, [fws[k]])),
                                    PackageFile(fws[k] + "\\" + "*.pdb", Folder(LibFolder, [fws[k]]))]))
  {
    var fws := Qualified(Frameworks(model));
    var groups := FileGroups(Frameworks(model), BinaryFiles, SourceFiles(), []);
    if |fws| == 0 {
      assert groups[0] == (Folder(LibFolder, []), BinaryFiles(""));
      LibPatterns(Folder(LibFolder, []), "", baseDir, sep);
      assert FrameworkPrefix("") == "";
      assert FrameworkPrefix("") + "*.dll" == "*.dll" && FrameworkPrefix("") + "*.pdb" == "*.pdb";
    }
    if k < |fws| {
      var fw := fws[k];
      assert groups[k] == (Folder(LibFolder, [fw]), BinaryFiles(fw));
      assert !IsBlank(fw) && fw in fws;
      LibPatterns(Folder(LibFolder, [fw]), fw, baseDir, sep);
      assert FrameworkPrefix(fw) == fw + "\\";
    }
  }

  /** The two binary patterns of a framework become two entries of the
      folder, unchanged. */
  lemma LibPatterns(folder: Folder, framework: string, baseDir: string, sep: char)
    requires IsSeparator(sep) && IsRooted(baseDir, sep)
    requires !IsBlank(framework) ==> framework[0] != sep && ':' !in framework
    ensures Include(folder, BinaryFiles(framework), baseDir, sep) ==
            Ok([PackageFile(FrameworkPrefix(framework) + "*.dll", folder), PackageFile(FrameworkPrefix(framework) + "*.pdb", folder)])
  {
    var pre := FrameworkPrefix(framework);
    PlainPattern(pre, "*.dll", framework, sep);
    PlainPattern(pre, "*.pdb", framework, sep);
    IncludePair(folder, pre + "*.dll", pre + "*.pdb", baseDir, sep);
  }

  /** A binary pattern is non-blank, starts with no separator and has no
      drive colon when the framework has neither. */
  lemma PlainPattern(pre: string, ext: string, framework: string, sep: char)
    requires pre == FrameworkPrefix(framework)
    requires ext == "*.dll" || ext == "*.pdb"
    requires IsSeparator(sep)
    requires !IsBlank(framework) ==> framework[0] != sep && ':' !in framework
    ensures !IsBlank(pre + ext) && (pre + ext)[0] != sep && ':' !in pre + ext
  {
    NotBlank(pre + ext, |pre|);
    if !IsBlank(framework) {
      assert (pre + ext)[0] == framework[0];
      assert forall i :: 0 <= i < |pre + ext| ==> (pre + ext)[i] != ':' by {
        forall i | 0 <= i < |pre + ext| ensures (pre + ext)[i] != ':' {
          if i < |framework| {
            assert (pre + ext)[i] == framework[i];
          }
        }
      }
    }
  }

  /** Two relative patterns become two entries of the folder, unchanged. */
  lemma IncludePair(folder: Folder, a: string, b: string, baseDir: string, sep: char)
    requires IsSeparator(sep) && IsRooted(baseDir, sep)
    requires !IsBlank(a) && a[0] != sep && ':' !in a
    requires !IsBlank(b) && b[0] != sep && ':' !in b
    ensures Include(folder, [a, b], baseDir, sep) == Ok([PackageFile(a, folder), PackageFile(b, folder)])
  {
    NonBlankPair(a, b);
    IncludeRelative(folder, [a, b], baseDir, sep);
    var r := Include(folder, [a, b], baseDir, sep).value;
    PairOf(r, PackageFile(a, folder), PackageFile(b, folder));
  }

  // ---------------------------------------------------------------------
  // The package's file entries
  // ---------------------------------------------------------------------

  /** The two lib entries of one framework: its DLL and PDB patterns in
      `lib/<framework>`, or the unprefixed patterns in `lib` for none. */
  function LibPair(fw: string): seq<PackageFile> {
    if fw == "" then [PackageFile("*.dll", Folder(LibFolder, [])), PackageFile("*.pdb", Folder(LibFolder, []))]
    else [PackageFile(fw + "\\" + "*.dll", Folder(LibFolder, [fw])), PackageFile(fw + "\\" + "*.pdb", Folder(LibFolder, [fw]))]
  }

  /** The lib entries of the named frameworks, framework by framework. */
  function LibFiles(fws: seq<string>): (r: seq<PackageFile>)
    ensures |r| == 2 * |fws|
  {
    if |fws| == 0 then [] else LibPair(fws[0]) + LibFiles(fws[1..])
  }

  /** The lib entries of a non-empty list of frameworks: the first one's
      pair, then the others'. */
  lemma LibFilesCons(fws: seq<string>)
    requires |fws| > 0
    ensures LibFiles(fws) == LibPair(fws[0]) + LibFiles(fws[1..])
  {
  }

  /** The single entry of the source group. */
  const SourceEntry: PackageFile := PackageFile(SourcePattern, Folder(SourceFolder, []))

  /** The file entries of a package this definition builds under a rooted
      base directory: the DLL and PDB entries of every non-empty
      framework, in framework order (or the unprefixed pair in `lib` when
      there is none), then the source pattern in `src`, and nothing else. */
  lemma PackageFiles(projectId: string, model: Node, preRelease: Option<string>, baseDir: string, sep: char, host: Host)
    requires IsSeparator(sep) && IsRooted(baseDir, sep)
    requires var fws := Qualified(Frameworks(model));
             forall x :: x in fws ==> x[0] != sep && ':' !in x
    ensures var fws := Qualified(Frameworks(model));
            var groups := FileGroups(Frameworks(model), BinaryFiles, SourceFiles(), []);
            IncludeAll(groups, baseDir, sep) == Ok((if |fws| == 0 then LibPair("") else LibFiles(fws)) + [SourceEntry])
    ensures var fws := Qualified(Frameworks(model));
            var r := CreatePackage(projectId, model, preRelease, baseDir, sep, host);
            r.Ok? ==> r.value.files == (if |fws| == 0 then LibPair("") else LibFiles(fws)) + [SourceEntry]
  {
    var fws := Qualified(Frameworks(model));
    var groups := FileGroups(Frameworks(model), BinaryFiles, SourceFiles(), []);
    if |fws| == 0 {
      DraftLibEntries(projectId, model, baseDir, sep, 0);
      SourceAndContent(groups[1..], baseDir, sep);
      IncludeAllStep(groups, baseDir, sep);
    } else {
      forall j | 0 <= j < |fws| ensures Include(groups[j].0, groups[j].1, baseDir, sep) == Ok(LibPair(fws[j])) {
        DraftLibEntries(projectId, model, baseDir, sep, j);
        assert fws[j] != "" by {
          assert fws[j] in fws;
        }
      }
      assert groups[|fws|..] == [groups[|groups| - 2], groups[|groups| - 1]];
      SourceAndContent(groups[|fws|..], baseDir, sep);
      LibGroupsFrom(groups, fws, baseDir, sep, 0);
      assert groups[0..] == groups && fws[0..] == fws;
    }
  }

  /** Groups whose first ones each yield the lib pair of one framework,
      and whose last two yield the source entry, yield from the `k`-th
      on the lib entries of the frameworks from the `k`-th on, then the
      source entry. */
  lemma {:induction false} LibGroupsFrom(groups: seq<(Folder, seq<string>)>, fws: seq<string>, baseDir: string, sep: char, k: nat)
    requires k <= |fws| && |groups| == |fws| + 2
    requires forall j :: k <= j < |fws| ==> Include(groups[j].0, groups[j].1, baseDir, sep) == Ok(LibPair(fws[j]))
    requires IncludeAll(groups[|fws|..], baseDir, sep) == Ok([SourceEntry])
    ensures IncludeAll(groups[k..], baseDir, sep) == Ok(LibFiles(fws[k..]) + [SourceEntry])
    decreases |fws| - k
  {
    if k == |fws| {
      assert fws[k..] == [];
      assert LibFiles(fws[k..]) + [SourceEntry] == [SourceEntry];
    } else {
      LibGroupsFrom(groups, fws, baseDir, sep, k + 1);
      assert groups[k..][0] == groups[k] && groups[k..][1..] == groups[k + 1..];
      assert fws[k..][0] == fws[k] && fws[k..][1..] == fws[k + 1..];
      LibGroupsStep(groups[k..], fws[k..], baseDir, sep);
    }
  }

  /** One more lib group in front adds its framework's pair in front. */
  lemma LibGroupsStep(tail: seq<(Folder, seq<string>)>, fws: seq<string>, baseDir: string, sep: char)
    requires |tail| > 0 && |fws| > 0
    requires Include(tail[0].0, tail[0].1, baseDir, sep) == Ok(LibPair(fws[0]))
    requires IncludeAll(tail[1..], baseDir, sep) == Ok(LibFiles(fws[1..]) + [SourceEntry])
    ensures IncludeAll(tail, baseDir, sep) == Ok(LibFiles(fws) + [SourceEntry])
  {
    var pair, rest := LibPair(fws[0]), LibFiles(fws[1..]);
    IncludeAllStep(tail, baseDir, sep);
    LibFilesCons(fws);
    AppendAssociative(pair, rest, [SourceEntry]);
  }

  /** The source group yields the source entry and the empty content
      group nothing. */
  lemma SourceAndContent(tail: seq<(Folder, seq<string>)>, baseDir: string, sep: char)
    requires IsSeparator(sep) && IsRooted(baseDir, sep)
    requires tail == [(Folder(SourceFolder, []), SourceFiles()), (Folder(ContentFolder, []), [])]
    ensures IncludeAll(tail, baseDir, sep) == Ok([SourceEntry])
  {
    SourceGroup(baseDir, sep);
    ContentGroup(baseDir, sep);
    IncludeAllSingle(tail[1], baseDir, sep);
    assert tail[1..] == [tail[1]];
    IncludeAllStep(tail, baseDir, sep);
    assert [SourceEntry] + [] == [SourceEntry];
  }

  /** The source pattern is kept as it is, in `src`. */
  lemma SourceGroup(baseDir: string, sep: char)
    requires IsSeparator(sep) && IsRooted(baseDir, sep)
    ensures Include(Folder(SourceFolder, []), SourceFiles(), baseDir, sep) == Ok([SourceEntry])
  {
    SourcePatternPlain(sep);
    IncludeOne(Folder(SourceFolder, []), SourcePattern, baseDir, sep);
  }

  /** One relative pattern becomes one entry of the folder, unchanged. */
  lemma IncludeOne(folder: Folder, a: string, baseDir: string, sep: char)
    requires IsSeparator(sep) && IsRooted(baseDir, sep)
    requires !IsBlank(a) && a[0] != sep && ':' !in a
    ensures Include(folder, [a], baseDir, sep) == Ok([PackageFile(a, folder)])
  {
    var items := [a];
    assert NonBlank(items) == items by {
      assert items[1..] == [];
      assert NonBlank(items[1..]) == [];
      assert [a] + [] == [a];
    }
    IncludeRelative(folder, items, baseDir, sep);
    var r := Include(folder, items, baseDir, sep);
    assert r.Ok? && |r.value| == 1;
    assert r.value[0] == PackageFile(a, folder);
    assert r.value == [PackageFile(a, folder)];
  }

  /** Two non-blank items are kept as they are. */
  lemma NonBlankPair(a: string, b: string)
    requires !IsBlank(a) && !IsBlank(b)
    ensures NonBlank([a, b]) == [a, b]
  {
    assert [a, b][1..] == [b] && [b][1..] == [];
  }

  /** A two-element sequence is the pair of its elements. */
  lemma PairOf<T>(r: seq<T>, x: T, y: T)
    requires |r| == 2 && r[0] == x && r[1] == y
    ensures r == [x, y]
  {
  }

  /** The source pattern is non-blank, relative and has no drive colon. */
  lemma SourcePatternPlain(sep: char)
    requires IsSeparator(sep)
    ensures !IsBlank(SourcePattern) && SourcePattern[0] != sep && ':' !in SourcePattern
  {
    NotBlank(SourcePattern, 0);
  }

  /** The empty content group yields nothing. */
  lemma ContentGroup(baseDir: string, sep: char)
    ensures Include(Folder(ContentFolder, []), [], baseDir, sep) == Ok([])
  {
    assert NonBlank([]) == [];
  }
}

=== FILE: Packages.dfy ===
/** The package object model: target folders, file entries, dependencies
    and the package description itself (DependencyModel.cs,
    PackageFileModel.cs, FileModel.cs, PackageModel.cs and the folder
    classes). URIs and cultures appear as the text the manifest prints
    for them. */
module Packages {
  import opened Wrappers
  import opened Text
  import SemVer
  import VersionRange

  type Version = SemVer.Version
  type Range = VersionRange.Range

  // ---------------------------------------------------------------------
  // Folders
  // ---------------------------------------------------------------------

  /** The closed set of package folders (`PackageLibFolder` and its
      siblings). */
  datatype FolderKind = LibFolder | SourceFolder | ContentFolder | ToolsFolder | BuildFolder

  /** The folder's key, its first target segment. */
  function FolderKey(k: FolderKind): string {
    match k
    case LibFolder => "lib"
    case SourceFolder => "src"
    case ContentFolder => "content"
    case ToolsFolder => "tools"
    case BuildFolder => "build"
  }

  /** Different folders have different keys. */
  lemma FolderKeysDistinct(a: FolderKind, b: FolderKind)
    ensures FolderKey(a) == FolderKey(b) <==> a == b
  {
  }

  /** A target folder: its kind and the child segments below it (empty
      by default). */
  datatype Folder = Folder(kind: FolderKind, child: seq<string>)

  /** The segments of the folder's target path: its key, then the child
      segments. */
  function TargetSegments(f: Folder): (r: seq<string>)
    ensures |r| == 1 + |f.child| && r[0] == FolderKey(f.kind) && r[1..] == f.child
  {
    [FolderKey(f.kind)] + f.child
  }

  // ---------------------------------------------------------------------
  // File entries
  // ---------------------------------------------------------------------

  /** The `ArgumentNullException` a constructor throws, by parameter. */
  datatype ArgumentError = PatternMissing | TargetFolderMissing

  /** `PackageFileModel`: a source pattern and a target folder. */
  datatype PackageFile = PackageFile(pattern: string, target: Folder)

  /** The `PackageFileModel` constructor: a blank pattern or a null target
      folder (None) is refused, the pattern first. */
  function NewPackageFile(pattern: string, target: Option<Folder>): (r: Result<PackageFile, ArgumentError>)
    ensures r.Ok? <==> !IsBlank(pattern) && target.Some?
    ensures IsBlank(pattern) ==> r == Err(PatternMissing)
    ensures !IsBlank(pattern) && target.None? ==> r == Err(TargetFolderMissing)
    ensures r.Ok? ==> r.value.pattern == pattern && Some(r.value.target) == target
  {
    if NormalizeNull(pattern).None? then Err(PatternMissing)
    else if target.None? then Err(TargetFolderMissing)
    else Ok(PackageFile(pattern, target.value))
  }

  /** `PackageContentModel`: a source pattern and a target folder name. */
  datatype ContentFile = ContentFile(pattern: string, target: string)

  /** The `PackageContentModel` constructor: both strings must be non-blank
      (a null string counts as blank), the pattern is checked first. */
  function NewContentFile(pattern: string, target: string): (r: Result<ContentFile, ArgumentError>)
    ensures r.Ok? <==> !IsBlank(pattern) && !IsBlank(target)
    ensures IsBlank(pattern) ==> r == Err(PatternMissing)
    ensures !IsBlank(pattern) && IsBlank(target) ==> r == Err(TargetFolderMissing)
    ensures r.Ok? ==> r.value.pattern == pattern && r.value.target == target
  {
    if NormalizeNull(pattern).None? then Err(PatternMissing)
    else if NormalizeNull(target).None? then Err(TargetFolderMissing)
    else Ok(ContentFile(pattern, target))
  }

  // ---------------------------------------------------------------------
  // Dependencies
  // ---------------------------------------------------------------------

  /** `DependencyModel`: a fixed package id, a version range and an
      optional target framework. */
  datatype Dependency = Dependency(id: string, range: Range, framework: Option<string>)

  /** A new dependency: the default range (any version) and no framework. */
  function NewDependency(id: string): (d: Dependency)
    ensures d.id == id && VersionRange.IsEmpty(d.range) && d.range == VersionRange.Any && d.framework.None?
  {
    Dependency(id, VersionRange.Any, None)
  }

  /** Setting `Version`. */
  function WithRange(d: Dependency, range: Range): (r: Dependency)
    ensures r.range == range && r.id == d.id && r.framework == d.framework
  {
    d.(range := range)
  }

  /** Setting `TargetFramework`. */
  function WithFramework(d: Dependency, framework: Option<string>): (r: Dependency)
    ensures r.framework == framework && r.id == d.id && r.range == d.range
  {
    d.(framework := framework)
  }

  /** Whether the dependency belongs to a framework group: its framework
      is neither null nor blank. */
  predicate IsTagged(d: Dependency) {
    !IsBlankOpt(d.framework)
  }

  // ---------------------------------------------------------------------
  // Packages
  // ---------------------------------------------------------------------

  /** `PackageModel`. URLs are held as the text `Uri.ToString` gives and the
      culture as its name; None stands for null. */
  datatype Package = Package(
    id: string,
    version: Version,
    title: Option<string>,
    description: Option<string>,
    copyright: Option<string>,
    authors: seq<string>,
    owners: seq<string>,
    projectUrl: Option<string>,
    licenseUrl: Option<string>,
    iconUrl: Option<string>,
    culture: Option<string>,
    dependencies: seq<Dependency>,
    files: seq<PackageFile>,
    tags: seq<string>)

  /** A new package: the given id, the default (empty) version, nothing
      else. */
  function NewPackage(id: string): (p: Package)
    ensures p.id == id && SemVer.IsEmpty(p.version)
    ensures p.title.None? && p.description.None? && p.copyright.None?
    ensures p.projectUrl.None? && p.licenseUrl.None? && p.iconUrl.None? && p.culture.None?
    ensures p.authors == [] && p.owners == [] && p.dependencies == [] && p.files == [] && p.tags == []
  {
    Package(id, SemVer.Empty, None, None, None, [], [], None, None, None, None, [], [], [])
  }
}

=== FILE: ProjectController.dfy ===
/** `ProjectController.Export`: probe the known project definitions in
    order and write the manifest of the first one that both accepts the
    project file and packages it. The definitions are an explicit list of
    their outcomes; the blob store is reduced to the event of writing a
    package under a key. */
module ProjectController {
  import opened Wrappers
  import opened Text
  import opened Packages
  import opened ProjectDefinitions

  /** What probing one definition gives: the outcome of its `Test` and the
      outcome `CreatePackage` would have. */
  datatype Probe = Probe(test: Result<(), string>, create: Result<Package, BuildError>)

  /** What `Export` does, in order. */
  datatype Event =
    | NotApplicable(index: nat)       // Test failed: verbose note, next definition
    | PackagingFailed(index: nat)     // CreatePackage reported an error: logged, next definition
    | Exported(index: nat, store: string, key: string, package: Package)  // key erased, then written
    | NoDefinitionApplies             // the closing warning

  /** How `Export` ends abnormally: a blank file path, or an exception
      thrown while the definition at `index` created its package. */
  datatype ExportError =
    | FilePathMissing
    | Thrown(index: nat, error: BuildError)

  /** The blob key a package is written under. */
  function PackageKey(p: Package): (k: string)
    ensures k == p.id + ".nuspec"
    ensures |k| == |p.id| + 7 && k[..|p.id|] == p.id
  {
    p.id + ".nuspec"
  }

  /** The event one definition produces on its own, when it does not
      throw. */
  function EventFor(probe: Probe, index: nat, store: string): Event {
    if probe.test.Err? then NotApplicable(index)
    else if probe.create.Err? then PackagingFailed(index)
    else Exported(index, store, PackageKey(probe.create.value), probe.create.value)
  }

  /** Whether creating the package of an accepted definition throws. */
  predicate Throws(probe: Probe) {
    probe.test.Ok? && probe.create.Err? && IsException(probe.create.error)
  }

  /** Whether the definition is accepted and packages the project. */
  predicate Succeeds(probe: Probe) {
    probe.test.Ok? && probe.create.Ok?
  }

  /** The loop from definition `from` on: its events, and whether some
      definition's `Test` succeeded. */
  function Probing(probes: seq<Probe>, from: nat, store: string): (r: Result<(seq<Event>, bool), ExportError>)
    requires from <= |probes|
    ensures r.Ok? ==> forall k :: 0 <= k < |r.value.0| ==> from + k < |probes| && r.value.0[k] == EventFor(probes[from + k], from + k, store)
    ensures r.Ok? ==> |r.value.0| == |probes| - from || (|r.value.0| > 0 && r.value.0[|r.value.0| - 1].Exported?)
    ensures r.Ok? ==> (r.value.1 <==> exists j :: from <= j < from + |r.value.0| && probes[j].test.Ok?)
    ensures r.Ok? && !r.value.1 ==> |r.value.0| == |probes| - from
    ensures r.Err? ==> r.error.Thrown? && from <= r.error.index < |probes| && Throws(probes[r.error.index])
    decreases |probes| - from
  {
    if from == |probes| then Ok(([], false))
    else
      var probe := probes[from];
      if probe.test.Err? then
        match Probing(probes, from + 1, store)
        case Err(e) => Err(e)
        case Ok((events, found)) =>
          EventsShift(probes, from, store, NotApplicable(from), events);
          Ok(([NotApplicable(from)] + events, found))
      else
        match probe.create
        case Ok(p) => Ok(([Exported(from, store, PackageKey(p), p)], true))
        case Err(e) =>
          if IsException(e) then Err(Thrown(from, e))
          else
            match Probing(probes, from + 1, store)
            case Err(e') => Err(e')
            case Ok((events, _)) =>
              EventsShift(probes, from, store, PackagingFailed(from), events);
              Ok(([PackagingFailed(from)] + events, true))
  }

  /** The events from `from + 1` on, preceded by the event of `from`, are
      the events from `from` on. */
  lemma EventsShift(probes: seq<Probe>, from: nat, store: string, e: Event, events: seq<Event>)
    requires from < |probes| && e == EventFor(probes[from], from, store)
    requires forall k :: 0 <= k < |events| ==> from + 1 + k < |probes| && events[k] == EventFor(probes[from + 1 + k], from + 1 + k, store)
    ensures from + |events| < |probes|
    ensures forall k :: 0 <= k < |events| + 1 ==> ([e] + events)[k] == EventFor(probes[from + k], from + k, store)
  {
    if |events| > 0 {
      var last := events[|events| - 1];
      assert from + 1 + (|events| - 1) < |probes|;
    }
    var r := [e] + events;
    forall k | 0 <= k < |events| + 1
      ensures r[k] == EventFor(probes[from + k], from + k, store)
    {
      if k > 0 {
        var j := k - 1;
        assert from + 1 + j == from + k;
        assert r[k] == events[j];
      }
    }
  }

  /** `Export(filePath, packageTarget)`: a blank path is refused; the store
      is the given target or else the directory of the file; the closing
      warning is added when no definition's `Test` succeeded. */
  function Export(filePath: string, probes: seq<Probe>, target: Option<string>,
                  directoryName: string -> string): (r: Result<seq<Event>, ExportError>)
    ensures IsBlank(filePath) <==> r == Err(FilePathMissing)
  {
    if IsBlank(filePath) then Err(FilePathMissing)
    else
      var store := target.GetOr(directoryName(filePath));
      match Probing(probes, 0, store)
      case Err(e) => Err(e)
      case Ok((events, found)) => Ok(if found then events else events + [NoDefinitionApplies])
  }

  // ---------------------------------------------------------------------
  // Properties
  // ---------------------------------------------------------------------

  /** The index of the first definition that succeeds or throws, if any. */
  function FirstDecisive(probes: seq<Probe>, from: nat): (r: Option<nat>)
    requires from <= |probes|
    ensures r.Some? ==> from <= r.value < |probes| && (Succeeds(probes[r.value]) || Throws(probes[r.value]))
    ensures r.Some? ==> forall j :: from <= j < r.value ==> !Succeeds(probes[j]) && !Throws(probes[j])
    ensures r.None? ==> forall j :: from <= j < |probes| ==> !Succeeds(probes[j]) && !Throws(probes[j])
    decreases |probes| - from
  {
    if from == |probes| then None
    else if Succeeds(probes[from]) || Throws(probes[from]) then Some(from)
    else FirstDecisive(probes, from + 1)
  }

  /** Definitions are probed in list order, each at most once; the loop
      stops at the first definition that succeeds (which is written) or
      throws, and runs to the end when there is none. */
  lemma {:induction false} ProbingStopsAtFirstDecisive(probes: seq<Probe>, from: nat, store: string)
    requires from <= |probes|
    ensures var r := Probing(probes, from, store);
            match FirstDecisive(probes, from)
            case None => r.Ok? && |r.value.0| == |probes| - from && forall k :: 0 <= k < |r.value.0| ==> !r.value.0[k].Exported?
            case Some(i) =>
              if Throws(probes[i]) then r == Err(Thrown(i, probes[i].create.error))
              else r.Ok? && |r.value.0| == i - from + 1 && r.value.0[i - from] == EventFor(probes[i], i, store)
                   && forall k :: 0 <= k < i - from ==> !r.value.0[k].Exported?
    decreases |probes| - from
  {
    if from < |probes| && !Succeeds(probes[from]) && !Throws(probes[from]) {
      ProbingStopsAtFirstDecisive(probes, from + 1, store);
    }
  }

  /** At most one package is written per call, and only as the last event
      of the loop. */
  lemma AtMostOneExport(filePath: string, probes: seq<Probe>, target: Option<string>, directoryName: string -> string)
    ensures var r := Export(filePath, probes, target, directoryName);
            r.Ok? ==> forall i :: 0 <= i < |r.value| - 1 ==> !r.value[i].Exported?
  {
    var r := Export(filePath, probes, target, directoryName);
    if r.Ok? {
      var store := target.GetOr(directoryName(filePath));
      var events := Probing(probes, 0, store).value.0;
      ProbingStopsAtFirstDecisive(probes, 0, store);
      forall i | 0 <= i < |r.value| - 1 ensures !r.value[i].Exported? {
        assert i < |events|;
        assert r.value[i] == events[i];
      }
    }
  }

  /** The closing warning is issued exactly when no definition's `Test`
      succeeded, even when accepted definitions then failed to package. */
  lemma {:induction false} WarningIffNoneApplicable(filePath: string, probes: seq<Probe>, target: Option<string>, directoryName: string -> string)
    requires Export(filePath, probes, target, directoryName).Ok?
    ensures var r := Export(filePath, probes, target, directoryName);
            NoDefinitionApplies in r.value <==> forall j :: 0 <= j < |probes| ==> probes[j].test.Err?
  {
    var store := target.GetOr(directoryName(filePath));
    var p := Probing(probes, 0, store).value;
    var r := Export(filePath, probes, target, directoryName);
    if p.1 {
      assert r.value == p.0;
      assert NoDefinitionApplies !in p.0;
    } else {
      assert r.value == p.0 + [NoDefinitionApplies];
      assert forall j :: 0 <= j < |probes| ==> probes[j].test.Err? by {
        assert |p.0| == |probes|;
      }
    }
  }

  /** Export succeeds unless the path is blank or the first definition
      that succeeds or throws throws; what it writes is the package the
      first succeeding definition created, under its id followed by
      ".nuspec", in the given target or else the file's directory. */
  lemma {:induction false} ExportWritesFirstSuccess(filePath: string, probes: seq<Probe>, target: Option<string>, directoryName: string -> string)
    requires !IsBlank(filePath)
    requires FirstDecisive(probes, 0).None? || !Throws(probes[FirstDecisive(probes, 0).value])
    ensures var r := Export(filePath, probes, target, directoryName);
            && r.Ok?
            && (forall e :: e in r.value && e.Exported? ==>
                  && FirstDecisive(probes, 0) == Some(e.index)
                  && e.package == probes[e.index].create.value
                  && e.key == e.package.id + ".nuspec"
                  && e.store == target.GetOr(directoryName(filePath)))
  {
    var store := target.GetOr(directoryName(filePath));
    ExportedIsFirstDecisive(probes, store);
    var events := Probing(probes, 0, store).value.0;
    var r := Export(filePath, probes, target, directoryName);
    assert r.value == events || r.value == events + [NoDefinitionApplies];
    forall e | e in r.value && e.Exported?
      ensures FirstDecisive(probes, 0) == Some(e.index) && e.package == probes[e.index].create.value
      ensures e.key == e.package.id + ".nuspec" && e.store == store
    {
      var k :| 0 <= k < |r.value| && r.value[k] == e;
      assert k < |events| && e == events[k];
    }
  }

  /** When no definition throws first, the loop ends normally and an
      export event can only stand at the first decisive definition. */
  lemma ExportedIsFirstDecisive(probes: seq<Probe>, store: string)
    requires FirstDecisive(probes, 0).None? || !Throws(probes[FirstDecisive(probes, 0).value])
    ensures Probing(probes, 0, store).Ok?
    ensures var events := Probing(probes, 0, store).value.0;
            forall k :: 0 <= k < |events| && events[k].Exported? ==> FirstDecisive(probes, 0) == Some(k)
  {
    ProbingStopsAtFirstDecisive(probes, 0, store);
  }

  /** A definition that throws while creating its package ends the call
      with that exception when every earlier definition was skipped or
      failed to package. */
  lemma ExportThrows(filePath: string, probes: seq<Probe>, target: Option<string>, directoryName: string -> string)
    requires !IsBlank(filePath)
    requires FirstDecisive(probes, 0).Some? && Throws(probes[FirstDecisive(probes, 0).value])
    ensures var i := FirstDecisive(probes, 0).value;
            Export(filePath, probes, target, directoryName) == Err(Thrown(i, probes[i].create.error))
  {
    ProbingStopsAtFirstDecisive(probes, 0, target.GetOr(directoryName(filePath)));
  }
}

=== FILE: ProjectDefinitions.dfy ===
/** The `ProjectDefinition<T>` template: loading and testing a project,
    and drafting a package from it. The hooks a concrete definition
    overrides (`LoadSourceModel`, `TestOverride`, `GetFrameworks`,
    `GetBinaryFiles`, `GetSourceFiles`, `GetAssetFiles`, `GetProjectId`,
    `CreatePackageOverride`) are parameters: their outcomes, or pure
    functions for the ones that take an argument. */
module ProjectDefinitions {
  import opened Wrappers
  import opened Text
  import opened Packages
  import opened RelativePath
  import SemVer

  // ---------------------------------------------------------------------
  // Load and Test
  // ---------------------------------------------------------------------

  /** `Test`: load the source model, then test it; the first error wins,
      and on success the loaded model is what the definition keeps. */
  function Test<T>(load: Result<T, string>, testOverride: T -> Option<string>): (r: Result<T, string>)
    ensures r.Ok? <==> load.Ok? && testOverride(load.value).None?
    ensures r.Ok? ==> r.value == load.value
    ensures load.Err? ==> r == Err(load.error)
    ensures load.Ok? && testOverride(load.value).Some? ==> r == Err(testOverride(load.value).value)
  {
    match load
    case Err(e) => Err(e)
    case Ok(model) =>
      match testOverride(model)
      case Some(e) => Err(e)
      case None => Ok(model)
  }

  /** A test that accepts everything (the template's default
      `TestOverride`) reduces `Test` to `Load`. */
  lemma DefaultTestIsLoad<T>(load: Result<T, string>)
    ensures Test(load, (m: T) => None) == load
  {
  }

  // ---------------------------------------------------------------------
  // Include
  // ---------------------------------------------------------------------

  /** How `CreatePackageOverride` can fail: by returning an error result
      or by throwing (a version the constructor refuses). */
  datatype OverrideError =
    | Reported(description: string)
    | Raised(version: SemVer.VersionError)

  /** Why drafting a package failed. */
  datatype BuildError =
    | RelativePathFailed(path: PathError)  // GetRelativePath threw
    | FileRefused(file: ArgumentError)     // the PackageFileModel constructor threw
    | OverrideFailed(failure: OverrideError)

  /** Whether the failure reaches the caller as an exception rather than
      as an error result: everything but an error the override reports. */
  predicate IsException(e: BuildError) {
    !(e.OverrideFailed? && e.failure.Reported?)
  }

  /** The items that are neither null nor blank, in order. */
  function NonBlank(items: seq<string>): (r: seq<string>)
    ensures |r| <= |items|
    ensures forall k :: 0 <= k < |r| ==> !IsBlank(r[k]) && r[k] in items
    ensures forall x :: x in items && !IsBlank(x) ==> x in r
  {
    if |items| == 0 then []
    else if IsBlank(items[0]) then NonBlank(items[1..])
    else [items[0]] + NonBlank(items[1..])
  }

  /** Whether an item can become a file entry: its relative path is
      computed without an error and is not blank. */
  predicate Includable(baseDir: string, item: string, sep: char) {
    var rel := GetRelativePath(baseDir, item, sep);
    rel.Ok? && !IsBlank(rel.value)
  }

  /** One item's file entry: its relative path, which must be computed
      without an error and be non-blank, in `folder`. */
  function IncludeItem(folder: Folder, item: string, baseDir: string, sep: char): (r: Result<PackageFile, BuildError>)
    ensures r.Ok? <==> Includable(baseDir, item, sep)
    ensures r.Ok? ==> r.value.target == folder && GetRelativePath(baseDir, item, sep) == Ok(r.value.pattern)
    ensures r.Err? ==> !r.error.OverrideFailed?
  {
    match GetRelativePath(baseDir, item, sep)
    case Err(e) => Err(RelativePathFailed(e))
    case Ok(rel) =>
      match NewPackageFile(rel, Some(folder))
      case Err(e) => Err(FileRefused(e))
      case Ok(file) => Ok(file)
  }

  /** The file entries of the given items, in order; the first item that
      cannot be included aborts the loop. */
  function IncludeEach(folder: Folder, xs: seq<string>, baseDir: string, sep: char): (r: Result<seq<PackageFile>, BuildError>)
    ensures r.Ok? <==> forall k :: 0 <= k < |xs| ==> IncludeItem(folder, xs[k], baseDir, sep).Ok?
    ensures r.Ok? ==> |r.value| == |xs| && forall k :: 0 <= k < |xs| ==> IncludeItem(folder, xs[k], baseDir, sep) == Ok(r.value[k])
    ensures r.Err? ==> !r.error.OverrideFailed?
  {
    if |xs| == 0 then Ok([])
    else
      match IncludeItem(folder, xs[0], baseDir, sep)
      case Err(e) => Err(e)
      case Ok(file) =>
        var rest := IncludeEach(folder, xs[1..], baseDir, sep);
        EachShift(xs, (x: string) => IncludeItem(folder, x, baseDir, sep), rest);
        match rest
        case Err(e) => Err(e)
        case Ok(files) => Ok([file] + files)
  }

  /** The items from the second on are the items of the tail, one index
      further. */
  lemma EachShift<B, E>(xs: seq<string>, f: string -> Result<B, E>, rest: Result<seq<B>, E>)
    requires |xs| > 0 && f(xs[0]).Ok?
    requires rest.Ok? <==> forall k :: 0 <= k < |xs| - 1 ==> f(xs[1..][k]).Ok?
    requires rest.Ok? ==> |rest.value| == |xs| - 1 && forall k :: 0 <= k < |xs| - 1 ==> f(xs[1..][k]) == Ok(rest.value[k])
    ensures rest.Ok? <==> forall k :: 0 <= k < |xs| ==> f(xs[k]).Ok?
    ensures rest.Ok? ==> forall k :: 0 <= k < |xs| ==> f(xs[k]) == Ok(([f(xs[0]).value] + rest.value)[k])
  {
    assert forall k :: 1 <= k < |xs| ==> xs[k] == xs[1..][k - 1];
  }

  /** `Include(package, folder, items)`: one file entry per non-blank item,
      in order, whose pattern is the item's relative path and whose target
      is `folder`. The first item that cannot be included aborts it. */
  function Include(folder: Folder, items: seq<string>, baseDir: string, sep: char): (r: Result<seq<PackageFile>, BuildError>)
    ensures r.Ok? <==> forall x :: x in NonBlank(items) ==> Includable(baseDir, x, sep)
    ensures r.Ok? ==> |r.value| == |NonBlank(items)| && forall i :: 0 <= i < |r.value| ==> r.value[i].target == folder
    ensures r.Err? ==> !r.error.OverrideFailed?
  {
    var xs := NonBlank(items);
    var r := IncludeEach(folder, xs, baseDir, sep);
    AllIncludable(folder, xs, baseDir, sep);
    r
  }

  /** Every item has a file entry exactly when every item is includable. */
  lemma AllIncludable(folder: Folder, xs: seq<string>, baseDir: string, sep: char)
    ensures (forall k :: 0 <= k < |xs| ==> IncludeItem(folder, xs[k], baseDir, sep).Ok?)
            <==> forall x :: x in xs ==> Includable(baseDir, x, sep)
  {
    if forall x :: x in xs ==> Includable(baseDir, x, sep) {
      forall k | 0 <= k < |xs| ensures IncludeItem(folder, xs[k], baseDir, sep).Ok? {
        assert xs[k] in xs;
      }
    }
  }

  /** When every item is a relative pattern without a drive colon and the
      base directory is rooted (by a separator or a drive), `Include` keeps the items themselves as
      the patterns: exactly the non-blank items, in order, all under
      `folder`. */
  lemma IncludeRelative(folder: Folder, items: seq<string>, baseDir: string, sep: char)
    requires IsSeparator(sep) && IsRooted(baseDir, sep)
    requires forall x :: x in items && !IsBlank(x) ==> x[0] != sep && ':' !in x
    ensures var xs := NonBlank(items);
            var r := Include(folder, items, baseDir, sep);
            r.Ok? && |r.value| == |xs| && forall k :: 0 <= k < |xs| ==> r.value[k] == PackageFile(xs[k], folder)
  {
    var xs := NonBlank(items);
    forall k | 0 <= k < |xs| ensures GetRelativePath(baseDir, xs[k], sep) == Ok(xs[k]) {
      RelativePathUnchanged(baseDir, xs[k], sep);
    }
  }

  // ---------------------------------------------------------------------
  // CreatePackage
  // ---------------------------------------------------------------------

  /** The frameworks that are not empty keys, in order. */
  function Qualified(frameworks: seq<string>): seq<string> {
    NonBlank(frameworks)
  }

  /** The file groups a package is drafted from, in order: one `lib` group
      per non-empty framework, with the framework as child folder (or one
      unqualified `lib` group for the empty framework when there are
      none), then `src`, then `content`. */
  function FileGroups(frameworks: seq<string>, binaries: string -> seq<string>,
                      sources: seq<string>, assets: seq<string>): (r: seq<(Folder, seq<string>)>)
    ensures var fws := Qualified(frameworks);
            && |r| == (if |fws| == 0 then 1 else |fws|) + 2
            && (|fws| == 0 ==> r[0] == (Folder(LibFolder, []), binaries("")))
            && (forall k :: 0 <= k < |fws| ==> r[k] == (Folder(LibFolder, [fws[k]]), binaries(fws[k])))
            && r[|r| - 2] == (Folder(SourceFolder, []), sources)
            && r[|r| - 1] == (Folder(ContentFolder, []), assets)
  {
    var fws := Qualified(frameworks);
    var lib := if |fws| == 0 then [(Folder(LibFolder, []), binaries(""))]
               else seq(|fws|, k requires 0 <= k < |fws| => (Folder(LibFolder, [fws[k]]), binaries(fws[k])));
    lib + [(Folder(SourceFolder, []), sources), (Folder(ContentFolder, []), assets)]
  }

  /** Including every group in turn; the first failure aborts. */
  function IncludeAll(groups: seq<(Folder, seq<string>)>, baseDir: string, sep: char): (r: Result<seq<PackageFile>, BuildError>)
    ensures r.Ok? <==> forall g :: 0 <= g < |groups| ==> Include(groups[g].0, groups[g].1, baseDir, sep).Ok?
    ensures r.Err? ==> !r.error.OverrideFailed?
  {
    ConcatAll(IncludeSteps(groups, baseDir, sep))
  }

  /** The outcome of each group's inclusion, group by group. */
  function IncludeSteps(groups: seq<(Folder, seq<string>)>, baseDir: string, sep: char): (rs: seq<Result<seq<PackageFile>, BuildError>>)
    ensures |rs| == |groups| && forall g :: 0 <= g < |groups| ==> rs[g] == Include(groups[g].0, groups[g].1, baseDir, sep)
  {
    Map(groups, (g: (Folder, seq<string>)) => Include(g.0, g.1, baseDir, sep))
  }

  /** Including a concatenation of groups includes its parts in turn: the
      first failure wins, and otherwise the entries of the first part come
      before those of the second. With `IncludeAllSingle`, the entries
      are each group's entries, group by group, in group order. */
  lemma IncludeAllAppend(a: seq<(Folder, seq<string>)>, b: seq<(Folder, seq<string>)>, baseDir: string, sep: char)
    ensures IncludeAll(a + b, baseDir, sep) == match IncludeAll(a, baseDir, sep)
                                              case Err(e) => Err(e)
                                              case Ok(xs) => match IncludeAll(b, baseDir, sep)
                                                             case Err(e) => Err(e)
                                                             case Ok(ys) => Ok(xs + ys)
  {
    MapAppend(a, b, (g: (Folder, seq<string>)) => Include(g.0, g.1, baseDir, sep));
    ConcatAllAppend(IncludeSteps(a, baseDir, sep), IncludeSteps(b, baseDir, sep));
  }

  /** One group is included by `Include` alone. */
  lemma IncludeAllSingle(g: (Folder, seq<string>), baseDir: string, sep: char)
    ensures IncludeAll([g], baseDir, sep) == Include(g.0, g.1, baseDir, sep)
  {
    assert IncludeSteps([g], baseDir, sep) == [Include(g.0, g.1, baseDir, sep)];
    ConcatAllSingle(Include(g.0, g.1, baseDir, sep));
  }

  /** A non-empty list of groups yields the first group's entries followed
      by the rest's, when both are included. */
  lemma IncludeAllStep(groups: seq<(Folder, seq<string>)>, baseDir: string, sep: char)
    requires |groups| > 0
    ensures var head, rest := Include(groups[0].0, groups[0].1, baseDir, sep), IncludeAll(groups[1..], baseDir, sep);
            head.Ok? && rest.Ok? ==> IncludeAll(groups, baseDir, sep) == Ok(head.value + rest.value)
  {
    assert groups == [groups[0]] + groups[1..];
    IncludeAllAppend([groups[0]], groups[1..], baseDir, sep);
    IncludeAllSingle(groups[0], baseDir, sep);
  }

  /** The package before `CreatePackageOverride`: the project id as id and
      title, the default version, and the file entries of every group. */
  function Draft(projectId: string, frameworks: seq<string>, binaries: string -> seq<string>,
                 sources: seq<string>, assets: seq<string>, baseDir: string, sep: char): (r: Result<Package, BuildError>)
    ensures r.Ok? ==> r.value.id == projectId && r.value.title == Some(projectId)
    ensures r.Ok? ==> r.value == NewPackage(projectId).(title := Some(projectId), files := r.value.files)
    ensures var groups := FileGroups(frameworks, binaries, sources, assets);
            && (r.Ok? <==> forall g :: 0 <= g < |groups| ==> Include(groups[g].0, groups[g].1, baseDir, sep).Ok?)
            && (r.Ok? ==> r.value.files == IncludeAll(groups, baseDir, sep).value)
    ensures r.Err? ==> !r.error.OverrideFailed?
  {
    match IncludeAll(FileGroups(frameworks, binaries, sources, assets), baseDir, sep)
    case Err(e) => Err(e)
    case Ok(files) => Ok(NewPackage(projectId).(title := Some(projectId), files := files))
  }

  /** `CreatePackage`: the draft, handed to the override; an override
      error becomes an error result carrying its description. */
  function CreatePackage(projectId: string, frameworks: seq<string>, binaries: string -> seq<string>,
                         sources: seq<string>, assets: seq<string>, baseDir: string, sep: char,
                         createOverride: Package -> Result<Package, OverrideError>): (r: Result<Package, BuildError>)
    ensures var groups := FileGroups(frameworks, binaries, sources, assets);
            (r.Err? && !r.error.OverrideFailed?) <==>
              exists g :: 0 <= g < |groups| && Include(groups[g].0, groups[g].1, baseDir, sep).Err?
    ensures var groups := FileGroups(frameworks, binaries, sources, assets);
            (r.Ok? || r.error.OverrideFailed?) ==>
              && (forall g :: 0 <= g < |groups| ==> Include(groups[g].0, groups[g].1, baseDir, sep).Ok?)
              && var draft := NewPackage(projectId).(title := Some(projectId), files := IncludeAll(groups, baseDir, sep).value);
                 createOverride(draft) == if r.Ok? then Ok(r.value) else Err(r.error.failure)
  {
    match Draft(projectId, frameworks, binaries, sources, assets, baseDir, sep)
    case Err(e) => Err(e)
    case Ok(draft) =>
      match createOverride(draft)
      case Err(e) => Err(OverrideFailed(e))
      case Ok(p) => Ok(p)
  }

  // ---------------------------------------------------------------------
  // File entry order
  // ---------------------------------------------------------------------

  /** The position of a folder kind in the draft: lib, then src, then
      content (the other kinds never occur). */
  function KindRank(k: FolderKind): nat {
    match k
    case LibFolder => 0
    case SourceFolder => 1
    case ContentFolder => 2
    case ToolsFolder => 3
    case BuildFolder => 4
  }

  /** The folder kinds of the entries never go back: every lib entry comes
      before every src entry, which comes before every content entry. */
  predicate KindsOrdered(files: seq<PackageFile>) {
    forall i, j :: 0 <= i < j < |files| ==> KindRank(files[i].target.kind) <= KindRank(files[j].target.kind)
  }

  /** The groups' folder kinds never go back. */
  predicate GroupsOrdered(groups: seq<(Folder, seq<string>)>) {
    forall i, j :: 0 <= i < j < |groups| ==> KindRank(groups[i].0.kind) <= KindRank(groups[j].0.kind)
  }

  /** Entries of one folder followed by ordered entries of that folder's
      rank or above are ordered, none is below that rank, and none is above
      a rank that bounds both parts. */
  lemma ConcatOrdered(files: seq<PackageFile>, rest: seq<PackageFile>, folder: Folder, hi: nat)
    requires forall i :: 0 <= i < |files| ==> files[i].target == folder
    requires KindsOrdered(rest)
    requires forall i :: 0 <= i < |rest| ==> KindRank(folder.kind) <= KindRank(rest[i].target.kind) <= hi
    requires KindRank(folder.kind) <= hi
    ensures KindsOrdered(files + rest)
    ensures forall i :: 0 <= i < |files + rest| ==>
              KindRank(folder.kind) <= KindRank((files + rest)[i].target.kind) <= hi
  {
    var all := files + rest;
    forall i, j | 0 <= i < j < |all| ensures KindRank(all[i].target.kind) <= KindRank(all[j].target.kind) {
      if j < |files| {
      } else if i < |files| {
        assert all[j] == rest[j - |files|];
      } else {
        assert all[i] == rest[i - |files|] && all[j] == rest[j - |files|];
      }
    }
    forall i | 0 <= i < |all| ensures KindRank(folder.kind) <= KindRank(all[i].target.kind) <= hi {
      if i >= |files| {
        assert all[i] == rest[i - |files|];
      }
    }
  }

  /** Every entry of the included groups has a kind between the first
      group's and the last group's, and entries of ordered groups are
      ordered. */
  lemma {:induction false} IncludeAllOrdered(groups: seq<(Folder, seq<string>)>, baseDir: string, sep: char)
    requires GroupsOrdered(groups)
    ensures var r := IncludeAll(groups, baseDir, sep);
            r.Ok? ==> KindsOrdered(r.value) &&
                      forall i :: 0 <= i < |r.value| ==>
                        && |groups| > 0
                        && KindRank(groups[0].0.kind) <= KindRank(r.value[i].target.kind)
                        && KindRank(r.value[i].target.kind) <= KindRank(groups[|groups| - 1].0.kind)
  {
    var r := IncludeAll(groups, baseDir, sep);
    if |groups| > 0 && r.Ok? {
      var files := Include(groups[0].0, groups[0].1, baseDir, sep).value;
      var rest := IncludeAll(groups[1..], baseDir, sep).value;
      IncludeAllStep(groups, baseDir, sep);
      assert r.value == files + rest;
      assert GroupsOrdered(groups[1..]) by {
        forall i, j | 0 <= i < j < |groups[1..]|
          ensures KindRank(groups[1..][i].0.kind) <= KindRank(groups[1..][j].0.kind)
        {
          assert groups[1..][i] == groups[i + 1] && groups[1..][j] == groups[j + 1];
        }
      }
      IncludeAllOrdered(groups[1..], baseDir, sep);
      if |rest| > 0 {
        assert KindRank(groups[0].0.kind) <= KindRank(groups[1].0.kind);
      }
      var hi := KindRank(groups[|groups| - 1].0.kind);
      assert |rest| > 0 ==> |groups| > 1 && groups[1..][|groups[1..]| - 1] == groups[|groups| - 1];
      ConcatOrdered(files, rest, groups[0].0, hi);
    }
  }

  /** The drafted package lists its lib entries first, then its src
      entries, then its content entries. */
  lemma DraftOrdered(projectId: string, frameworks: seq<string>, binaries: string -> seq<string>,
                     sources: seq<string>, assets: seq<string>, baseDir: string, sep: char)
    ensures var d := Draft(projectId, frameworks, binaries, sources, assets, baseDir, sep);
            d.Ok? ==> KindsOrdered(d.value.files) &&
                      forall i :: 0 <= i < |d.value.files| ==>
                        d.value.files[i].target.kind in {LibFolder, SourceFolder, ContentFolder}
  {
    var groups := FileGroups(frameworks, binaries, sources, assets);
    FileGroupsOrdered(frameworks, binaries, sources, assets);
    IncludeAllOrdered(groups, baseDir, sep);
    var r := IncludeAll(groups, baseDir, sep);
    if r.Ok? {
      forall i | 0 <= i < |r.value| ensures r.value[i].target.kind in {LibFolder, SourceFolder, ContentFolder} {
        assert KindRank(r.value[i].target.kind) <= KindRank(groups[|groups| - 1].0.kind);
      }
    }
  }

  /** The groups run lib, then src, then content. */
  lemma FileGroupsOrdered(frameworks: seq<string>, binaries: string -> seq<string>, sources: seq<string>, assets: seq<string>)
    ensures var groups := FileGroups(frameworks, binaries, sources, assets);
            GroupsOrdered(groups) && groups[|groups| - 1].0.kind == ContentFolder
  {
    var groups := FileGroups(frameworks, binaries, sources, assets);
    var n := |groups|;
    assert forall g :: 0 <= g < n - 2 ==> groups[g].0.kind == LibFolder;
  }
}

=== FILE: RelativePath.dfy ===
/** The path arithmetic `ProjectDefinition` applies to every file pattern
    before it becomes a package file entry (`GetRelativePath`). Paths are
    plain strings over a directory separator character, which is a
    parameter; `Path.Combine` and `Path.IsPathRooted` follow their Windows
    reading. */
module RelativePath {
  import opened Wrappers
  import opened Text

  /** The exceptions the computation throws. */
  datatype PathError =
    | PathMissing       // a null or blank path (ArgumentNullException)
    | NoCommonAncestor  // a drive-rooted path outside the base (ArgumentException)
    | NegativeRepeat    // a repeat count of -1 (ArgumentOutOfRangeException)

  /** The directory separators of the two platforms. */
  predicate IsSeparator(c: char) {
    c == '/' || c == '\\'
  }

  // ---------------------------------------------------------------------
  // Path.Combine
  // ---------------------------------------------------------------------

  /** `Path.IsPathRooted`: a leading separator or a drive letter. */
  predicate IsRooted(p: string, sep: char) {
    (|p| > 0 && p[0] == sep) || (|p| >= 2 && p[1] == ':')
  }

  /** `Path.Combine(a, b)`: an empty part yields the other, a rooted second
      part replaces the first, and otherwise one separator joins them. */
  function Combine(a: string, b: string, sep: char): (r: string)
    ensures b == "" ==> r == a
    ensures b != "" && (a == "" || IsRooted(b, sep)) ==> r == b
    ensures |r| >= |b| && r[|r| - |b|..] == b
  {
    if b == "" then a
    else if a == "" || IsRooted(b, sep) then b
    else if a[|a| - 1] == sep || a[|a| - 1] == ':' then a + b
    else a + [sep] + b
  }

  /** Splitting two paths joined by a separator gives the segments of
      the first, then those of the second. */
  lemma SplitConcat(a: string, b: string, sep: char)
    ensures Split(a + [sep] + b, sep) == Split(a, sep) + Split(b, sep)
  {
    var pa, pb := Split(a, sep), Split(b, sep);
    assert Join([sep], pa) == a && Join([sep], pb) == b;
    JoinAppend([sep], pa, pb);
    assert Join([sep], pa + pb) == a + [sep] + b;
    assert forall i :: 0 <= i < |pa + pb| ==> sep !in (pa + pb)[i] by {
      forall i | 0 <= i < |pa + pb| ensures sep !in (pa + pb)[i] {
        if i >= |pa| {
          assert (pa + pb)[i] == pb[i - |pa|];
        }
      }
    }
    SplitJoin(pa + pb, sep);
  }

  /** Combining two relative paths on a separator boundary concatenates
      their segments. */
  lemma CombineSegments(a: string, b: string, sep: char)
    requires a != "" && b != "" && !IsRooted(b, sep)
    requires a[|a| - 1] != sep && a[|a| - 1] != ':'
    ensures Split(Combine(a, b, sep), sep) == Split(a, sep) + Split(b, sep)
  {
    SplitConcat(a, b, sep);
  }

  // ---------------------------------------------------------------------
  // The ancestor search
  // ---------------------------------------------------------------------

  /** The directory part of a split path: every segment but the last,
      joined again. */
  function DirectoryOf(segments: seq<string>, sep: char): string
    requires |segments| >= 1
  {
    Join([sep], segments[..|segments| - 1])
  }

  /** The base directory's segments at level `i`: all of them at level 0,
      one fewer per level up. */
  function AncestorSegments(baseSegments: seq<string>, i: nat): (r: seq<string>)
    requires i < |baseSegments|
    ensures |r| >= 1 && r + baseSegments[|baseSegments| - i..] == baseSegments
  {
    baseSegments[..|baseSegments| - i]
  }

  /** Whether the ancestor at level `i`, joined and followed by a
      separator, is a case-insensitive prefix of `dir`. */
  predicate IsAncestorAt(baseSegments: seq<string>, dir: string, sep: char, i: nat)
    requires i < |baseSegments|
  {
    StartsWithIgnoreCase(dir, Join([sep], AncestorSegments(baseSegments, i)) + [sep])
  }

  /** The search from level `from` upward: the first level that is an
      ancestor of `dir`, if any. */
  function AncestorFrom(baseSegments: seq<string>, dir: string, sep: char, from: nat): (r: Option<nat>)
    ensures r.Some? ==> from <= r.value < |baseSegments| && IsAncestorAt(baseSegments, dir, sep, r.value)
    ensures forall j :: from <= j < |baseSegments| && (r.None? || j < r.value) ==>
              !IsAncestorAt(baseSegments, dir, sep, j)
    decreases |baseSegments| - from
  {
    if from >= |baseSegments| then None
    else if IsAncestorAt(baseSegments, dir, sep, from) then Some(from)
    else AncestorFrom(baseSegments, dir, sep, from + 1)
  }

  /** The common-ancestor level: the deepest ancestor of `dir`. */
  function AncestorLevel(baseSegments: seq<string>, dir: string, sep: char): Option<nat> {
    AncestorFrom(baseSegments, dir, sep, 0)
  }

  /** The level found is the least level that is an ancestor, and none is
      found exactly when no level is one. */
  lemma AncestorLevelIsLeast(baseSegments: seq<string>, dir: string, sep: char, i: nat)
    ensures AncestorLevel(baseSegments, dir, sep) == Some(i) <==>
            i < |baseSegments| && IsAncestorAt(baseSegments, dir, sep, i) &&
            forall j :: 0 <= j < i ==> !IsAncestorAt(baseSegments, dir, sep, j)
    ensures AncestorLevel(baseSegments, dir, sep).None? <==>
            forall j :: 0 <= j < |baseSegments| ==> !IsAncestorAt(baseSegments, dir, sep, j)
  {
  }

  /** Below the ancestor at level `i` >= 1, the base path holds one
      separator and then the joined segments of the last `i` levels. */
  lemma RemainderBelow(baseDir: string, sep: char, i: nat)
    requires 1 <= i < |Split(baseDir, sep)|
    ensures var bs := Split(baseDir, sep);
            var anc := Join([sep], AncestorSegments(bs, i));
            && |anc| + 1 <= |baseDir|
            && baseDir[|anc| + 1..] == Join([sep], bs[|bs| - i..])
  {
    var bs := Split(baseDir, sep);
    var below := bs[|bs| - i..];
    JoinAppend([sep], AncestorSegments(bs, i), below);
    var anc := Join([sep], AncestorSegments(bs, i));
    assert baseDir == anc + [sep] + Join([sep], below);
    assert baseDir[|anc| + 1..] == Join([sep], below);
  }

  // ---------------------------------------------------------------------
  // GetRelativePath
  // ---------------------------------------------------------------------

  /** `GetRelativePath(baseDirectory, path)` as `Include` calls it (without
      the base directory prepended). The base directory and the file's
      directory are split into segments and the deepest common ancestor
      is searched for. With none, a path whose first segment holds a
      drive colon is refused and any other path is returned unchanged.
      With one at level `i`, the result is `i - 1` ".." segments combined
      with the base directory's own remainder below the ancestor; at level
      0 the repeat count is -1 and the call throws. */
  function GetRelativePath(baseDir: string, path: string, sep: char): (r: Result<string, PathError>)
    ensures IsBlank(path) <==> r == Err(PathMissing)
  {
    if NormalizeNull(path).None? then Err(PathMissing)
    else
      var bs := Split(baseDir, sep);
      var fs := Split(path, sep);
      match AncestorLevel(bs, FileDirectory(path, sep), sep)
      case None =>
        if ':' in fs[0] then Err(NoCommonAncestor) else Ok(path)
      case Some(i) =>
        if i == 0 then Err(NegativeRepeat) else Ok(FromAncestor(baseDir, sep, i))
  }

  /** The result for a common ancestor `i` >= 1 levels up: `i - 1` ".."
      segments combined with the text of the base path after the ancestor
      and its separator. */
  function FromAncestor(baseDir: string, sep: char, i: nat): string
    requires 1 <= i < |Split(baseDir, sep)|
  {
    Combine(Join([sep], Repeat("..", i - 1)), Remainder(baseDir, sep, i), sep)
  }

  /** The text of the base path after the ancestor `i` levels up and its
      separator: the segments below that ancestor. */
  function Remainder(baseDir: string, sep: char, i: nat): (r: string)
    requires 1 <= i < |Split(baseDir, sep)|
    ensures var bs := Split(baseDir, sep); r == Join([sep], bs[|bs| - i..])
  {
    var anc := Join([sep], AncestorSegments(Split(baseDir, sep), i));
    RemainderBelow(baseDir, sep, i);
    baseDir[|anc| + 1..]
  }

  /** The file's directory, as `GetRelativePath` searches it. */
  function FileDirectory(path: string, sep: char): string {
    DirectoryOf(Split(path, sep), sep)
  }

  /** Without a common ancestor, a path whose first segment holds a drive
      colon is refused and any other path comes back unchanged. */
  lemma NoAncestorOutcome(baseDir: string, path: string, sep: char)
    requires !IsBlank(path)
    requires AncestorLevel(Split(baseDir, sep), FileDirectory(path, sep), sep).None?
    ensures GetRelativePath(baseDir, path, sep) ==
            if ':' in Split(path, sep)[0] then Err(NoCommonAncestor) else Ok(path)
  {
  }

  /** A file directory inside the base directory itself (level 0) asks
      for -1 ".." segments, which throws. */
  lemma LevelZeroOutcome(baseDir: string, path: string, sep: char)
    requires !IsBlank(path)
    requires AncestorLevel(Split(baseDir, sep), FileDirectory(path, sep), sep) == Some(0)
    ensures GetRelativePath(baseDir, path, sep) == Err(NegativeRepeat)
  {
  }

  /** With the common ancestor `i` >= 1 levels up, the result is `i - 1`
      ".." segments combined with the base directory's segments below the
      ancestor; the file's own segments below it play no part. */
  lemma AncestorOutcome(baseDir: string, path: string, sep: char, i: nat)
    requires !IsBlank(path) && i >= 1
    requires AncestorLevel(Split(baseDir, sep), FileDirectory(path, sep), sep) == Some(i)
    ensures var bs := Split(baseDir, sep);
            GetRelativePath(baseDir, path, sep) ==
            Ok(Combine(Join([sep], Repeat("..", i - 1)), Join([sep], bs[|bs| - i..]), sep))
  {
    LevelOutcome(baseDir, path, sep, i);
  }

  /** With the common ancestor `i` >= 1 levels up, the result is what
      `FromAncestor` makes of the base directory. */
  lemma LevelOutcome(baseDir: string, path: string, sep: char, i: nat)
    requires !IsBlank(path) && i >= 1
    requires AncestorLevel(Split(baseDir, sep), FileDirectory(path, sep), sep) == Some(i)
    ensures i < |Split(baseDir, sep)| && GetRelativePath(baseDir, path, sep) == Ok(FromAncestor(baseDir, sep, i))
  {
  }

  /** A segment list's join starts with its first segment, followed by a
      separator when more segments follow. */
  lemma JoinHead(parts: seq<string>, sep: char)
    requires |parts| >= 1
    ensures var s := Join([sep], parts);
            && |s| >= |parts[0]| && s[..|parts[0]|] == parts[0]
            && (|parts| > 1 ==> |s| > |parts[0]| && s[|parts[0]|] == sep)
  {
    if |parts| > 1 {
      var s := Join([sep], parts);
      assert s == parts[0] + [sep] + Join([sep], parts[1..]);
    }
  }

  /** Every candidate ancestor of a rooted base path starts like it: with
      the separator when the base does, and otherwise with a drive
      segment, so with a colon as its second character. */
  lemma RootedCandidate(baseDir: string, sep: char, i: nat)
    requires IsSeparator(sep) && IsRooted(baseDir, sep)
    requires i < |Split(baseDir, sep)|
    ensures var c := Join([sep], AncestorSegments(Split(baseDir, sep), i)) + [sep];
            c[0] == sep || (|c| >= 2 && c[1] == ':')
  {
    var bs := Split(baseDir, sep);
    JoinHead(bs, sep);
    JoinHead(AncestorSegments(bs, i), sep);
    if baseDir[0] != sep {
      assert |bs[0]| >= 2 && bs[0][1] == ':' by {
        if |bs| == 1 {
          assert bs[0] == baseDir;
        }
      }
    }
  }

  /** A path's directory part is a prefix of the path. */
  lemma DirectoryPrefix(path: string, sep: char)
    ensures var d := FileDirectory(path, sep);
            |d| <= |path| && path[..|d|] == d
  {
    var fs := Split(path, sep);
    var d := FileDirectory(path, sep);
    if |fs| > 1 {
      JoinAppend([sep], fs[..|fs| - 1], fs[|fs| - 1..]);
      assert fs[..|fs| - 1] + fs[|fs| - 1..] == fs;
      assert path == d + [sep] + Join([sep], fs[|fs| - 1..]);
      assert path[..|d|] == d;
    }
  }

  /** A relative pattern without a drive colon passes through unchanged
      when the base directory is rooted, by a separator or by a drive: no
      candidate ancestor, which always starts with a separator or a drive
      segment, can prefix a directory that starts with neither.
      This is what the file patterns of a project definition rely on. */
  lemma RelativePathUnchanged(baseDir: string, path: string, sep: char)
    requires IsSeparator(sep) && IsRooted(baseDir, sep)
    requires !IsBlank(path) && path[0] != sep && ':' !in path
    ensures GetRelativePath(baseDir, path, sep) == Ok(path)
  {
    var bs := Split(baseDir, sep);
    var fs := Split(path, sep);
    var d := FileDirectory(path, sep);
    DirectoryPrefix(path, sep);
    forall j | 0 <= j < |bs| ensures !IsAncestorAt(bs, d, sep, j) {
      RootedCandidate(baseDir, sep, j);
      var c := Join([sep], AncestorSegments(bs, j)) + [sep];
      if |c| <= |d| {
        if c[0] == sep {
          assert UpperAscii(d[0]) != UpperAscii(c[0]) by {
            assert d[0] == path[0];
          }
        } else {
          assert UpperAscii(d[1]) != UpperAscii(c[1]) by {
            assert d[1] == path[1];
          }
        }
      }
    }
    AncestorLevelIsLeast(bs, d, sep, 0);
    JoinHead(fs, sep);
    assert ':' !in fs[0];
  }

  // ---------------------------------------------------------------------
  // Worked examples
  // ---------------------------------------------------------------------

  /** The directory of a file named directly under `dir` is `dir`. */
  lemma DirectoryOfChild(dir: string, name: string, sep: char)
    requires sep !in name
    ensures FileDirectory(dir + [sep] + name, sep) == dir
  {
    var ds := Split(dir, sep);
    SplitConcat(dir, name, sep);
    assert Split(name, sep) == [name];
    assert (ds + [name])[..|ds|] == ds;
  }

  /** The parent of the base directory is an ancestor of the base
      directory itself, and the base is not its own ancestor. */
  lemma ParentIsAncestor(baseDir: string, sep: char)
    requires |Split(baseDir, sep)| >= 2
    ensures AncestorLevel(Split(baseDir, sep), baseDir, sep) == Some(1)
  {
    var bs := Split(baseDir, sep);
    var n := |bs|;
    assert !IsAncestorAt(bs, baseDir, sep, 0) by {
      assert AncestorSegments(bs, 0) == bs;
    }
    assert IsAncestorAt(bs, baseDir, sep, 1) by {
      var anc := Join([sep], AncestorSegments(bs, 1));
      JoinAppend([sep], AncestorSegments(bs, 1), bs[n - 1..]);
      assert baseDir == (anc + [sep]) + Join([sep], bs[n - 1..]);
      StartsWithOwnPrefix(anc + [sep], Join([sep], bs[n - 1..]));
    }
    AncestorLevelIsLeast(bs, baseDir, sep, 1);
  }

  /** One level up, the result is the base directory's last segment. */
  lemma ParentOutcome(baseDir: string, sep: char)
    requires |Split(baseDir, sep)| >= 2
    ensures var bs := Split(baseDir, sep);
            FromAncestor(baseDir, sep, 1) == bs[|bs| - 1]
  {
    var bs := Split(baseDir, sep);
    assert Remainder(baseDir, sep, 1) == bs[|bs| - 1] by {
      assert bs[|bs| - 1..] == [bs[|bs| - 1]];
    }
    assert Join([sep], Repeat("..", 0)) == "" by {
      assert Repeat("..", 0) == [];
    }
  }

  /** A file directly inside the base directory: the parent is the
      common ancestor, so the result is the base directory's own last
      segment, whatever the file is called. */
  lemma FileInBase(baseDir: string, name: string, sep: char)
    requires IsSeparator(sep) && sep !in name
    requires |Split(baseDir, sep)| >= 2
    ensures var bs := Split(baseDir, sep);
            GetRelativePath(baseDir, baseDir + [sep] + name, sep) == Ok(bs[|bs| - 1])
  {
    var path := baseDir + [sep] + name;
    assert AncestorLevel(Split(baseDir, sep), FileDirectory(path, sep), sep) == Some(1) by {
      DirectoryOfChild(baseDir, name, sep);
      ParentIsAncestor(baseDir, sep);
    }
    assert !IsBlank(path) by {
      NotBlank(path, |baseDir|);
    }
    LevelOutcome(baseDir, path, sep, 1);
    ParentOutcome(baseDir, sep);
  }

  /** A file in a sub-directory of the base directory: the base itself is
      the common ancestor, the ".." count comes out as -1, and the call
      throws. */
  lemma FileBelowBase(baseDir: string, sub: string, name: string, sep: char)
    requires IsSeparator(sep) && sep !in name
    ensures GetRelativePath(baseDir, baseDir + [sep] + sub + [sep] + name, sep) == Err(NegativeRepeat)
  {
    var path := baseDir + [sep] + sub + [sep] + name;
    var bs := Split(baseDir, sep);
    var ss := Split(sub, sep);
    SplitConcat(baseDir, sub, sep);
    SplitConcat(baseDir + [sep] + sub, name, sep);
    assert Split(name, sep) == [name];
    assert Split(path, sep) == (bs + ss) + [name];
    var dir := FileDirectory(path, sep);
    assert ((bs + ss) + [name])[..|bs + ss|] == bs + ss;
    JoinAppend([sep], bs, ss);
    assert dir == baseDir + [sep] + sub;
    assert IsAncestorAt(bs, dir, sep, 0) by {
      assert AncestorSegments(bs, 0) == bs;
      assert dir == (baseDir + [sep]) + sub;
      StartsWithOwnPrefix(baseDir + [sep], sub);
    }
    AncestorLevelIsLeast(bs, dir, sep, 0);
    NotBlank(path, |baseDir|);
    LevelZeroOutcome(baseDir, path, sep);
  }

  /** A path on another drive shares no ancestor with the base and is
      refused. */
  lemma OtherDriveExample(base: string, path: string)
    requires base == "C:\\r" && path == "D:\\x"
    ensures GetRelativePath(base, path, '\\') == Err(NoCommonAncestor)
  {
    var fs := ["D:", "x"];
    assert Split(base, '\\') == ["C:", "r"] by {
      SplitExample("C:", "r", base);
    }
    assert Split(path, '\\') == fs by {
      SplitExample("D:", "x", path);
    }
    var dir := FileDirectory(path, '\\');
    assert dir == "D:" by {
      assert fs[..1] == ["D:"];
    }
    OtherDriveNoAncestor(["C:", "r"], dir);
    NotBlank(path, 0);
    assert ':' in fs[0] by {
      assert fs[0][1] == ':';
    }
    NoAncestorOutcome(base, path, '\\');
  }

  /** Two separator-free segments joined by a backslash split back into
      themselves. */
  lemma SplitExample(a: string, b: string, s: string)
    requires a in ["C:", "D:"] && b in ["r", "x"] && s == a + "\\" + b
    ensures Split(s, '\\') == [a, b]
  {
    assert Join(['\\'], [a, b]) == s;
    SplitJoin([a, b], '\\');
  }

  /** No ancestor level of the segments of `C:\r` is a prefix of `D:`. */
  lemma OtherDriveNoAncestor(bs: seq<string>, dir: string)
    requires bs == ["C:", "r"] && dir == "D:"
    ensures AncestorLevel(bs, dir, '\\').None?
  {
    forall j | 0 <= j < |bs| ensures !IsAncestorAt(bs, dir, '\\', j) {
      var c := AncestorSegments(bs, j);
      assert c[0] == "C:";
      JoinHead(c, '\\');
      assert (Join(['\\'], c) + ['\\'])[0] == 'C';
    }
    AncestorLevelIsLeast(bs, dir, '\\', 0);
  }
}

=== FILE: SemVer.dfy ===
/** The semantic-version value shared by both copies of `SemanticVersion`
    (XyrusWorx.Management.Common and module-src/lib/XyrusWorx.Shell.Versioning).
    The two copies agree line for line on construction, precedence, equality,
    the comparison operators, the raise/declare helpers and rendering; they
    differ only in the accepted text form and in `CompatibleRange`, which live
    in ManagementVersioning and ShellVersioning. */
module SemVer {
  import opened Wrappers
  import opened Text

  /** major.minor.patch, pre-release identifiers, build metadata. */
  datatype Version = Version(major: nat, minor: nat, patch: nat, pre: seq<string>, meta: seq<string>)

  /** `default(SemanticVersion)`, which is also `SemanticVersion.Empty`. */
  const Empty := Version(0, 0, 0, [], [])

  /** `IsEmpty`: all three numbers zero and no identifiers of either kind. */
  predicate IsEmpty(v: Version) {
    v.major == 0 && v.minor == 0 && v.patch == 0 && |v.pre| == 0 && |v.meta| == 0
  }

  /** What the constructor guarantees of every value it lets through. */
  predicate Valid(v: Version) {
    AllTokens(v.pre) && AllTokens(v.meta)
  }

  /** The exceptions the constructors and declare helpers throw. */
  datatype VersionError =
    | MajorOutOfRange
    | MinorOutOfRange
    | PatchOutOfRange
    | InvalidPreRelease
    | InvalidMetadata
    | MissingArgument

  // ---------------------------------------------------------------------
  // Construction
  // ---------------------------------------------------------------------

  /** The five-argument constructor; a null array is passed as []. */
  function Create(major: int, minor: int, patch: int, pre: seq<string>, meta: seq<string>): (r: Result<Version, VersionError>)
    ensures r.Ok? <==> major >= 0 && minor >= 0 && patch >= 0 && AllTokens(pre) && AllTokens(meta)
    ensures r.Ok? ==> Valid(r.value) && r.value == Version(major, minor, patch, pre, meta)
    ensures r.Err? && major < 0 ==> r.error == MajorOutOfRange
    ensures r.Err? && major >= 0 && minor >= 0 && patch >= 0 && AllTokens(pre) ==> r.error == InvalidMetadata
  {
    if major < 0 then Err(MajorOutOfRange)
    else if minor < 0 then Err(MinorOutOfRange)
    else if patch < 0 then Err(PatchOutOfRange)
    else if !AllTokens(pre) then Err(InvalidPreRelease)
    else if !AllTokens(meta) then Err(InvalidMetadata)
    else Ok(Version(major, minor, patch, pre, meta))
  }

  /** The constructor taking one pre-release string: an empty string means
      "no pre-release", anything else (even whitespace) is one identifier. */
  function CreateTagged(major: int, minor: int, patch: int, preRelease: string, meta: seq<string>): (r: Result<Version, VersionError>)
    ensures preRelease == "" ==> r == Create(major, minor, patch, [], meta)
    ensures preRelease != "" ==> r == Create(major, minor, patch, [preRelease], meta)
  {
    Create(major, minor, patch, if preRelease == "" then [] else [preRelease], meta)
  }

  // ---------------------------------------------------------------------
  // Precedence
  // ---------------------------------------------------------------------

  function Sign(a: nat, b: nat): int {
    if a > b then 1 else if a < b then -1 else 0
  }

  /** One pre-release identifier against another: an all-digit identifier
      ranks below any other, two all-digit ones compare by value, the rest
      ordinally. */
  function CompareIdentifier(x: string, y: string): int {
    if IsDigits(x) && !IsDigits(y) then -1
    else if !IsDigits(x) && IsDigits(y) then 1
    else if IsDigits(x) && IsDigits(y) then Sign(DigitsValue(x), DigitsValue(y))
    else CompareOrdinal(x, y)
  }

  /** The loop over two equally long identifier lists: the first position
      that differs decides. */
  function ComparePreRelease(xs: seq<string>, ys: seq<string>): int
    requires |xs| == |ys|
  {
    if |xs| == 0 then 0
    else
      var c := CompareIdentifier(xs[0], ys[0]);
      if c != 0 then c else ComparePreRelease(xs[1..], ys[1..])
  }

  /** `CompareTo`, as a sign. */
  function CompareTo(a: Version, b: Version): int {
    if IsEmpty(a) && IsEmpty(b) then 0
    else if IsEmpty(a) then -1
    else if IsEmpty(b) then 1
    else if a.major != b.major then Sign(a.major, b.major)
    else if a.minor != b.minor then Sign(a.minor, b.minor)
    else if a.patch != b.patch then Sign(a.patch, b.patch)
    else if |a.pre| == 0 && |b.pre| > 0 then 1
    else if |a.pre| > 0 && |b.pre| == 0 then -1
    else if |a.pre| != |b.pre| then Sign(|a.pre|, |b.pre|)
    else ComparePreRelease(a.pre, b.pre)
  }

  /** `Equals`: two empties are equal, an empty never equals a non-empty,
      otherwise the numbers and the pre-release lists must agree. */
  predicate Equals(a: Version, b: Version) {
    if IsEmpty(a) && IsEmpty(b) then true
    else if IsEmpty(a) != IsEmpty(b) then false
    else a.major == b.major && a.minor == b.minor && a.patch == b.patch && a.pre == b.pre
  }

  /** `operator <`, which the source defines as `CompareTo > 0`. */
  predicate Less(a: Version, b: Version) {
    CompareTo(a, b) > 0
  }

  /** `operator >`, which the source defines as `CompareTo < 0`. */
  predicate Greater(a: Version, b: Version) {
    CompareTo(a, b) < 0
  }

  // ---------------------------------------------------------------------
  // Precedence is a total preorder
  // ---------------------------------------------------------------------

  lemma CompareIdentifierAntisymmetric(x: string, y: string)
    ensures CompareIdentifier(x, y) == -CompareIdentifier(y, x)
    ensures -1 <= CompareIdentifier(x, y) <= 1
  {
    CompareOrdinalAntisymmetric(x, y);
    CompareOrdinalRange(x, y);
  }

  /** Two identifiers rank alike exactly when they are the same text or
      two digit strings of the same value ("01" and "1"). */
  lemma CompareIdentifierZero(x: string, y: string)
    ensures CompareIdentifier(x, y) == 0 <==>
            x == y || (IsDigits(x) && IsDigits(y) && DigitsValue(x) == DigitsValue(y))
  {
    CompareOrdinalZero(x, y);
  }

  lemma CompareIdentifierLeTransitive(x: string, y: string, z: string)
    requires CompareIdentifier(x, y) <= 0 && CompareIdentifier(y, z) <= 0
    ensures CompareIdentifier(x, z) <= 0
  {
    if !IsDigits(x) && !IsDigits(y) && !IsDigits(z) {
      CompareOrdinalZero(x, y);
      CompareOrdinalZero(y, z);
      if CompareOrdinal(x, y) < 0 && CompareOrdinal(y, z) < 0 {
        CompareOrdinalTransitive(x, y, z);
      }
    }
  }

  lemma CompareIdentifierLtTransitive(x: string, y: string, z: string)
    requires CompareIdentifier(x, y) <= 0 && CompareIdentifier(y, z) <= 0
    requires CompareIdentifier(x, y) < 0 || CompareIdentifier(y, z) < 0
    ensures CompareIdentifier(x, z) < 0
  {
    CompareIdentifierLeTransitive(x, y, z);
    if CompareIdentifier(x, z) == 0 {
      CompareIdentifierAntisymmetric(x, z);
      CompareIdentifierAntisymmetric(x, y);
      CompareIdentifierAntisymmetric(y, z);
      if CompareIdentifier(x, y) < 0 {
        CompareIdentifierLeTransitive(y, z, x);
      } else {
        CompareIdentifierLeTransitive(z, x, y);
      }
    }
  }

  lemma {:induction false} ComparePreReleaseAntisymmetric(xs: seq<string>, ys: seq<string>)
    requires |xs| == |ys|
    ensures ComparePreRelease(xs, ys) == -ComparePreRelease(ys, xs)
    ensures -1 <= ComparePreRelease(xs, ys) <= 1
  {
    if |xs| > 0 {
      CompareIdentifierAntisymmetric(xs[0], ys[0]);
      ComparePreReleaseAntisymmetric(xs[1..], ys[1..]);
    }
  }

  lemma {:induction false} ComparePreReleaseLeTransitive(xs: seq<string>, ys: seq<string>, zs: seq<string>)
    requires |xs| == |ys| == |zs|
    requires ComparePreRelease(xs, ys) <= 0 && ComparePreRelease(ys, zs) <= 0
    ensures ComparePreRelease(xs, zs) <= 0
  {
    if |xs| > 0 {
      var c1 := CompareIdentifier(xs[0], ys[0]);
      var c2 := CompareIdentifier(ys[0], zs[0]);
      if c1 == 0 && c2 == 0 {
        CompareIdentifierLeTransitive(xs[0], ys[0], zs[0]);
        CompareIdentifierAntisymmetric(xs[0], zs[0]);
        CompareIdentifierLeTransitive(zs[0], ys[0], xs[0]) by {
          CompareIdentifierAntisymmetric(xs[0], ys[0]);
          CompareIdentifierAntisymmetric(ys[0], zs[0]);
        }
        ComparePreReleaseLeTransitive(xs[1..], ys[1..], zs[1..]);
      } else {
        CompareIdentifierLtTransitive(xs[0], ys[0], zs[0]);
      }
    }
  }

  lemma CompareToAntisymmetric(a: Version, b: Version)
    ensures CompareTo(a, b) == -CompareTo(b, a)
    ensures -1 <= CompareTo(a, b) <= 1
  {
    if |a.pre| == |b.pre| {
      ComparePreReleaseAntisymmetric(a.pre, b.pre);
    }
  }

  lemma {:induction false} ComparePreReleaseReflexive(xs: seq<string>)
    ensures ComparePreRelease(xs, xs) == 0
  {
    if |xs| > 0 {
      CompareIdentifierZero(xs[0], xs[0]);
      ComparePreReleaseReflexive(xs[1..]);
    }
  }

  lemma CompareToReflexive(a: Version)
    ensures CompareTo(a, a) == 0
  {
    ComparePreReleaseReflexive(a.pre);
  }

  lemma CompareToLeTransitive(a: Version, b: Version, c: Version)
    requires CompareTo(a, b) <= 0 && CompareTo(b, c) <= 0
    ensures CompareTo(a, c) <= 0
  {
    if !IsEmpty(a) && !IsEmpty(b) && !IsEmpty(c)
      && a.major == b.major == c.major && a.minor == b.minor == c.minor && a.patch == b.patch == c.patch
      && |a.pre| == |b.pre| == |c.pre|
    {
      ComparePreReleaseLeTransitive(a.pre, b.pre, c.pre);
    }
  }

  lemma CompareToLtTransitive(a: Version, b: Version, c: Version)
    requires CompareTo(a, b) <= 0 && CompareTo(b, c) <= 0
    requires CompareTo(a, b) < 0 || CompareTo(b, c) < 0
    ensures CompareTo(a, c) < 0
  {
    CompareToLeTransitive(a, b, c);
    if CompareTo(a, c) == 0 {
      CompareToAntisymmetric(a, c);
      CompareToAntisymmetric(a, b);
      CompareToAntisymmetric(b, c);
      if CompareTo(a, b) < 0 {
        CompareToLeTransitive(b, c, a);
      } else {
        CompareToLeTransitive(c, a, b);
      }
    }
  }

  // ---------------------------------------------------------------------
  // Equality, metadata and the operators
  // ---------------------------------------------------------------------

  /** Every digit-only identifier is written without leading zeros. */
  predicate NoLeadingZeros(ids: seq<string>) {
    forall i :: 0 <= i < |ids| && IsDigits(ids[i]) ==> IsCanonicalNat(ids[i])
  }

  lemma {:induction false} ComparePreReleaseZero(xs: seq<string>, ys: seq<string>)
    requires |xs| == |ys|
    requires NoLeadingZeros(xs) && NoLeadingZeros(ys)
    ensures ComparePreRelease(xs, ys) == 0 <==> xs == ys
  {
    if |xs| > 0 {
      CompareIdentifierZero(xs[0], ys[0]);
      if IsDigits(xs[0]) && IsDigits(ys[0]) && DigitsValue(xs[0]) == DigitsValue(ys[0]) {
        assert IsCanonicalNat(xs[0]) && IsCanonicalNat(ys[0]);
        NatToStringOfDigitsValue(xs[0]);
        NatToStringOfDigitsValue(ys[0]);
      }
      assert NoLeadingZeros(xs[1..]) && NoLeadingZeros(ys[1..]) by {
        forall i | 0 <= i < |xs| - 1 && IsDigits(xs[1..][i]) ensures IsCanonicalNat(xs[1..][i]) {
          assert xs[1..][i] == xs[i + 1];
        }
        forall i | 0 <= i < |ys| - 1 && IsDigits(ys[1..][i]) ensures IsCanonicalNat(ys[1..][i]) {
          assert ys[1..][i] == ys[i + 1];
        }
      }
      ComparePreReleaseZero(xs[1..], ys[1..]);
      if xs[1..] == ys[1..] && xs[0] == ys[0] {
        assert xs == [xs[0]] + xs[1..];
        assert ys == [ys[0]] + ys[1..];
      }
    }
  }

  /** `Equals` implies equal precedence, and the converse holds as long as
      no digit-only pre-release identifier carries a leading zero. */
  lemma EqualsIsSameRank(a: Version, b: Version)
    ensures Equals(a, b) ==> CompareTo(a, b) == 0
    ensures NoLeadingZeros(a.pre) && NoLeadingZeros(b.pre) ==> (CompareTo(a, b) == 0 <==> Equals(a, b))
  {
    if Equals(a, b) {
      CompareToReflexive(a);
      if !IsEmpty(a) {
        assert a.pre == b.pre;
        ComparePreReleaseReflexive(a.pre);
      }
    }
    if NoLeadingZeros(a.pre) && NoLeadingZeros(b.pre) && |a.pre| == |b.pre| {
      ComparePreReleaseZero(a.pre, b.pre);
    }
  }

  /** "1.0.0-01" and "1.0.0-1" have the same precedence yet are not equal. */
  lemma SameRankNotEqual()
    ensures var a := Version(1, 0, 0, ["01"], []);
            var b := Version(1, 0, 0, ["1"], []);
            Valid(a) && Valid(b) && CompareTo(a, b) == 0 && !Equals(a, b)
  {
    var a := Version(1, 0, 0, ["01"], []);
    var b := Version(1, 0, 0, ["1"], []);
    assert IsDigits("01") && IsDigits("1");
    assert DigitsValue("01") == 1 by {
      assert "01"[..1] == "0";
      assert ""[..0] == "";
    }
    assert DigitsValue("1") == 1 by {
      assert "1"[..0] == "";
    }
    assert ComparePreRelease(a.pre, b.pre) == 0 by {
      assert a.pre[1..] == [];
    }
    assert IsToken("01") && IsToken("1");
  }

  /** Build metadata takes part in neither precedence nor equality, except
      through `IsEmpty`: replacing it changes nothing as long as emptiness
      is unchanged. */
  lemma MetadataIgnored(a: Version, b: Version, meta: seq<string>)
    requires IsEmpty(a) == IsEmpty(a.(meta := meta))
    ensures CompareTo(a.(meta := meta), b) == CompareTo(a, b)
    ensures Equals(a.(meta := meta), b) == Equals(a, b)
  {
  }

  /** ... which it does change for 0.0.0: "0.0.0+build" ranks above the
      empty version and is not equal to it. */
  lemma MetadataMakesNonEmpty()
    ensures CompareTo(Version(0, 0, 0, [], ["build"]), Empty) == 1
    ensures !Equals(Version(0, 0, 0, [], ["build"]), Empty)
  {
  }

  /** The `<` operator holds when the left operand has the HIGHER
      precedence and `>` when it has the lower one: "2.0.0 < 1.0.0" is
      true. */
  lemma OperatorsInverted(a: Version, b: Version)
    ensures Less(a, b) <==> Greater(b, a)
    ensures Less(a, b) <==> CompareTo(b, a) < 0
    ensures Less(Version(2, 0, 0, [], []), Version(1, 0, 0, [], []))
  {
    CompareToAntisymmetric(a, b);
  }

  /** A pre-release ranks below its release; the empty version ranks below
      everything else. */
  lemma PreReleaseBelowRelease(v: Version)
    requires |v.pre| > 0
    ensures CompareTo(v, DeclareFinal(v)) == -1 <==> !IsEmpty(DeclareFinal(v))
    ensures !IsEmpty(v) && CompareTo(Empty, v) == -1
  {
  }

  // ---------------------------------------------------------------------
  // Raise / declare helpers
  // ---------------------------------------------------------------------

  function RaiseMajor(v: Version): (r: Version)
    ensures Valid(v) ==> Valid(r)
    ensures r.pre == [] && r.meta == v.meta
    ensures CompareTo(r, v) == 1
  {
    Version(v.major + 1, 0, 0, [], v.meta)
  }

  function RaiseMinor(v: Version): (r: Version)
    ensures Valid(v) ==> Valid(r)
    ensures r.major == v.major && r.pre == [] && r.meta == v.meta
    ensures CompareTo(r, v) == 1
  {
    Version(v.major, v.minor + 1, 0, [], v.meta)
  }

  /** `Patch()`. */
  function RaisePatch(v: Version): (r: Version)
    ensures Valid(v) ==> Valid(r)
    ensures r.major == v.major && r.minor == v.minor && r.pre == [] && r.meta == v.meta
    ensures CompareTo(r, v) == 1
  {
    Version(v.major, v.minor, v.patch + 1, [], v.meta)
  }

  /** `WithMetadata(string[])`: an empty list is rejected, otherwise the
      metadata is replaced (and validated). */
  function WithMetadata(v: Version, meta: seq<string>): (r: Result<Version, VersionError>)
    ensures |meta| == 0 ==> r == Err(MissingArgument)
    ensures r.Ok? ==> r.value == Version(v.major, v.minor, v.patch, v.pre, meta)
    ensures |meta| > 0 && AllTokens(v.pre) && AllTokens(meta) ==> r.Ok?
  {
    if |meta| == 0 then Err(MissingArgument)
    else Create(v.major, v.minor, v.patch, v.pre, meta)
  }

  /** `WithMetadata(string, params string[])`: a blank first tag is
      rejected, otherwise the metadata becomes the tags in order. */
  function WithMetadataTags(v: Version, first: string, rest: seq<string>): (r: Result<Version, VersionError>)
    ensures IsBlank(first) ==> r == Err(MissingArgument)
    ensures r.Ok? ==> r.value == Version(v.major, v.minor, v.patch, v.pre, [first] + rest)
    ensures !IsBlank(first) && AllTokens(v.pre) && AllTokens([first] + rest) ==> r.Ok?
  {
    if IsBlank(first) then Err(MissingArgument)
    else Create(v.major, v.minor, v.patch, v.pre, [first] + rest)
  }

  /** `DeclarePreRelease(string[])`: an empty list is rejected, otherwise
      the pre-release list is replaced (and validated), metadata kept. */
  function DeclarePreRelease(v: Version, pre: seq<string>): (r: Result<Version, VersionError>)
    ensures |pre| == 0 ==> r == Err(MissingArgument)
    ensures r.Ok? ==> r.value == Version(v.major, v.minor, v.patch, pre, v.meta) && !IsEmpty(r.value)
    ensures |pre| > 0 && AllTokens(pre) && AllTokens(v.meta) ==> r.Ok?
  {
    if |pre| == 0 then Err(MissingArgument)
    else Create(v.major, v.minor, v.patch, pre, v.meta)
  }

  /** `DeclarePreRelease(string, params string[])`. */
  function DeclarePreReleaseTags(v: Version, first: string, rest: seq<string>): (r: Result<Version, VersionError>)
    ensures IsBlank(first) ==> r == Err(MissingArgument)
    ensures r.Ok? ==> r.value == Version(v.major, v.minor, v.patch, [first] + rest, v.meta)
    ensures !IsBlank(first) && AllTokens([first] + rest) && AllTokens(v.meta) ==> r.Ok?
  {
    if IsBlank(first) then Err(MissingArgument)
    else Create(v.major, v.minor, v.patch, [first] + rest, v.meta)
  }

  function WithoutMetadata(v: Version): (r: Version)
    ensures Valid(v) ==> Valid(r)
    ensures r.meta == [] && r.pre == v.pre
    ensures Equals(r, v) <==> !(v.major == 0 && v.minor == 0 && v.patch == 0 && v.pre == [] && v.meta != [])
  {
    Version(v.major, v.minor, v.patch, v.pre, [])
  }

  function DeclareFinal(v: Version): (r: Version)
    ensures Valid(v) ==> Valid(r)
    ensures r.pre == [] && r.meta == v.meta
    ensures CompareTo(r, v) >= 0 <==> !(IsEmpty(r) && !IsEmpty(v))
  {
    Version(v.major, v.minor, v.patch, [], v.meta)
  }

  // ---------------------------------------------------------------------
  // Rendering
  // ---------------------------------------------------------------------

  /** The `AppendFormat` loop: the first identifier is preceded by `lead`,
      every later one by '.'. */
  function Tagged(ids: seq<string>, lead: char): string {
    if |ids| == 0 then "" else [lead] + ids[0] + Tagged(ids[1..], '.')
  }

  /** `ToString(includeMetadata)`. */
  function ToString(v: Version, includeMetadata: bool): string {
    if IsEmpty(v) then "0.0.0"
    else
      NatToString(v.major) + "." + NatToString(v.minor) + "." + NatToString(v.patch)
      + Tagged(v.pre, '-') + (if includeMetadata then Tagged(v.meta, '+') else "")
  }

  /** Decimal numerals of a list of numbers. */
  function Numerals(ns: seq<nat>): (r: seq<string>)
    ensures |r| == |ns|
    ensures forall i :: 0 <= i < |ns| ==> r[i] == NatToString(ns[i])
  {
    if |ns| == 0 then [] else [NatToString(ns[0])] + Numerals(ns[1..])
  }

  /** Numbers written in decimal and separated by '.'. */
  function NumberText(ns: seq<nat>): string {
    Join(".", Numerals(ns))
  }

  /** `-` and the identifiers joined by '.', or nothing for an empty list
      (likewise with `+` for metadata). */
  function Suffix(ids: seq<string>, lead: char): string {
    if |ids| == 0 then "" else [lead] + Join(".", ids)
  }

  /** The printed form written with `Join`. */
  function Render(v: Version, includeMetadata: bool): string {
    NumberText([v.major, v.minor, v.patch])
    + Suffix(v.pre, '-') + (if includeMetadata then Suffix(v.meta, '+') else "")
  }

  /** The same form with the patch number left out. */
  function RenderTwoPart(v: Version): string {
    NumberText([v.major, v.minor]) + Suffix(v.pre, '-') + Suffix(v.meta, '+')
  }

  lemma {:induction false} TaggedIsSuffix(ids: seq<string>, lead: char)
    ensures Tagged(ids, lead) == Suffix(ids, lead)
  {
    if |ids| > 1 {
      TaggedIsSuffix(ids[1..], '.');
    }
  }

  lemma NumberTextThree(a: nat, b: nat, c: nat)
    ensures NumberText([a, b, c]) == NatToString(a) + "." + NatToString(b) + "." + NatToString(c)
  {
    var ns := Numerals([a, b, c]);
    assert ns == [NatToString(a), NatToString(b), NatToString(c)];
    assert ns[1..] == [NatToString(b), NatToString(c)];
    assert ns[1..][1..] == [NatToString(c)];
    assert Join(".", ns[1..]) == NatToString(b) + "." + NatToString(c);
  }

  /** `ToString` is the joined form for every version; for the empty
      version the special case "0.0.0" is exactly what the general form
      prints. */
  lemma ToStringIsRender(v: Version, includeMetadata: bool)
    ensures ToString(v, includeMetadata) == Render(v, includeMetadata)
  {
    TaggedIsSuffix(v.pre, '-');
    TaggedIsSuffix(v.meta, '+');
    NumberTextThree(v.major, v.minor, v.patch);
  }

  // ---------------------------------------------------------------------
  // Parsing (the `TryParse` regular expressions of both copies)
  // ---------------------------------------------------------------------

  /** `tok(\.tok)*` with tok = `[0-9A-Za-z-]+`. */
  function ParseTokens(s: string): (r: Option<seq<string>>)
    ensures r.Some? ==> |r.value| >= 1 && AllTokens(r.value) && Join(".", r.value) == s
  {
    var ts := Split(s, '.');
    if AllTokens(ts) then Some(ts) else None
  }

  /** An optional `-…` or `+…` group: absent means the empty list. */
  function ParseGroup(part: Option<string>): (r: Option<seq<string>>)
    ensures r.Some? ==> AllTokens(r.value) && (|r.value| == 0 <==> part.None?)
    ensures r.Some? && part.Some? ==> Join(".", r.value) == part.value
  {
    if part.None? then Some([]) else ParseTokens(part.value)
  }

  /** `int.Parse` of canonical numerals. */
  function Values(nums: seq<string>): (r: seq<nat>)
    requires forall i :: 0 <= i < |nums| ==> IsCanonicalNat(nums[i])
    ensures |r| == |nums|
    ensures forall i :: 0 <= i < |nums| ==> IsCanonicalNat(nums[i]) && r[i] == DigitsValue(nums[i])
  {
    if |nums| == 0 then []
    else
      assert IsCanonicalNat(nums[0]);
      [DigitsValue(nums[0])] + Values(nums[1..])
  }

  lemma NumeralsOfValues(nums: seq<string>)
    requires forall i :: 0 <= i < |nums| ==> IsCanonicalNat(nums[i])
    ensures Numerals(Values(nums)) == nums
  {
    forall i | 0 <= i < |nums| ensures Numerals(Values(nums))[i] == nums[i] {
      NatToStringOfDigitsValue(nums[i]);
    }
  }

  /** The number groups `(0|[1-9]\d*)` separated by '.': three of them,
      or two when the patch is optional. */
  function ParseNumbers(core: string, patchOptional: bool): (r: Option<seq<nat>>)
    ensures r.Some? ==> (|r.value| == 3 || (patchOptional && |r.value| == 2)) && NumberText(r.value) == core
  {
    var nums := Split(core, '.');
    if !(|nums| == 3 || (patchOptional && |nums| == 2)) then None
    else if !(forall i :: 0 <= i < |nums| ==> IsCanonicalNat(nums[i])) then None
    else
      NumeralsOfValues(nums);
      Some(Values(nums))
  }

  /** `^(0|[1-9]\d*)\.(0|[1-9]\d*)\.(0|[1-9]\d*)(-tok(\.tok)*)?(\+tok(\.tok)*)?$`,
      followed by `int.Parse` of the number groups and the constructor;
      with `patchOptional` the third number group is optional and
      defaults to 0. A string that does not match yields None. */
  function ParseVersion(s: string, patchOptional: bool): Option<Version>
  {
    var ns := ParseNumbers(CorePart(s), patchOptional);
    var pre := ParseGroup(PrePart(s));
    var meta := ParseGroup(MetaPart(s));
    if ns.None? || pre.None? || meta.None? then None
    else
      var patch := if |ns.value| == 3 then ns.value[2] else 0;
      Some(Version(ns.value[0], ns.value[1], patch, pre.value, meta.value))
  }

  /** The text before the first '+'. */
  function MainPart(s: string): string {
    SplitFirst(s, '+').0
  }

  /** The text after the first '+', if any. */
  function MetaPart(s: string): Option<string> {
    SplitFirst(s, '+').1
  }

  /** The numbers: the main part up to its first '-'. */
  function CorePart(s: string): string {
    SplitFirst(MainPart(s), '-').0
  }

  /** The main part after its first '-', if any. */
  function PrePart(s: string): Option<string> {
    SplitFirst(MainPart(s), '-').1
  }

  lemma TokensExclude(ts: seq<string>, c: char)
    requires AllTokens(ts)
    requires !IsTokenChar(c)
    ensures forall i :: 0 <= i < |ts| ==> c !in ts[i]
  {
  }

  lemma SuffixExcludes(ids: seq<string>, lead: char, c: char)
    requires AllTokens(ids)
    requires !IsTokenChar(c) && c != '.' && c != lead
    ensures c !in Suffix(ids, lead)
  {
    if |ids| > 0 {
      TokensExclude(ids, c);
      JoinNotContains(ids, '.', c);
    }
  }

  lemma ParseSuffix(ids: seq<string>)
    requires |ids| >= 1 && AllTokens(ids)
    ensures ParseTokens(Join(".", ids)) == Some(ids)
  {
    TokensExclude(ids, '.');
    SplitJoin(ids, '.');
  }

  lemma NumberTextExcludes(ns: seq<nat>, c: char)
    requires !IsDigit(c) && c != '.'
    ensures c !in NumberText(ns)
  {
    var strs := Numerals(ns);
    forall i | 0 <= i < |strs| ensures c !in strs[i] {
      NatToStringIsCanonical(ns[i]);
    }
    if |strs| > 0 {
      JoinNotContains(strs, '.', c);
    }
  }

  lemma SplitNumberText(ns: seq<nat>)
    requires |ns| >= 1
    ensures Split(NumberText(ns), '.') == Numerals(ns)
    ensures forall i :: 0 <= i < |ns| ==> IsCanonicalNat(Numerals(ns)[i]) && DigitsValue(Numerals(ns)[i]) == ns[i]
  {
    var strs := Numerals(ns);
    forall i | 0 <= i < |strs|
      ensures IsCanonicalNat(strs[i]) && DigitsValue(strs[i]) == ns[i] && '.' !in strs[i]
    {
      NatToStringIsCanonical(ns[i]);
      DigitsValueOfNatToString(ns[i]);
    }
    SplitJoin(strs, '.');
  }

  lemma ParseNumberText(ns: seq<nat>, patchOptional: bool)
    requires |ns| == 3 || (patchOptional && |ns| == 2)
    ensures ParseNumbers(NumberText(ns), patchOptional) == Some(ns)
  {
    SplitNumberText(ns);
    assert Values(Numerals(ns)) == ns;
  }

  /** The text after `lead`, if the list is non-empty. */
  function Group(ids: seq<string>): Option<string> {
    if |ids| == 0 then None else Some(Join(".", ids))
  }

  lemma SplitSuffix(a: string, ids: seq<string>, lead: char)
    requires lead !in a
    requires AllTokens(ids)
    ensures SplitFirst(a + Suffix(ids, lead), lead) == (a, Group(ids))
    ensures ParseGroup(Group(ids)) == Some(ids)
  {
    if |ids| == 0 {
      assert a + Suffix(ids, lead) == a;
    } else {
      assert a + Suffix(ids, lead) == a + [lead] + Join(".", ids);
      SplitFirstOf(a, lead, Join(".", ids));
      ParseSuffix(ids);
    }
  }

  /** Reading back a printed form `numbers + pre + meta`. */
  lemma ParseParts(ns: seq<nat>, pre: seq<string>, meta: seq<string>, patchOptional: bool)
    requires |ns| == 3 || (patchOptional && |ns| == 2)
    requires AllTokens(pre) && AllTokens(meta)
    ensures ParseVersion(NumberText(ns) + Suffix(pre, '-') + Suffix(meta, '+'), patchOptional)
            == Some(Version(ns[0], ns[1], if |ns| == 3 then ns[2] else 0, pre, meta))
  {
    var core := NumberText(ns);
    NumberTextExcludes(ns, '+');
    NumberTextExcludes(ns, '-');
    SuffixExcludes(pre, '-', '+');
    var main := core + Suffix(pre, '-');
    SplitSuffix(main, meta, '+');
    SplitSuffix(core, pre, '-');
    ParseNumberText(ns, patchOptional);
  }

  /** Parsing the printed form of a constructible version gives the version
      back, whichever copy's grammar is used. */
  lemma ParseRender(v: Version, patchOptional: bool)
    requires Valid(v)
    ensures ParseVersion(Render(v, true), patchOptional) == Some(v)
  {
    ParseParts([v.major, v.minor, v.patch], v.pre, v.meta, patchOptional);
  }

  /** The two-part form parses when the patch is optional. */
  lemma ParseRenderTwoPart(v: Version)
    requires Valid(v) && v.patch == 0
    ensures ParseVersion(RenderTwoPart(v), true) == Some(v)
  {
    ParseParts([v.major, v.minor], v.pre, v.meta, true);
  }

  lemma GroupSuffix(part: Option<string>, ids: seq<string>, lead: char)
    requires ParseGroup(part) == Some(ids)
    ensures Suffix(ids, lead) == (if part.None? then "" else [lead] + part.value)
  {
  }

  lemma SplitFirstSuffix(s: string, c: char)
    ensures s == SplitFirst(s, c).0 + (if SplitFirst(s, c).1.None? then "" else [c] + SplitFirst(s, c).1.value)
  {
  }

  lemma ParsedText(s: string, patchOptional: bool)
    requires ParseVersion(s, patchOptional).Some?
    ensures var v := ParseVersion(s, patchOptional).value;
            s == NumberText(ParseNumbers(CorePart(s), patchOptional).value) + Suffix(v.pre, '-') + Suffix(v.meta, '+')
  {
    var v := ParseVersion(s, patchOptional).value;
    GroupSuffix(PrePart(s), v.pre, '-');
    GroupSuffix(MetaPart(s), v.meta, '+');
    SplitFirstSuffix(s, '+');
    SplitFirstSuffix(MainPart(s), '-');
  }

  /** Whatever the grammar accepts is a constructible version whose printed
      form is the input (or, for the two-part form, the input without the
      defaulted patch). */
  lemma RenderParse(s: string, patchOptional: bool)
    requires ParseVersion(s, patchOptional).Some?
    ensures var v := ParseVersion(s, patchOptional).value;
            && Valid(v)
            && (s == Render(v, true) || (patchOptional && v.patch == 0 && s == RenderTwoPart(v)))
            && (!patchOptional ==> s == Render(v, true))
  {
    var v := ParseVersion(s, patchOptional).value;
    var ns := ParseNumbers(CorePart(s), patchOptional).value;
    ParsedText(s, patchOptional);
    if |ns| == 3 {
      assert ns == [v.major, v.minor, v.patch];
    } else {
      assert ns == [v.major, v.minor];
    }
  }
}

=== FILE: Text.dfy ===
/** The string primitives the repository relies on from the .NET base
    library: whitespace tests, `String.Split`/`String.Join` on one character,
    decimal rendering and `int.Parse` of digit strings, ordinal comparison,
    ASCII case-insensitive prefix tests and `String.Replace`. */
module Text {
  import opened Wrappers

  // ---------------------------------------------------------------------
  // Whitespace and NormalizeNull
  // ---------------------------------------------------------------------

  /** `Char.IsWhiteSpace`: the Unicode space separators, the line and
      paragraph separators, and the controls U+0009..U+000D, U+0085. */
  predicate IsWhiteSpace(c: char) {
    || ('\t' <= c <= '\r')
    || c == ' '
    || c == '\U{0085}'
    || c == '\U{00A0}'
    || c == '\U{1680}'
    || ('\U{2000}' <= c <= '\U{200A}')
    || c == '\U{2028}'
    || c == '\U{2029}'
    || c == '\U{202F}'
    || c == '\U{205F}'
    || c == '\U{3000}'
  }

  /** `string.IsNullOrWhiteSpace` on a non-null string. */
  predicate IsBlank(s: string) {
    forall i :: 0 <= i < |s| ==> IsWhiteSpace(s[i])
  }

  /** A string with one non-whitespace character is not blank. */
  lemma NotBlank(s: string, i: nat)
    requires i < |s| && !IsWhiteSpace(s[i])
    ensures !IsBlank(s)
  {
  }

  /** `IsNullOrWhiteSpace` on a nullable string (None is null). */
  predicate IsBlankOpt(s: Option<string>) {
    s.None? || IsBlank(s.value)
  }

  /** The repository's `NormalizeNull` extension: null, empty or
      whitespace-only strings become null, every other string is kept. */
  function NormalizeNull(s: string): (r: Option<string>)
    ensures r.None? <==> IsBlank(s)
    ensures r.Some? ==> r.value == s
  {
    if IsBlank(s) then None else Some(s)
  }

  /** `NormalizeNull` applied to a nullable string. */
  function NormalizeOpt(s: Option<string>): (r: Option<string>)
    ensures r.None? <==> IsBlankOpt(s)
    ensures r.Some? ==> s == r
  {
    if s.None? then None else NormalizeNull(s.value)
  }

  // ---------------------------------------------------------------------
  // Join and Split on a single character
  // ---------------------------------------------------------------------

  /** `string.Join(sep, parts)`. */
  function Join(sep: string, parts: seq<string>): string
  {
    if |parts| == 0 then ""
    else if |parts| == 1 then parts[0]
    else parts[0] + sep + Join(sep, parts[1..])
  }

  /** Index of the first occurrence of `c` in `s`. */
  function IndexOf(s: string, c: char): (r: nat)
    requires c in s
    ensures r < |s| && s[r] == c && c !in s[..r]
  {
    if s[0] == c then 0 else 1 + IndexOf(s[1..], c)
  }

  /** `String.Split(c)`: the pieces between occurrences of `c`, empty
      pieces included, so there is always at least one piece. */
  function Split(s: string, c: char): (r: seq<string>)
    ensures |r| >= 1
    ensures forall i :: 0 <= i < |r| ==> c !in r[i]
    ensures Join([c], r) == s
    decreases |s|
  {
    if c !in s then [s]
    else
      var i := IndexOf(s, c);
      var rest := Split(s[i + 1..], c);
      assert s == s[..i] + [c] + s[i + 1..];
      [s[..i]] + rest
  }

  lemma IndexOfAfterPrefix(a: string, c: char, b: string)
    requires c !in a
    ensures c in a + [c] + b
    ensures IndexOf(a + [c] + b, c) == |a|
  {
    var s := a + [c] + b;
    assert s[|a|] == c;
    if |a| > 0 {
      assert s[1..] == a[1..] + [c] + b;
      IndexOfAfterPrefix(a[1..], c, b);
    }
  }

  lemma {:induction false} JoinNotContains(parts: seq<string>, c: char, d: char)
    requires forall i :: 0 <= i < |parts| ==> d !in parts[i]
    requires c != d
    ensures d !in Join([c], parts)
  {
    if |parts| > 1 {
      JoinNotContains(parts[1..], c, d);
    }
  }

  /** Splitting a join of pieces that do not contain the separator gives
      the pieces back: `Split` inverts `Join`. */
  lemma {:induction false} SplitJoin(parts: seq<string>, c: char)
    requires |parts| >= 1
    requires forall i :: 0 <= i < |parts| ==> c !in parts[i]
    ensures Split(Join([c], parts), c) == parts
  {
    if |parts| > 1 {
      var tail := Join([c], parts[1..]);
      var s := parts[0] + [c] + tail;
      assert Join([c], parts) == s;
      IndexOfAfterPrefix(parts[0], c, tail);
      assert s[..|parts[0]|] == parts[0];
      assert s[|parts[0]| + 1..] == tail;
      assert Split(s, c) == [parts[0]] + Split(tail, c);
      SplitJoin(parts[1..], c);
      assert parts == [parts[0]] + parts[1..];
    }
  }

  /** Joining two non-empty lists is joining their joins. */
  lemma {:induction false} JoinAppend(sep: string, a: seq<string>, b: seq<string>)
    requires |a| >= 1 && |b| >= 1
    ensures Join(sep, a + b) == Join(sep, a) + sep + Join(sep, b)
  {
    if |a| == 1 {
      assert (a + b)[1..] == b;
    } else {
      assert (a + b)[1..] == a[1..] + b;
      JoinAppend(sep, a[1..], b);
    }
  }

  /** Splits `s` at the first occurrence of `c`: the text before it, and
      the text after it when `c` occurs at all. */
  function SplitFirst(s: string, c: char): (r: (string, Option<string>))
    ensures c !in r.0
    ensures r.1.None? <==> c !in s
    ensures r.1.None? ==> r.0 == s
    ensures r.1.Some? ==> s == r.0 + [c] + r.1.value
  {
    if c !in s then (s, None)
    else
      var i := IndexOf(s, c);
      assert s == s[..i] + [c] + s[i + 1..];
      (s[..i], Some(s[i + 1..]))
  }

  lemma SplitFirstOf(a: string, c: char, b: string)
    requires c !in a
    ensures SplitFirst(a + [c] + b, c) == (a, Some(b))
  {
    var s := a + [c] + b;
    IndexOfAfterPrefix(a, c, b);
    assert s[..|a|] == a;
    assert s[|a| + 1..] == b;
  }

  /** `Enumerable.Repeat(s, n)` for a non-negative count. */
  function Repeat(s: string, n: nat): (r: seq<string>)
    ensures |r| == n
    ensures forall i :: 0 <= i < n ==> r[i] == s
  {
    if n == 0 then [] else [s] + Repeat(s, n - 1)
  }

  // ---------------------------------------------------------------------
  // Decimal digits
  // ---------------------------------------------------------------------

  predicate IsDigit(c: char) {
    '0' <= c <= '9'
  }

  /** `^[0-9]+$` */
  predicate IsDigits(s: string) {
    |s| > 0 && forall i :: 0 <= i < |s| ==> IsDigit(s[i])
  }

  /** `0|[1-9]\d*`: a decimal number without leading zeros. */
  predicate IsCanonicalNat(s: string) {
    IsDigits(s) && (s[0] != '0' || |s| == 1)
  }

  function DigitChar(d: nat): (c: char)
    requires d < 10
    ensures IsDigit(c)
  {
    ('0' as int + d) as char
  }

  /** `int.ToString()` of a non-negative number. */
  function NatToString(n: nat): string
    decreases n
  {
    if n < 10 then [DigitChar(n)] else NatToString(n / 10) + [DigitChar(n % 10)]
  }

  function DigitValue(c: char): nat
    requires IsDigit(c)
  {
    c as int - '0' as int
  }

  /** `int.Parse` of a digit string, leading zeros allowed and without the
      32-bit overflow check. */
  function DigitsValue(s: string): nat
    requires forall i :: 0 <= i < |s| ==> IsDigit(s[i])
  {
    if |s| == 0 then 0
    else 10 * DigitsValue(s[..|s| - 1]) + DigitValue(s[|s| - 1])
  }

  lemma {:induction false} NatToStringIsCanonical(n: nat)
    ensures IsCanonicalNat(NatToString(n))
    ensures n >= 1 ==> NatToString(n)[0] != '0'
    decreases n
  {
    if n >= 10 {
      NatToStringIsCanonical(n / 10);
      assert NatToString(n)[0] == NatToString(n / 10)[0];
    }
  }

  /** `int.Parse` reads back what `ToString` printed. */
  lemma {:induction false} DigitsValueOfNatToString(n: nat)
    ensures IsDigits(NatToString(n))
    ensures DigitsValue(NatToString(n)) == n
    decreases n
  {
    NatToStringIsCanonical(n);
    if n >= 10 {
      var s := NatToString(n);
      DigitsValueOfNatToString(n / 10);
      assert s[..|s| - 1] == NatToString(n / 10);
    }
  }

  lemma {:induction false} DigitsValuePositive(s: string)
    requires IsDigits(s) && s[0] != '0'
    ensures DigitsValue(s) >= 1
  {
    if |s| > 1 {
      DigitsValuePositive(s[..|s| - 1]);
    }
  }

  /** A number written without leading zeros is printed back unchanged. */
  lemma {:induction false} NatToStringOfDigitsValue(s: string)
    requires IsCanonicalNat(s)
    ensures NatToString(DigitsValue(s)) == s
  {
    if |s| > 1 {
      var p := s[..|s| - 1];
      assert IsCanonicalNat(p);
      DigitsValuePositive(p);
      NatToStringOfDigitsValue(p);
      var n := DigitsValue(s);
      assert n / 10 == DigitsValue(p);
      assert s == p + [s[|s| - 1]];
    }
  }

  lemma DigitsHaveNo(s: string, c: char)
    requires IsDigits(s)
    requires !IsDigit(c)
    ensures c !in s
  {
  }

  // ---------------------------------------------------------------------
  // Identifier tokens
  // ---------------------------------------------------------------------

  predicate IsTokenChar(c: char) {
    IsDigit(c) || ('A' <= c <= 'Z') || ('a' <= c <= 'z') || c == '-'
  }

  /** `^[0-9A-Za-z-]+$` */
  predicate IsToken(s: string) {
    |s| > 0 && forall i :: 0 <= i < |s| ==> IsTokenChar(s[i])
  }

  predicate AllTokens(ts: seq<string>) {
    forall i :: 0 <= i < |ts| ==> IsToken(ts[i])
  }

  // ---------------------------------------------------------------------
  // Ordinal comparison
  // ---------------------------------------------------------------------

  /** The sign of `string.Compare(a, b, StringComparison.Ordinal)`. */
  function CompareOrdinal(a: string, b: string): int
  {
    if |a| == 0 && |b| == 0 then 0
    else if |a| == 0 then -1
    else if |b| == 0 then 1
    else if a[0] < b[0] then -1
    else if a[0] > b[0] then 1
    else CompareOrdinal(a[1..], b[1..])
  }

  lemma {:induction false} CompareOrdinalRange(a: string, b: string)
    ensures -1 <= CompareOrdinal(a, b) <= 1
  {
    if |a| > 0 && |b| > 0 && a[0] == b[0] {
      CompareOrdinalRange(a[1..], b[1..]);
    }
  }

  lemma {:induction false} CompareOrdinalAntisymmetric(a: string, b: string)
    ensures CompareOrdinal(a, b) == -CompareOrdinal(b, a)
  {
    if |a| > 0 && |b| > 0 && a[0] == b[0] {
      CompareOrdinalAntisymmetric(a[1..], b[1..]);
    }
  }

  lemma {:induction false} CompareOrdinalZero(a: string, b: string)
    ensures CompareOrdinal(a, b) == 0 <==> a == b
  {
    if |a| > 0 && |b| > 0 && a[0] == b[0] {
      CompareOrdinalZero(a[1..], b[1..]);
      assert a == [a[0]] + a[1..];
      assert b == [b[0]] + b[1..];
    }
  }

  lemma {:induction false} CompareOrdinalTransitive(a: string, b: string, c: string)
    requires CompareOrdinal(a, b) < 0 && CompareOrdinal(b, c) < 0
    ensures CompareOrdinal(a, c) < 0
  {
    if |a| > 0 && |b| > 0 && |c| > 0 && a[0] == b[0] && b[0] == c[0] {
      CompareOrdinalTransitive(a[1..], b[1..], c[1..]);
    }
  }

  // ---------------------------------------------------------------------
  // Case-insensitive prefix and replacement
  // ---------------------------------------------------------------------

  /** Upper-cases ASCII letters and leaves every other character alone. */
  function UpperAscii(c: char): char {
    if 'a' <= c <= 'z' then (c as int - 32) as char else c
  }

  /** `s.StartsWith(prefix, StringComparison.OrdinalIgnoreCase)`, with case
      folding restricted to ASCII letters. */
  predicate StartsWithIgnoreCase(s: string, prefix: string) {
    |prefix| <= |s| && forall i :: 0 <= i < |prefix| ==> UpperAscii(s[i]) == UpperAscii(prefix[i])
  }

  /** A string starts with each of its exact prefixes. */
  lemma StartsWithOwnPrefix(a: string, b: string)
    ensures StartsWithIgnoreCase(a + b, a)
  {
    assert forall i :: 0 <= i < |a| ==> (a + b)[i] == a[i];
  }

  /** `s.Replace(pattern, replacement)`: every non-overlapping occurrence,
      scanned left to right. */
  function ReplaceAll(s: string, pattern: string, replacement: string): string
    requires |pattern| > 0
    decreases |s|
  {
    if |s| < |pattern| then s
    else if s[..|pattern|] == pattern then replacement + ReplaceAll(s[|pattern|..], pattern, replacement)
    else [s[0]] + ReplaceAll(s[1..], pattern, replacement)
  }

  /** A string in which the pattern's first character never occurs is
      left as it is. */
  lemma {:induction false} ReplaceAllAbsent(s: string, pattern: string, replacement: string)
    requires |pattern| > 0 && pattern[0] !in s
    ensures ReplaceAll(s, pattern, replacement) == s
    decreases |s|
  {
    if |s| >= |pattern| {
      assert s[..|pattern|][0] != pattern[0];
      assert s[0] in s;
      ReplaceAllAbsent(s[1..], pattern, replacement);
      assert s == [s[0]] + s[1..];
    }
  }

  /** Text in which the pattern's first character never occurs is kept
      in front of the replaced rest. */
  lemma {:induction false} ReplaceAllAfter(a: string, b: string, pattern: string, replacement: string)
    requires |pattern| > 0 && pattern[0] !in a
    ensures ReplaceAll(a + b, pattern, replacement) == a + ReplaceAll(b, pattern, replacement)
    decreases |a|
  {
    if |a| > 0 {
      var s := a + b;
      assert s[0] == a[0] && a[0] in a;
      if |s| >= |pattern| {
        assert s[..|pattern|][0] != pattern[0];
      }
      assert s[1..] == a[1..] + b;
      ReplaceAllAfter(a[1..], b, pattern, replacement);
      assert a == [a[0]] + a[1..];
    } else {
      assert a + b == b;
    }
  }
}

=== FILE: VersionRange.dfy ===
/** `SemanticVersionRange`: a pair of bounds with an inclusivity flag each.
    Both copies of the range type have the same factories, emptiness and
    exactness tests, equality, rendering and parser; the parser differs
    only through the version grammar it delegates to, which is the
    `patchOptional` parameter here. */
module VersionRange {
  import opened Wrappers
  import opened Text
  import SemVer

  type Version = SemVer.Version

  datatype Range = Range(min: Version, max: Version, minInclusive: bool, maxInclusive: bool)

  /** `Any()`, the default range: both bounds empty, both flags off. */
  const Any := Range(SemVer.Empty, SemVer.Empty, false, false)

  predicate IsEmpty(r: Range) {
    SemVer.IsEmpty(r.min) && SemVer.IsEmpty(r.max)
  }

  /** `IsExact`: not empty and the bounds equal (flags are not consulted). */
  predicate IsExact(r: Range) {
    !IsEmpty(r) && SemVer.Equals(r.min, r.max)
  }

  /** `Equals`: the bounds by version equality, the flags exactly. */
  predicate Equals(a: Range, b: Range) {
    SemVer.Equals(a.min, b.min) && SemVer.Equals(a.max, b.max)
    && a.minInclusive == b.minInclusive && a.maxInclusive == b.maxInclusive
  }

  lemma EmptyIsDefault(v: Version)
    ensures SemVer.IsEmpty(v) <==> v == SemVer.Empty
  {
  }

  // ---------------------------------------------------------------------
  // Factories
  // ---------------------------------------------------------------------

  function Exactly(v: Version): (r: Range)
    ensures IsEmpty(r) <==> SemVer.IsEmpty(v)
    ensures SemVer.IsEmpty(v) ==> r == Any
    ensures !SemVer.IsEmpty(v) ==> IsExact(r) && r.min == v && r.max == v && r.minInclusive && r.maxInclusive
  {
    if SemVer.IsEmpty(v) then Any else Range(v, v, true, true)
  }

  /** `AtLeastIncluding` (inclusive) and `AtLeastWithout` (exclusive):
      a lower bound only. */
  function AtLeast(v: Version, inclusive: bool): (r: Range)
    ensures IsEmpty(r) <==> SemVer.IsEmpty(v)
    ensures SemVer.IsEmpty(v) ==> r == Any
    ensures !SemVer.IsEmpty(v) ==> r.min == v && SemVer.IsEmpty(r.max) && r.minInclusive == inclusive && !r.maxInclusive
  {
    if SemVer.IsEmpty(v) then Any else Range(v, SemVer.Empty, inclusive, false)
  }

  /** `UntilIncluding` (inclusive) and `UntilWithout` (exclusive):
      an upper bound only. */
  function Until(v: Version, inclusive: bool): (r: Range)
    ensures IsEmpty(r) <==> SemVer.IsEmpty(v)
    ensures SemVer.IsEmpty(v) ==> r == Any
    ensures !SemVer.IsEmpty(v) ==> SemVer.IsEmpty(r.min) && r.max == v && !r.minInclusive && r.maxInclusive == inclusive
  {
    if SemVer.IsEmpty(v) then Any else Range(SemVer.Empty, v, false, inclusive)
  }

  /** The common shape of the four `Between*` factories: two empty bounds
      give `Any`, one empty bound gives the one-sided factory for the other,
      otherwise both bounds with the given flags. */
  function Between(min: Version, max: Version, minInclusive: bool, maxInclusive: bool): (r: Range)
    ensures IsEmpty(r) <==> SemVer.IsEmpty(min) && SemVer.IsEmpty(max)
    ensures r.min == min && r.max == max
    ensures r.minInclusive == (minInclusive && !SemVer.IsEmpty(min))
    ensures r.maxInclusive == (maxInclusive && !SemVer.IsEmpty(max))
  {
    if SemVer.IsEmpty(min) && SemVer.IsEmpty(max) then Any
    else if SemVer.IsEmpty(max) then AtLeast(min, minInclusive)
    else if SemVer.IsEmpty(min) then Until(max, maxInclusive)
    else Range(min, max, minInclusive, maxInclusive)
  }

  function BetweenIncluding(min: Version, max: Version): (r: Range)
    ensures r.min == min && r.max == max
    ensures r.minInclusive <==> !SemVer.IsEmpty(min)
    ensures r.maxInclusive <==> !SemVer.IsEmpty(max)
  {
    Between(min, max, true, true)
  }

  function BetweenWithout(min: Version, max: Version): (r: Range)
    ensures r.min == min && r.max == max
    ensures !r.minInclusive && !r.maxInclusive
  {
    Between(min, max, false, false)
  }

  function BetweenWithoutMinimumIncludingMaximum(min: Version, max: Version): (r: Range)
    ensures r.min == min && r.max == max
    ensures !r.minInclusive
    ensures r.maxInclusive <==> !SemVer.IsEmpty(max)
  {
    Between(min, max, false, true)
  }

  function BetweenIncludingMinimumWithoutMaximum(min: Version, max: Version): (r: Range)
    ensures r.min == min && r.max == max
    ensures r.minInclusive <==> !SemVer.IsEmpty(min)
    ensures !r.maxInclusive
  {
    Between(min, max, true, false)
  }

  // ---------------------------------------------------------------------
  // Rendering
  // ---------------------------------------------------------------------

  /** A bound as `ToString(false)` prints it. */
  function BoundText(v: Version): string {
    SemVer.ToString(v, false)
  }

  function ToString(r: Range): string {
    if SemVer.IsEmpty(r.min) && SemVer.IsEmpty(r.max) then ""
    else if !SemVer.IsEmpty(r.min) && SemVer.IsEmpty(r.max) then
      if r.minInclusive then BoundText(r.min) else "(" + BoundText(r.min) + ",)"
    else if SemVer.IsEmpty(r.min) && !SemVer.IsEmpty(r.max) then
      if r.maxInclusive then "(," + BoundText(r.max) + "]" else "(," + BoundText(r.max) + ")"
    else if SemVer.Equals(r.min, r.max) then "[" + BoundText(r.min) + "]"
    else (if r.minInclusive then "[" else "(") + BoundText(r.min) + "," + BoundText(r.max) + (if r.maxInclusive then "]" else ")")
  }

  // ---------------------------------------------------------------------
  // Parsing
  // ---------------------------------------------------------------------

  /** Group 1 of the range pattern: an opening bracket, if present. */
  function LeftBracket(s: string): (r: string)
    ensures |r| <= |s|
  {
    if |s| > 0 && (s[0] == '(' || s[0] == '[') then [s[0]] else ""
  }

  /** Group 3: a closing bracket, if present. */
  function RightBracket(s: string): (r: string)
    ensures |r| <= |s|
  {
    if |s| > 0 && (s[|s| - 1] == ')' || s[|s| - 1] == ']') then [s[|s| - 1]] else ""
  }

  /** `(?:0|[1-9]\d*)\.(?:0|[1-9]\d*)(?:\.(?:0|[1-9]\d*))?`, the bound
      pattern inside a range (two or three numbers, never a pre-release). */
  predicate IsBoundText(t: string) {
    var parts := Split(t, '.');
    (|parts| == 2 || |parts| == 3) && forall i :: 0 <= i < |parts| ==> IsCanonicalNat(parts[i])
  }

  /** Group 2, `,?V(?:,V)?,?`, as the list of its ','-separated pieces:
      one or two bounds, each end optionally marked by an empty piece. */
  predicate IsBoundList(ts: seq<string>) {
    || (|ts| == 1 && IsBoundText(ts[0]))
    || (|ts| == 2 && ts[0] == "" && IsBoundText(ts[1]))
    || (|ts| == 2 && IsBoundText(ts[0]) && ts[1] == "")
    || (|ts| == 2 && IsBoundText(ts[0]) && IsBoundText(ts[1]))
    || (|ts| == 3 && ts[0] == "" && IsBoundText(ts[1]) && ts[2] == "")
    || (|ts| == 3 && ts[0] == "" && IsBoundText(ts[1]) && IsBoundText(ts[2]))
    || (|ts| == 3 && IsBoundText(ts[0]) && IsBoundText(ts[1]) && ts[2] == "")
    || (|ts| == 4 && ts[0] == "" && IsBoundText(ts[1]) && IsBoundText(ts[2]) && ts[3] == "")
  }

  /** What follows the opening bracket. */
  function AfterLeft(s: string): string {
    s[|LeftBracket(s)|..]
  }

  /** The closing bracket, if present. */
  function Right(s: string): string {
    RightBracket(AfterLeft(s))
  }

  /** The text between the brackets. */
  function Inner(s: string): string {
    var rest := AfterLeft(s);
    rest[..|rest| - |RightBracket(rest)|]
  }

  /** Group 2: the text between the brackets, split on ','. */
  function Pieces(s: string): seq<string> {
    Split(Inner(s), ',')
  }

  /** `TryParse`: the pattern must match; then one piece must be a
      bracketed `[v]`, or two pieces must be `(,v` with either closing
      bracket, `v,)` with either opening bracket, or `v1,v2` whose flags are
      the presence of `[` and `]`. Every version is read with the grammar
      selected by `patchOptional`. */
  function TryParse(s: string, patchOptional: bool): Option<Range>
  {
    Interpret(LeftBracket(s), Pieces(s), Right(s), patchOptional)
  }

  /** The decision part of `TryParse`, given the brackets and pieces. */
  function Interpret(left: string, ts: seq<string>, right: string, patchOptional: bool): Option<Range>
  {
    if !IsBoundList(ts) then None
    else if |ts| == 1 then
      var v := SemVer.ParseVersion(ts[0], patchOptional);
      if v.Some? && left == "[" && right == "]" then Some(Exactly(v.value)) else None
    else if |ts| == 2 then
      var v0 := SemVer.ParseVersion(ts[0], patchOptional);
      var v1 := SemVer.ParseVersion(ts[1], patchOptional);
      if IsBlank(ts[0]) && !IsBlank(ts[1]) && v1.Some? && left == "(" then
        Some(Until(v1.value, right == "]"))
      else if !IsBlank(ts[0]) && IsBlank(ts[1]) && v0.Some? && right == ")" then
        Some(AtLeast(v0.value, left == "["))
      else if !IsBlank(ts[0]) && !IsBlank(ts[1]) && v0.Some? && v1.Some? then
        Some(Range(v0.value, v1.value, left == "[", right == "]"))
      else None
    else None
  }

  /** `Parse`: `TryParse` or a format error. */
  function Parse(s: string, patchOptional: bool): (r: Result<Range, string>)
    ensures r.Ok? <==> TryParse(s, patchOptional).Some?
    ensures r.Ok? ==> r.value == TryParse(s, patchOptional).value
  {
    match TryParse(s, patchOptional)
    case Some(range) => Ok(range)
    case None => Err("FormatException")
  }

  // ---------------------------------------------------------------------
  // Facts about the bound pattern
  // ---------------------------------------------------------------------

  lemma BoundListPieces(ts: seq<string>)
    requires IsBoundList(ts) && |ts| == 2
    ensures ts[0] == "" ==> IsBoundText(ts[1])
    ensures ts[1] == "" ==> IsBoundText(ts[0])
    ensures ts[0] != "" && ts[1] != "" ==> IsBoundText(ts[0]) && IsBoundText(ts[1])
  {
  }

  /** A bound has no '-' or '+', so the version read from it is plain. */
  lemma BoundIsPlain(t: string, patchOptional: bool)
    ensures IsBoundText(t) && SemVer.ParseVersion(t, patchOptional).Some? ==>
            IsPlain(SemVer.ParseVersion(t, patchOptional).value)
  {
    if IsBoundText(t) {
      var parts := Split(t, '.');
      forall i | 0 <= i < |parts| ensures '-' !in parts[i] && '+' !in parts[i] {
        DigitsHaveNo(parts[i], '-');
        DigitsHaveNo(parts[i], '+');
      }
      JoinNotContains(parts, '.', '-');
      JoinNotContains(parts, '.', '+');
      assert SemVer.MetaPart(t) == None;
      assert SemVer.PrePart(t) == None;
    }
  }

  /** Blank and empty coincide on bound lists: a piece is either "" or a
      bound, and a bound is never blank. */
  lemma BoundNotBlank(t: string)
    requires IsBoundText(t)
    ensures !IsBlank(t)
  {
    var parts := Split(t, '.');
    assert IsDigits(parts[0]);
    assert parts[0][0] in t by {
      assert t == parts[0] + "." + Join(".", parts[1..]);
    }
  }

  /** No pre-release and no metadata. */
  predicate IsPlain(v: Version) {
    v.pre == [] && v.meta == []
  }

  lemma TryParsePlainSingle(s: string, patchOptional: bool)
    requires TryParse(s, patchOptional).Some? && |Pieces(s)| == 1
    ensures IsPlain(TryParse(s, patchOptional).value.min)
    ensures IsPlain(TryParse(s, patchOptional).value.max)
  {
    var ts := Pieces(s);
    assert IsBoundText(ts[0]);
    BoundIsPlain(ts[0], patchOptional);
    var v := SemVer.ParseVersion(ts[0], patchOptional);
    assert IsPlain(v.value);
    assert TryParse(s, patchOptional) == Some(Exactly(v.value));
  }

  lemma TryParsePlainPair(s: string, patchOptional: bool)
    requires TryParse(s, patchOptional).Some? && |Pieces(s)| == 2
    ensures IsPlain(TryParse(s, patchOptional).value.min)
    ensures IsPlain(TryParse(s, patchOptional).value.max)
  {
    var ts := Pieces(s);
    var v0 := SemVer.ParseVersion(ts[0], patchOptional);
    var v1 := SemVer.ParseVersion(ts[1], patchOptional);
    assert IsBoundList(ts);
    BoundIsPlain(ts[0], patchOptional);
    BoundIsPlain(ts[1], patchOptional);
    assert ts[0] != "" ==> IsBoundText(ts[0]);
    assert ts[1] != "" ==> IsBoundText(ts[1]);
    assert IsPlain(SemVer.Empty);
  }

  /** No range the parser accepts has a pre-release or metadata on either
      bound: the bound pattern has no room for them. */
  lemma TryParsePlain(s: string, patchOptional: bool)
    requires TryParse(s, patchOptional).Some?
    ensures IsPlain(TryParse(s, patchOptional).value.min)
    ensures IsPlain(TryParse(s, patchOptional).value.max)
  {
    if |Pieces(s)| == 1 {
      TryParsePlainSingle(s, patchOptional);
    } else {
      TryParsePlainPair(s, patchOptional);
    }
  }

  // ---------------------------------------------------------------------
  // Rendering and parsing
  // ---------------------------------------------------------------------

  /** None of the range delimiters. */
  predicate NoDelimiters(t: string) {
    ',' !in t && '(' !in t && ')' !in t && '[' !in t && ']' !in t
  }

  lemma LeftOf(left: string, rest: string)
    requires left == "" || left == "(" || left == "["
    requires |rest| > 0 ==> rest[0] != '(' && rest[0] != '['
    ensures LeftBracket(left + rest) == left
    ensures AfterLeft(left + rest) == rest
  {
    if left != "" {
      assert (left + rest)[0] == left[0];
    } else {
      assert left + rest == rest;
    }
  }

  lemma RightOf(body: string, right: string)
    requires right == "" || right == ")" || right == "]"
    requires |body| > 0 ==> body[|body| - 1] != ')' && body[|body| - 1] != ']'
    ensures RightBracket(body + right) == right
    ensures (body + right)[..|body|] == body
  {
    if right == "" {
      assert body + right == body;
    }
  }

  lemma BracketsOf(left: string, body: string, right: string)
    requires left == "" || left == "(" || left == "["
    requires right == "" || right == ")" || right == "]"
    requires '(' !in body && ')' !in body && '[' !in body && ']' !in body
    ensures LeftBracket(left + body + right) == left
    ensures Right(left + body + right) == right
    ensures Inner(left + body + right) == body
  {
    var rest := body + right;
    BodyEnds(body, right);
    assert left + body + right == left + rest;
    LeftOf(left, rest);
    RightOf(body, right);
  }

  /** The body neither starts with an opening bracket nor ends with a
      closing one. */
  lemma BodyEnds(body: string, right: string)
    requires right == "" || right == ")" || right == "]"
    requires '(' !in body && ')' !in body && '[' !in body && ']' !in body
    ensures |body + right| > 0 ==> (body + right)[0] != '(' && (body + right)[0] != '['
    ensures |body| > 0 ==> body[|body| - 1] != ')' && body[|body| - 1] != ']'
  {
    if |body| > 0 {
      assert body[0] in body && body[|body| - 1] in body;
    }
  }

  /** A string assembled from brackets and ','-separated delimiter-free
      pieces is taken apart into exactly those brackets and pieces. */
  lemma PiecesOf(left: string, ts: seq<string>, right: string)
    requires left == "" || left == "(" || left == "["
    requires right == "" || right == ")" || right == "]"
    requires |ts| >= 1 && forall i :: 0 <= i < |ts| ==> NoDelimiters(ts[i])
    ensures LeftBracket(left + Join(",", ts) + right) == left
    ensures Right(left + Join(",", ts) + right) == right
    ensures Pieces(left + Join(",", ts) + right) == ts
  {
    JoinNotContains(ts, ',', '(');
    JoinNotContains(ts, ',', ')');
    JoinNotContains(ts, ',', '[');
    JoinNotContains(ts, ',', ']');
    BracketsOf(left, Join(",", ts), right);
    SplitJoin(ts, ',');
  }

  /** A plain bound prints as its three numbers, which the bound pattern
      and either version grammar read back. */
  lemma PlainBound(v: Version, patchOptional: bool)
    requires IsPlain(v)
    ensures BoundText(v) == SemVer.NumberText([v.major, v.minor, v.patch])
    ensures IsBoundText(BoundText(v)) && NoDelimiters(BoundText(v)) && !IsBlank(BoundText(v))
    ensures SemVer.ParseVersion(BoundText(v), patchOptional) == Some(v)
  {
    var ns := [v.major, v.minor, v.patch];
    var t := BoundText(v);
    SemVer.ToStringIsRender(v, false);
    assert SemVer.Render(v, false) == SemVer.NumberText(ns) + "" + "";
    assert t == SemVer.NumberText(ns);
    SemVer.SplitNumberText(ns);
    var parts := Split(t, '.');
    assert parts == SemVer.Numerals(ns);
    assert |parts| == 3;
    assert forall i :: 0 <= i < |parts| ==> IsCanonicalNat(parts[i]);
    assert IsBoundText(t);
    SemVer.NumberTextExcludes(ns, ',');
    SemVer.NumberTextExcludes(ns, '(');
    SemVer.NumberTextExcludes(ns, ')');
    SemVer.NumberTextExcludes(ns, '[');
    SemVer.NumberTextExcludes(ns, ']');
    BoundNotBlank(t);
    SemVer.ParseRender(v, patchOptional);
    assert SemVer.Render(v, true) == t;
  }

  /** The shapes whose printed form the parser reads back: an upper bound
      alone with the lower flag off, an exclusive lower bound alone, equal
      bounds both inclusive, or two distinct bounds with any flags. */
  predicate RoundTrips(r: Range) {
    || (SemVer.IsEmpty(r.min) && !SemVer.IsEmpty(r.max) && !r.minInclusive)
    || (!SemVer.IsEmpty(r.min) && SemVer.IsEmpty(r.max) && !r.minInclusive && !r.maxInclusive)
    || (!SemVer.IsEmpty(r.min) && SemVer.Equals(r.min, r.max) && r.minInclusive && r.maxInclusive)
    || (!SemVer.IsEmpty(r.min) && !SemVer.IsEmpty(r.max) && !SemVer.Equals(r.min, r.max))
  }

  /** How a range with only an upper bound prints. */
  lemma PrintedUpper(r: Range)
    requires SemVer.IsEmpty(r.min) && !SemVer.IsEmpty(r.max)
    ensures ToString(r) == "(" + Join(",", ["", BoundText(r.max)]) + (if r.maxInclusive then "]" else ")")
  {
    var t := BoundText(r.max);
    assert Join(",", ["", t]) == "" + "," + t;
  }

  /** How a range with only a lower bound prints: bare when inclusive. */
  lemma PrintedLower(r: Range)
    requires !SemVer.IsEmpty(r.min) && SemVer.IsEmpty(r.max)
    ensures r.minInclusive ==> ToString(r) == "" + Join(",", [BoundText(r.min)]) + ""
    ensures !r.minInclusive ==> ToString(r) == "(" + Join(",", [BoundText(r.min), ""]) + ")"
  {
    var t := BoundText(r.min);
    assert Join(",", [t]) == t;
    assert Join(",", [t, ""]) == t + "," + "";
  }

  /** How a range with equal bounds prints. */
  lemma PrintedEqual(r: Range)
    requires !SemVer.IsEmpty(r.min) && !SemVer.IsEmpty(r.max) && SemVer.Equals(r.min, r.max)
    ensures ToString(r) == "[" + Join(",", [BoundText(r.min)]) + "]"
  {
    assert Join(",", [BoundText(r.min)]) == BoundText(r.min);
  }

  /** How a range with two distinct bounds prints. */
  lemma PrintedPair(r: Range)
    requires !SemVer.IsEmpty(r.min) && !SemVer.IsEmpty(r.max) && !SemVer.Equals(r.min, r.max)
    ensures ToString(r) == (if r.minInclusive then "[" else "(") + Join(",", [BoundText(r.min), BoundText(r.max)])
                           + (if r.maxInclusive then "]" else ")")
  {
    var t0, t1 := BoundText(r.min), BoundText(r.max);
    assert [t0, t1][1..] == [t1];
    assert Join(",", [t0, t1]) == t0 + "," + t1;
  }

  lemma InterpretUpper(t: string, right: string, v: Version, patchOptional: bool)
    requires IsBoundText(t) && !IsBlank(t) && SemVer.ParseVersion(t, patchOptional) == Some(v)
    ensures Interpret("(", ["", t], right, patchOptional) == Some(Until(v, right == "]"))
  {
    assert IsBoundList(["", t]);
  }

  lemma InterpretLower(t: string, v: Version, patchOptional: bool)
    requires IsBoundText(t) && !IsBlank(t) && SemVer.ParseVersion(t, patchOptional) == Some(v)
    ensures Interpret("(", [t, ""], ")", patchOptional) == Some(AtLeast(v, false))
  {
    assert IsBoundList([t, ""]);
  }

  lemma InterpretSingle(left: string, t: string, right: string, v: Version, patchOptional: bool)
    requires IsBoundText(t) && SemVer.ParseVersion(t, patchOptional) == Some(v)
    ensures Interpret(left, [t], right, patchOptional) == if left == "[" && right == "]" then Some(Exactly(v)) else None
  {
    assert IsBoundList([t]);
  }

  lemma InterpretPair(left: string, t0: string, t1: string, right: string, v0: Version, v1: Version, patchOptional: bool)
    requires IsBoundText(t0) && IsBoundText(t1) && !IsBlank(t0) && !IsBlank(t1)
    requires SemVer.ParseVersion(t0, patchOptional) == Some(v0)
    requires SemVer.ParseVersion(t1, patchOptional) == Some(v1)
    ensures Interpret(left, [t0, t1], right, patchOptional) == Some(Range(v0, v1, left == "[", right == "]"))
  {
    assert IsBoundList([t0, t1]);
  }

  /** Parsing an assembled string comes down to interpreting its parts. */
  lemma ParseAssembled(left: string, ts: seq<string>, right: string, patchOptional: bool)
    requires left == "" || left == "(" || left == "["
    requires right == "" || right == ")" || right == "]"
    requires |ts| >= 1 && forall i :: 0 <= i < |ts| ==> NoDelimiters(ts[i])
    ensures TryParse(left + Join(",", ts) + right, patchOptional) == Interpret(left, ts, right, patchOptional)
  {
    PiecesOf(left, ts, right);
  }

  lemma ParseOnePiece(left: string, t: string, right: string, patchOptional: bool)
    requires left == "" || left == "(" || left == "["
    requires right == "" || right == ")" || right == "]"
    requires NoDelimiters(t)
    ensures TryParse(left + Join(",", [t]) + right, patchOptional) == Interpret(left, [t], right, patchOptional)
  {
    var ts := [t];
    forall i | 0 <= i < |ts| ensures NoDelimiters(ts[i]) {
      assert ts[i] == t;
    }
    ParseAssembled(left, ts, right, patchOptional);
  }

  lemma ParseTwoPieces(left: string, t0: string, t1: string, right: string, patchOptional: bool)
    requires left == "" || left == "(" || left == "["
    requires right == "" || right == ")" || right == "]"
    requires NoDelimiters(t0) && NoDelimiters(t1)
    ensures TryParse(left + Join(",", [t0, t1]) + right, patchOptional) == Interpret(left, [t0, t1], right, patchOptional)
  {
    var ts := [t0, t1];
    forall i | 0 <= i < |ts| ensures NoDelimiters(ts[i]) {
      if i == 0 { assert ts[i] == t0; } else { assert ts[i] == t1; }
    }
    ParseAssembled(left, ts, right, patchOptional);
  }

  lemma ParseUpperOnly(r: Range, patchOptional: bool)
    requires IsPlain(r.min) && IsPlain(r.max)
    requires SemVer.IsEmpty(r.min) && !SemVer.IsEmpty(r.max)
    ensures TryParse(ToString(r), patchOptional) == Some(Until(r.max, r.maxInclusive))
  {
    var t := BoundText(r.max);
    var right := if r.maxInclusive then "]" else ")";
    var s := "(" + Join(",", ["", t]) + right;
    assert ToString(r) == s by { PrintedUpper(r); }
    assert TryParse(s, patchOptional) == Some(Until(r.max, r.maxInclusive)) by {
      PlainBound(r.max, patchOptional);
      ParseTwoPieces("(", "", t, right, patchOptional);
      InterpretUpper(t, right, r.max, patchOptional);
    }
  }

  lemma ParseLowerInclusive(r: Range, patchOptional: bool)
    requires IsPlain(r.min) && IsPlain(r.max)
    requires !SemVer.IsEmpty(r.min) && SemVer.IsEmpty(r.max) && r.minInclusive
    ensures TryParse(ToString(r), patchOptional) == None
  {
    var t := BoundText(r.min);
    var s := "" + Join(",", [t]) + "";
    assert ToString(r) == s by { PrintedLower(r); }
    assert TryParse(s, patchOptional) == None by {
      PlainBound(r.min, patchOptional);
      ParseOnePiece("", t, "", patchOptional);
      InterpretSingle("", t, "", r.min, patchOptional);
    }
  }

  lemma ParseLowerExclusive(r: Range, patchOptional: bool)
    requires IsPlain(r.min) && IsPlain(r.max)
    requires !SemVer.IsEmpty(r.min) && SemVer.IsEmpty(r.max) && !r.minInclusive
    ensures TryParse(ToString(r), patchOptional) == Some(AtLeast(r.min, false))
  {
    var t := BoundText(r.min);
    var s := "(" + Join(",", [t, ""]) + ")";
    assert ToString(r) == s by { PrintedLower(r); }
    assert TryParse(s, patchOptional) == Some(AtLeast(r.min, false)) by {
      PlainBound(r.min, patchOptional);
      ParseTwoPieces("(", t, "", ")", patchOptional);
      InterpretLower(t, r.min, patchOptional);
    }
  }

  lemma ParseEqualBounds(r: Range, patchOptional: bool)
    requires IsPlain(r.min) && IsPlain(r.max)
    requires !SemVer.IsEmpty(r.min) && !SemVer.IsEmpty(r.max) && SemVer.Equals(r.min, r.max)
    ensures TryParse(ToString(r), patchOptional) == Some(Exactly(r.min))
  {
    var t := BoundText(r.min);
    var s := "[" + Join(",", [t]) + "]";
    assert ToString(r) == s by { PrintedEqual(r); }
    assert TryParse(s, patchOptional) == Some(Exactly(r.min)) by {
      PlainBound(r.min, patchOptional);
      ParseOnePiece("[", t, "]", patchOptional);
      InterpretSingle("[", t, "]", r.min, patchOptional);
    }
  }

  /** The text a range with two distinct bounds prints as. */
  function PairForm(r: Range): string {
    (if r.minInclusive then "[" else "(") + Join(",", [BoundText(r.min), BoundText(r.max)])
    + (if r.maxInclusive then "]" else ")")
  }

  /** A usable bound text: what `PlainBound` establishes of a printed
      plain bound. */
  predicate ReadsAs(t: string, v: Version, patchOptional: bool) {
    IsBoundText(t) && NoDelimiters(t) && !IsBlank(t) && SemVer.ParseVersion(t, patchOptional) == Some(v)
  }

  lemma ParsePairText(left: string, t0: string, t1: string, right: string, v0: Version, v1: Version, patchOptional: bool)
    requires left == "[" || left == "("
    requires right == "]" || right == ")"
    requires ReadsAs(t0, v0, patchOptional) && ReadsAs(t1, v1, patchOptional)
    ensures TryParse(left + Join(",", [t0, t1]) + right, patchOptional) == Some(Range(v0, v1, left == "[", right == "]"))
  {
    ParseTwoPieces(left, t0, t1, right, patchOptional);
    InterpretPair(left, t0, t1, right, v0, v1, patchOptional);
  }

  lemma ParsePairForm(r: Range, patchOptional: bool)
    requires IsPlain(r.min) && IsPlain(r.max)
    ensures TryParse(PairForm(r), patchOptional) == Some(r)
  {
    var left := if r.minInclusive then "[" else "(";
    var right := if r.maxInclusive then "]" else ")";
    assert ReadsAs(BoundText(r.min), r.min, patchOptional) by { PlainBound(r.min, patchOptional); }
    assert ReadsAs(BoundText(r.max), r.max, patchOptional) by { PlainBound(r.max, patchOptional); }
    ParsePairText(left, BoundText(r.min), BoundText(r.max), right, r.min, r.max, patchOptional);
    assert "(" != "[" && ")" != "]" by {
      assert "("[0] != "["[0] && ")"[0] != "]"[0];
    }
  }

  lemma ParseTwoBounds(r: Range, patchOptional: bool)
    requires IsPlain(r.min) && IsPlain(r.max)
    requires !SemVer.IsEmpty(r.min) && !SemVer.IsEmpty(r.max) && !SemVer.Equals(r.min, r.max)
    ensures TryParse(ToString(r), patchOptional) == Some(r)
  {
    PrintedPair(r);
    ParsePairForm(r, patchOptional);
  }

  /** Printing a range and parsing the text gives the same range back
      exactly for plain bounds in one of the `RoundTrips` shapes; it fails
      for `Any` (printed as ""), for an inclusive lower bound alone
      (printed bare, which the parser refuses) and for every bound with a
      pre-release or metadata. */
  lemma ToStringTryParse(r: Range, patchOptional: bool)
    ensures TryParse(ToString(r), patchOptional) == Some(r) <==>
            IsPlain(r.min) && IsPlain(r.max) && RoundTrips(r)
  {
    if TryParse(ToString(r), patchOptional) == Some(r) {
      TryParsePlain(ToString(r), patchOptional);
    }
    if IsPlain(r.min) && IsPlain(r.max) {
      if SemVer.IsEmpty(r.min) && SemVer.IsEmpty(r.max) {
        assert ToString(r) == "";
        assert Pieces("") == [""];
      } else if SemVer.IsEmpty(r.min) {
        ParseUpperOnly(r, patchOptional);
      } else if SemVer.IsEmpty(r.max) {
        if r.minInclusive {
          ParseLowerInclusive(r, patchOptional);
        } else {
          ParseLowerExclusive(r, patchOptional);
        }
      } else if SemVer.Equals(r.min, r.max) {
        ParseEqualBounds(r, patchOptional);
        assert r.min == r.max;
      } else {
        ParseTwoBounds(r, patchOptional);
      }
    }
  }
}

=== FILE: Versioning.dfy ===
/** What differs between the two copies of the version types: the
    Management copy (namespace XyrusWorx.Management, used by the manifest
    generator) requires `major.minor.patch`, the Shell copy (namespace
    XyrusWorx, in module-src) accepts `major.minor` with the patch
    defaulting to 0; and each computes `CompatibleRange` its own way. */
module Versioning {
  import opened Wrappers
  import opened Text
  import SemVer
  import VersionRange

  type Version = SemVer.Version
  type Range = VersionRange.Range

  datatype Dialect = Management | Shell

  /** Whether the dialect's version pattern makes the patch optional. */
  predicate PatchOptional(d: Dialect) {
    d == Shell
  }

  /** `SemanticVersion.TryParse`: the parsed version, or None where the
      source returns false with the default version. */
  function TryParse(d: Dialect, s: string): (r: Option<Version>)
    ensures r.Some? ==> SemVer.Valid(r.value)
  {
    var r := SemVer.ParseVersion(s, PatchOptional(d));
    if r.Some? then SemVer.RenderParse(s, PatchOptional(d)); r else r
  }

  /** `TryParse` with the source's out-parameter: the default (empty)
      version on failure. */
  function TryParseOrEmpty(d: Dialect, s: string): (v: Version)
    ensures TryParse(d, s).None? ==> v == SemVer.Empty
    ensures TryParse(d, s).Some? ==> v == TryParse(d, s).value
  {
    TryParse(d, s).GetOr(SemVer.Empty)
  }

  /** `SemanticVersion.Parse`: a FormatException where `TryParse` fails. */
  function Parse(d: Dialect, s: string): (r: Result<Version, string>)
    ensures r.Ok? <==> TryParse(d, s).Some?
    ensures r.Ok? ==> SemVer.Valid(r.value) && r.value == TryParse(d, s).value
  {
    match TryParse(d, s)
    case Some(v) => Ok(v)
    case None => Err("FormatException")
  }

  /** `SemanticVersionRange.TryParse` of the dialect's copy. */
  function TryParseRange(d: Dialect, s: string): Option<Range>
  {
    VersionRange.TryParse(s, PatchOptional(d))
  }

  /** `CompatibleRange`. Management: from `major.minor.0` inclusive to
      `(major+1).0.0` exclusive, pre-release and metadata dropped. Shell:
      `Any` for the empty version, otherwise the same but keeping the
      pre-release identifiers on the lower bound. */
  function CompatibleRange(d: Dialect, v: Version): (r: Range)
    ensures d == Shell && SemVer.IsEmpty(v) ==> r == VersionRange.Any
    ensures !(d == Shell && SemVer.IsEmpty(v)) ==> !r.maxInclusive && r.max == SemVer.Version(v.major + 1, 0, 0, [], [])
    ensures r.min.major == v.major && r.min.minor == v.minor && r.min.patch == 0 && r.min.meta == []
    ensures d == Management ==> r.min.pre == []
    ensures d == Shell ==> r.min.pre == v.pre
    ensures r.minInclusive <==> !SemVer.IsEmpty(r.min)
  {
    if d == Shell && SemVer.IsEmpty(v) then VersionRange.Any
    else
      var min := SemVer.Version(v.major, v.minor, 0, if d == Shell then v.pre else [], []);
      var max := SemVer.Version(v.major + 1, 0, 0, [], []);
      VersionRange.BetweenIncludingMinimumWithoutMaximum(min, max)
  }

  // ---------------------------------------------------------------------
  // The accepted language
  // ---------------------------------------------------------------------

  /** The Management grammar accepts exactly the printed forms of the
      versions the constructor admits, and gives back that version. */
  lemma ManagementTryParseExact(s: string, v: Version)
    ensures TryParse(Management, s) == Some(v) <==> SemVer.Valid(v) && s == SemVer.ToString(v, true)
  {
    SemVer.ToStringIsRender(v, true);
    if TryParse(Management, s) == Some(v) {
      SemVer.RenderParse(s, false);
    }
    if SemVer.Valid(v) && s == SemVer.ToString(v, true) {
      SemVer.ParseRender(v, false);
    }
  }

  /** The Shell grammar accepts the same printed forms and, besides, the
      form without a patch, which reads as patch 0. */
  lemma ShellTryParseExact(s: string, v: Version)
    ensures TryParse(Shell, s) == Some(v) <==>
            SemVer.Valid(v) && (s == SemVer.ToString(v, true) || (v.patch == 0 && s == SemVer.RenderTwoPart(v)))
  {
    SemVer.ToStringIsRender(v, true);
    if TryParse(Shell, s) == Some(v) {
      SemVer.RenderParse(s, true);
    }
    if SemVer.Valid(v) && s == SemVer.ToString(v, true) {
      SemVer.ParseRender(v, true);
    }
    if SemVer.Valid(v) && v.patch == 0 && s == SemVer.RenderTwoPart(v) {
      SemVer.ParseRenderTwoPart(v);
    }
  }

  /** Whatever one dialect accepts it prints back unchanged, except the
      Shell's two-part form, which comes back with ".0" appended to the
      numbers. */
  lemma ToStringOfParsed(d: Dialect, s: string)
    requires TryParse(d, s).Some?
    ensures var v := TryParse(d, s).value;
            s == SemVer.ToString(v, true) || (d == Shell && v.patch == 0 && s == SemVer.RenderTwoPart(v))
    ensures d == Management ==> s == SemVer.ToString(TryParse(d, s).value, true)
  {
    SemVer.RenderParse(s, PatchOptional(d));
    SemVer.ToStringIsRender(TryParse(d, s).value, true);
  }

  /** Every string the Management grammar accepts the Shell grammar accepts
      too, with the same result. */
  lemma ManagementWithinShell(s: string)
    requires TryParse(Management, s).Some?
    ensures TryParse(Shell, s) == TryParse(Management, s)
  {
    var v := TryParse(Management, s).value;
    ManagementTryParseExact(s, v);
    ShellTryParseExact(s, v);
  }

  /** "1.2" is read by the Shell grammar as 1.2.0. */
  lemma ShellReadsTwoPart()
    ensures TryParse(Shell, "1.2") == Some(SemVer.Version(1, 2, 0, [], []))
  {
    var v := SemVer.Version(1, 2, 0, [], []);
    assert SemVer.RenderTwoPart(v) == "1.2" by {
      assert NatToString(1) == "1" && NatToString(2) == "2";
      assert SemVer.Numerals([1, 2]) == ["1", "2"];
      assert Join(".", ["1", "2"]) == "1.2" by {
        assert ["1", "2"][1..] == ["2"];
      }
    }
    ShellTryParseExact("1.2", v);
  }

  /** "1.2" is refused by the Management grammar: three groups needed. */
  lemma ManagementRefusesTwoPart()
    ensures TryParse(Management, "1.2") == None
  {
    assert Join(".", ["1", "2"]) == "1.2" by {
      assert ["1", "2"][1..] == ["2"];
    }
    PlainCore("1.2", ["1", "2"]);
  }

  /** "01.2.3" is refused by both grammars: no leading zeros. */
  lemma LeadingZeroRefused(d: Dialect)
    ensures TryParse(d, "01.2.3") == None
  {
    var parts := ["01", "2", "3"];
    assert Join(".", parts) == "01.2.3" by {
      assert parts[1..] == ["2", "3"];
      assert parts[1..][1..] == ["3"];
    }
    PlainCore("01.2.3", parts);
    assert !IsCanonicalNat(parts[0]);
  }

  /** A string of digits and dots only is all number groups: its pieces
      are the '.'-separated groups. */
  lemma PlainCore(s: string, parts: seq<string>)
    requires |parts| >= 1 && (forall i :: 0 <= i < |parts| ==> '.' !in parts[i])
    requires s == Join(".", parts)
    requires '+' !in s && '-' !in s
    ensures SemVer.CorePart(s) == s
    ensures Split(SemVer.CorePart(s), '.') == parts
  {
    SplitJoin(parts, '.');
  }

  // ---------------------------------------------------------------------
  // Compatible ranges
  // ---------------------------------------------------------------------

  /** When both major and minor are 0 the Management lower bound is the
      empty version, so the range collapses to "until 1.0.0, exclusive";
      this happens for the empty version too. */
  lemma ManagementZeroMinor(v: Version)
    requires v.major == 0 && v.minor == 0
    ensures CompatibleRange(Management, v) == VersionRange.Until(SemVer.Version(1, 0, 0, [], []), false)
    ensures VersionRange.ToString(CompatibleRange(Management, v)) == "(,1.0.0)"
  {
    var one := SemVer.Version(1, 0, 0, [], []);
    assert VersionRange.BoundText(one) == "1.0.0" by {
      assert NatToString(1) == "1";
      assert NatToString(0) == "0";
    }
  }

  /** The Shell range is `Any` only for the empty version; a version
      0.0.x without pre-release collapses as in the Management copy. */
  lemma ShellCompatibleShape(v: Version)
    ensures VersionRange.IsEmpty(CompatibleRange(Shell, v)) <==> SemVer.IsEmpty(v)
    ensures !SemVer.IsEmpty(v) && v.major == 0 && v.minor == 0 && v.pre == [] ==>
            CompatibleRange(Shell, v) == VersionRange.Until(SemVer.Version(1, 0, 0, [], []), false)
  {
  }

  /** Whether a version lies between a range's bounds, reading an empty
      bound as absent and each flag as "the bound itself is included"
      (the reading of the bracket notation in NuGet's version ranges). */
  predicate Admits(r: Range, v: Version) {
    && (SemVer.IsEmpty(r.min) || SemVer.CompareTo(v, r.min) > 0 || (SemVer.CompareTo(v, r.min) == 0 && r.minInclusive))
    && (SemVer.IsEmpty(r.max) || SemVer.CompareTo(v, r.max) < 0 || (SemVer.CompareTo(v, r.max) == 0 && r.maxInclusive))
  }

  /** A Shell version always lies in its own compatible range. */
  lemma ShellCompatibleAdmits(v: Version)
    ensures Admits(CompatibleRange(Shell, v), v)
  {
    var r := CompatibleRange(Shell, v);
    if !SemVer.IsEmpty(v) && !SemVer.IsEmpty(r.min) && v.patch == 0 {
      SemVer.CompareToReflexive(r.min);
      SemVer.MetadataIgnored(r.min, r.min, v.meta);
      SemVer.CompareToAntisymmetric(v, r.min);
    }
  }

  /** A Management version lies in its own compatible range unless it is
      a pre-release of `major.minor.0` with major or minor non-zero: the
      lower bound `major.minor.0` drops the pre-release and so ranks above
      the version. */
  lemma ManagementCompatibleAdmits(v: Version)
    ensures Admits(CompatibleRange(Management, v), v) <==>
            !(v.patch == 0 && v.pre != [] && !(v.major == 0 && v.minor == 0))
  {
  }
}

=== FILE: Wrappers.dfy ===
/** Failure-compatible wrappers shared by every module of the model.
    `Option` stands for the source's nullable references and `Result` for
    its success/error outcomes and thrown exceptions. */
module Wrappers {

  datatype Option<+T> = None | Some(value: T) {

    /** The value in Some, or the given default for None (the C# `??`). */
    function GetOr(default: T): T {
      match this
      case Some(v) => v
      case None => default
    }
  }

  datatype Result<+T, +E> = Ok(value: T) | Err(error: E) {

    /** Converts the result to an Option, dropping the error. */
    function ToOption(): Option<T> {
      match this
      case Ok(v) => Some(v)
      case Err(_) => None
    }
  }

  /** The values `f` gives for the elements of `xs` it accepts, in order
      (a LINQ `Where` followed by `Select`). */
  function Collect<A, B>(xs: seq<A>, f: A -> Option<B>): (r: seq<B>)
    ensures |r| <= |xs|
    ensures forall y :: y in r ==> exists x :: x in xs && f(x) == Some(y)
    ensures forall x :: x in xs && f(x).Some? ==> f(x).value in r
  {
    if |xs| == 0 then []
    else
      match f(xs[0])
      case Some(y) => [y] + Collect(xs[1..], f)
      case None => Collect(xs[1..], f)
  }

  /** `f` applied to every element, in order (a LINQ `Select`). */
  function Map<A, B>(xs: seq<A>, f: A -> B): (r: seq<B>)
    ensures |r| == |xs| && forall k :: 0 <= k < |xs| ==> r[k] == f(xs[k])
  {
    seq(|xs|, k requires 0 <= k < |xs| => f(xs[k]))
  }

  /** Concatenation is associative. */
  lemma AppendAssociative<T>(a: seq<T>, b: seq<T>, c: seq<T>)
    ensures a + (b + c) == (a + b) + c
  {
  }

  /** Mapping a concatenation maps its parts. */
  lemma MapAppend<A, B>(a: seq<A>, b: seq<A>, f: A -> B)
    ensures Map(a + b, f) == Map(a, f) + Map(b, f)
  {
    var r := Map(a, f) + Map(b, f);
    forall k | 0 <= k < |a + b| ensures Map(a + b, f)[k] == r[k] {
      if k < |a| {
        assert (a + b)[k] == a[k];
      } else {
        assert (a + b)[k] == b[k - |a|];
      }
    }
  }

  /** A loop over fallible steps that each yield at most one value: the
      values in order when every step succeeds, else the first error. */
  function CollectAll<B, E>(rs: seq<Result<Option<B>, E>>): (r: Result<seq<B>, E>)
    ensures r.Ok? <==> forall k :: 0 <= k < |rs| ==> rs[k].Ok?
    ensures r.Ok? ==> |r.value| <= |rs|
    ensures r.Ok? ==> forall y :: y in r.value ==> exists k :: 0 <= k < |rs| && rs[k] == Ok(Some(y))
    ensures r.Ok? ==> forall k :: 0 <= k < |rs| && rs[k].Ok? && rs[k].value.Some? ==> rs[k].value.value in r.value
    ensures r.Err? ==> exists k :: 0 <= k < |rs| && rs[k] == Err(r.error) && forall j :: 0 <= j < k ==> rs[j].Ok?
  {
    if |rs| == 0 then Ok([])
    else
      match rs[0]
      case Err(e) => Err(e)
      case Ok(y) =>
        var rest := CollectAll(rs[1..]);
        assert forall k :: 1 <= k < |rs| ==> rs[k] == rs[1..][k - 1];
        match rest
        case Err(e) => Err(e)
        case Ok(ys) => Ok((if y.Some? then [y.value] else []) + ys)
  }

  /** Collecting is done element by element: collecting a concatenation
      collects its parts, in order, so no value is reordered, dropped or
      repeated. */
  lemma {:induction false} CollectAppend<A, B>(a: seq<A>, b: seq<A>, f: A -> Option<B>)
    ensures Collect(a + b, f) == Collect(a, f) + Collect(b, f)
  {
    if |a| == 0 {
      assert a + b == b;
    } else {
      assert (a + b)[0] == a[0];
      assert (a + b)[1..] == a[1..] + b;
      CollectAppend(a[1..], b, f);
    }
  }

  /** One element yields its value once, or nothing. */
  lemma CollectSingle<A, B>(x: A, f: A -> Option<B>)
    ensures Collect([x], f) == if f(x).Some? then [f(x).value] else []
  {
    assert [x][1..] == [];
  }

  /** The loop over a concatenation runs over its parts in turn: the
      first part's error wins, then the second part's, and otherwise the
      values follow each other in order. */
  lemma {:induction false} CollectAllAppend<B, E>(a: seq<Result<Option<B>, E>>, b: seq<Result<Option<B>, E>>)
    ensures CollectAll(a + b) == match CollectAll(a)
                                 case Err(e) => Err(e)
                                 case Ok(xs) => match CollectAll(b)
                                                case Err(e) => Err(e)
                                                case Ok(ys) => Ok(xs + ys)
  {
    if |a| == 0 {
      assert a + b == b;
      assert CollectAll(a) == Ok([]);
      if CollectAll(b).Ok? {
        assert [] + CollectAll(b).value == CollectAll(b).value;
      }
    } else {
      var ab := a + b;
      assert ab[0] == a[0];
      assert ab[1..] == a[1..] + b;
      CollectAllAppend(a[1..], b);
      match a[0]
      case Err(e) =>
      case Ok(y) =>
        var head := if y.Some? then [y.value] else [];
        match CollectAll(a[1..])
        case Err(e) =>
        case Ok(xs) =>
          match CollectAll(b)
          case Err(e) =>
          case Ok(ys) =>
            assert CollectAll(ab) == Ok(head + (xs + ys));
            assert CollectAll(a) == Ok(head + xs);
            assert head + (xs + ys) == (head + xs) + ys;
    }
  }

  /** A loop over fallible steps that each yield a list of values: the
      lists joined in order when every step succeeds, else the first
      error. */
  function ConcatAll<B, E>(rs: seq<Result<seq<B>, E>>): (r: Result<seq<B>, E>)
    ensures r.Ok? <==> forall k :: 0 <= k < |rs| ==> rs[k].Ok?
    ensures r.Err? ==> exists k :: 0 <= k < |rs| && rs[k] == Err(r.error) && forall j :: 0 <= j < k ==> rs[j].Ok?
  {
    if |rs| == 0 then Ok([])
    else
      match rs[0]
      case Err(e) => Err(e)
      case Ok(xs) =>
        var rest := ConcatAll(rs[1..]);
        assert forall k :: 1 <= k < |rs| ==> rs[k] == rs[1..][k - 1];
        match rest
        case Err(e) => Err(e)
        case Ok(ys) => Ok(xs + ys)
  }

  /** The loop over a concatenation runs over its parts in turn: the
      first part's error wins, then the second part's, and otherwise the
      lists follow each other in order. */
  lemma {:induction false} ConcatAllAppend<B, E>(a: seq<Result<seq<B>, E>>, b: seq<Result<seq<B>, E>>)
    ensures ConcatAll(a + b) == match ConcatAll(a)
                                case Err(e) => Err(e)
                                case Ok(xs) => match ConcatAll(b)
                                               case Err(e) => Err(e)
                                               case Ok(ys) => Ok(xs + ys)
  {
    if |a| == 0 {
      assert a + b == b;
      assert ConcatAll(a) == Ok([]);
      if ConcatAll(b).Ok? {
        assert [] + ConcatAll(b).value == ConcatAll(b).value;
      }
    } else {
      var ab := a + b;
      assert ab[0] == a[0];
      assert ab[1..] == a[1..] + b;
      ConcatAllAppend(a[1..], b);
      match a[0]
      case Err(e) =>
      case Ok(head) =>
        match ConcatAll(a[1..])
        case Err(e) =>
        case Ok(xs) =>
          match ConcatAll(b)
          case Err(e) =>
          case Ok(ys) =>
            assert ConcatAll(ab) == Ok(head + (xs + ys));
            assert ConcatAll(a) == Ok(head + xs);
            assert head + (xs + ys) == (head + xs) + ys;
    }
  }

  /** One step gives its error or its list. */
  lemma ConcatAllSingle<B, E>(x: Result<seq<B>, E>)
    ensures ConcatAll([x]) == x
  {
    assert [x][1..] == [];
    assert ConcatAll([x][1..]) == Ok([]);
    if x.Ok? {
      assert x.value + [] == x.value;
    }
  }

  /** One step gives its error, or its value once, or nothing. */
  lemma CollectAllSingle<B, E>(x: Result<Option<B>, E>)
    ensures CollectAll([x]) == match x
                               case Err(e) => Err(e)
                               case Ok(y) => Ok(if y.Some? then [y.value] else [])
  {
    assert [x][1..] == [];
    assert CollectAll([x][1..]) == Ok([]);
    if x.Ok? {
      var head := if x.value.Some? then [x.value.value] else [];
      assert head + [] == head;
    }
  }
}

=== FILE: XmlDoc.dfy ===
/** An abstract XML element tree: what the document model reads from a
    parsed project file and what the manifest writer builds. Parsing and
    serialisation are not part of it. */
module XmlDoc {
  import opened Wrappers

  /** An expanded name; the empty namespace stands for "no namespace". */
  datatype QName = QName(local: string, ns: string)

  datatype Attribute = Attribute(name: QName, value: string)

  /** An element: its name, attributes and child elements in document
      order, and the text it holds directly. */
  datatype Element = Element(name: QName, attributes: seq<Attribute>, elements: seq<Element>, text: string)

  /** An element with neither attributes nor child elements. */
  predicate IsLeaf(e: Element) {
    |e.attributes| == 0 && |e.elements| == 0
  }

  /** The concatenated text of the element and its descendants (the
      element's own text first). For a leaf it is its own text. */
  function Value(e: Element): (r: string)
    ensures |e.elements| == 0 ==> r == e.text
    ensures |r| >= |e.text| && r[..|e.text|] == e.text
    decreases e, 1
  {
    e.text + Values(e.elements)
  }

  /** The values of a list of elements, concatenated. */
  function Values(es: seq<Element>): string
    decreases es, 0
  {
    if |es| == 0 then "" else Value(es[0]) + Values(es[1..])
  }

  /** An element with a name and attributes only. */
  function Empty(name: QName, attributes: seq<Attribute>): (e: Element)
    ensures IsLeaf(e) <==> |attributes| == 0
    ensures Value(e) == ""
  {
    Element(name, attributes, [], "")
  }

  /** An element holding only text. */
  function TextElement(name: QName, text: string): (e: Element)
    ensures IsLeaf(e) && Value(e) == text
  {
    Element(name, [], [], text)
  }

  // ---------------------------------------------------------------------
  // Navigation (LINQ to XML)
  // ---------------------------------------------------------------------

  /** `XContainer.Descendants()`: every element below `e`, in document
      order (pre-order), `e` itself excluded. */
  function Descendants(e: Element): (r: seq<Element>)
    ensures forall c :: c in e.elements ==> c in r
    decreases e, 1
  {
    DescendantsOf(e.elements)
  }

  /** The given elements, each followed by its descendants. */
  function DescendantsOf(es: seq<Element>): (r: seq<Element>)
    ensures forall c :: c in es ==> c in r
    decreases es, 0
  {
    if |es| == 0 then []
    else
      var r := [es[0]] + Descendants(es[0]) + DescendantsOf(es[1..]);
      assert forall c :: c in es ==> c == es[0] || c in es[1..];
      r
  }

  /** A descendant of a descendant is a descendant. */
  lemma {:induction false} DescendantsTransitive(e: Element, c: Element, d: Element)
    requires c in Descendants(e) && d in Descendants(c)
    ensures d in Descendants(e)
    decreases e, 1
  {
    DescendantsOfTransitive(e.elements, c, d);
  }

  lemma {:induction false} DescendantsOfTransitive(es: seq<Element>, c: Element, d: Element)
    requires c in DescendantsOf(es) && d in Descendants(c)
    ensures d in DescendantsOf(es)
    decreases es, 0
  {
    if |es| > 0 {
      var r := [es[0]] + Descendants(es[0]) + DescendantsOf(es[1..]);
      assert DescendantsOf(es) == r;
      if c == es[0] {
      } else if c in Descendants(es[0]) {
        DescendantsTransitive(es[0], c, d);
      } else {
        DescendantsOfTransitive(es[1..], c, d);
      }
    }
  }

  /** The elements of `es` named `name`, in order (`Descendants(name)` is
      `Named(Descendants(e), name)`). */
  function Named(es: seq<Element>, name: QName): (r: seq<Element>)
    ensures |r| <= |es|
    ensures forall x :: x in r <==> x in es && x.name == name
  {
    if |es| == 0 then []
    else
      var rest := Named(es[1..], name);
      assert forall x :: x in es ==> x == es[0] || x in es[1..];
      if es[0].name == name then [es[0]] + rest else rest
  }

  /** `FirstOrDefault` of the elements named `name`: the earliest one, or
      None (null) when there is none. */
  function FirstNamed(es: seq<Element>, name: QName): (r: Option<Element>)
    ensures r.None? <==> forall i :: 0 <= i < |es| ==> es[i].name != name
    ensures r.Some? ==> exists i :: 0 <= i < |es| && es[i] == r.value && r.value.name == name &&
                                    forall j :: 0 <= j < i ==> es[j].name != name
  {
    if |es| == 0 then None
    else if es[0].name == name then Some(es[0])
    else
      var r := FirstNamed(es[1..], name);
      assert forall i :: 1 <= i < |es| ==> es[i] == es[1..][i - 1];
      r
  }

  /** The first element with a name is the first of the elements with
      that name. */
  lemma {:induction false} FirstNamedIsFirstOfNamed(es: seq<Element>, name: QName)
    ensures FirstNamed(es, name) == if |Named(es, name)| == 0 then None else Some(Named(es, name)[0])
  {
    if |es| > 0 && es[0].name != name {
      FirstNamedIsFirstOfNamed(es[1..], name);
    }
  }

  /** `XElement.Attribute(name)?.Value`: the value of the attribute named
      `name`, None (null) when there is none. */
  function AttributeValue(e: Element, name: QName): (r: Option<string>)
    ensures r.None? <==> forall i :: 0 <= i < |e.attributes| ==> e.attributes[i].name != name
    ensures r.Some? ==> exists i :: 0 <= i < |e.attributes| && e.attributes[i] == Attribute(name, r.value)
  {
    AttributeIn(e.attributes, name)
  }

  function AttributeIn(attributes: seq<Attribute>, name: QName): (r: Option<string>)
    ensures r.None? <==> forall i :: 0 <= i < |attributes| ==> attributes[i].name != name
    ensures r.Some? ==> exists i :: 0 <= i < |attributes| && attributes[i] == Attribute(name, r.value)
  {
    if |attributes| == 0 then None
    else if attributes[0].name == name then Some(attributes[0].value)
    else
      var r := AttributeIn(attributes[1..], name);
      assert forall i :: 1 <= i < |attributes| ==> attributes[i] == attributes[1..][i - 1];
      r
  }

  /** `XElement.Element(name)?.Value`: the value of the first child
      element named `name`, None (null) when there is none. */
  function ChildValue(e: Element, name: QName): (r: Option<string>)
    ensures r.None? <==> forall i :: 0 <= i < |e.elements| ==> e.elements[i].name != name
    ensures r.Some? ==> r == Some(Value(FirstNamed(e.elements, name).value))
  {
    match FirstNamed(e.elements, name)
    case None => None
    case Some(c) => Some(Value(c))
  }
}

=== FILE: XmlNodes.dfy ===
/** The read-only document model `XmlNode` (XmlNode.cs): a node built from
    an element keeps its attributes and text-only child elements as named
    values, and its other child elements as child nodes, both keyed by
    (local name, namespace) and kept in document order. Lookups never fail:
    absent values are empty lists and absent children a placeholder. */
module XmlNodes {
  import opened Wrappers
  import opened Text
  import opened Grouping
  import opened XmlDoc

  /** The namespace key used where neither the name nor the node has one. */
  const DefaultNamespace: string := "<default>"

  /** A lookup key: local name and namespace, compared exactly. */
  datatype Key = Key(name: string, ns: string)

  /** A node: its identifier, its namespace key ("" only for placeholders),
      its values (null-normalised), its child nodes and its raw text (None
      for placeholders). */
  datatype Node = Node(
    identifier: string,
    ns: string,
    values: Groups<Key, Option<string>>,
    children: Groups<Key, Node>,
    text: Option<string>)

  /** The node the source exposes as `XmlNode.Blank`. */
  const Blank: Node := Node("", "", [], [], None)

  /** The node `Child` returns for a missing child: it carries the asked-for
      identifier and nothing else. */
  function Placeholder(identifier: string): (n: Node)
    ensures n.identifier == identifier && n.ns == ""
  {
    Node(identifier, "", [], [], None)
  }

  /** The namespace a lookup or a name resolves to: the given one when it
      is non-empty, else the node's own, else the default key. */
  function Resolve(ns: string, current: string): (r: string)
    ensures r != ""
    ensures ns != "" ==> r == ns
    ensures ns == "" ==> r == (if current != "" then current else DefaultNamespace)
  {
    if ns != "" then ns else if current != "" then current else DefaultNamespace
  }

  /** The key of an attribute or child element name inside a node whose
      namespace key is `current`. */
  function KeyOf(name: QName, current: string): Key {
    Key(name.local, Resolve(name.ns, current))
  }

  // ---------------------------------------------------------------------
  // Building a node
  // ---------------------------------------------------------------------

  /** The attribute values in document order, each under its key. */
  function AttributeEntries(attrs: seq<Attribute>, current: string): (r: seq<(Key, Option<string>)>)
    ensures |r| == |attrs|
    ensures forall i :: 0 <= i < |attrs| ==> r[i] == (KeyOf(attrs[i].name, current), NormalizeNull(attrs[i].value))
  {
    if |attrs| == 0 then []
    else [(KeyOf(attrs[0].name, current), NormalizeNull(attrs[0].value))] + AttributeEntries(attrs[1..], current)
  }

  /** The values of the text-only child elements in document order. */
  function LeafEntries(es: seq<Element>, current: string): seq<(Key, Option<string>)> {
    if |es| == 0 then []
    else
      (if IsLeaf(es[0]) then [(KeyOf(es[0].name, current), NormalizeNull(Value(es[0])))] else [])
      + LeafEntries(es[1..], current)
  }

  /** The nodes of the other child elements in document order. */
  function ChildEntries(es: seq<Element>, current: string): seq<(Key, Node)>
    decreases es, 0
  {
    if |es| == 0 then []
    else
      (if IsLeaf(es[0]) then [] else [(KeyOf(es[0].name, current), Build(es[0]))])
      + ChildEntries(es[1..], current)
  }

  /** The node of an element (the `XmlNode(XElement)` constructor). */
  function Build(e: Element): (n: Node)
    ensures n.identifier == e.name.local
    ensures n.ns != "" && (e.name.ns != "" ==> n.ns == e.name.ns) && (e.name.ns == "" ==> n.ns == DefaultNamespace)
    ensures n.text == Some(Value(e))
    ensures WellFormed(n.values) && WellFormed(n.children)
    decreases e, 1
  {
    var ns := Resolve(e.name.ns, "");
    var values := AttributeEntries(e.attributes, ns) + LeafEntries(e.elements, ns);
    var children := ChildEntries(e.elements, ns);
    GroupedWellFormed(values);
    GroupedWellFormed(children);
    Node(e.name.local, ns, Grouped(values), Grouped(children), Some(Value(e)))
  }

  // ---------------------------------------------------------------------
  // Lookups
  // ---------------------------------------------------------------------

  /** `HasValue(identifier, namespace)`. */
  predicate HasValue(n: Node, identifier: string, ns: string) {
    Key(identifier, Resolve(ns, n.ns)) in Keys(n.values)
  }

  /** `HasChild(identifier, namespace)`. */
  predicate HasChild(n: Node, identifier: string, ns: string) {
    Key(identifier, Resolve(ns, n.ns)) in Keys(n.children)
  }

  /** `Values(identifier, namespace)`: never null, empty when absent. */
  function ValuesOf(n: Node, identifier: string, ns: string): seq<Option<string>> {
    Lookup(n.values, Key(identifier, Resolve(ns, n.ns)))
  }

  /** `Value(identifier, namespace)`: the first value, or null. */
  function ValueOf(n: Node, identifier: string, ns: string): (r: Option<string>)
    ensures |ValuesOf(n, identifier, ns)| > 0 ==> r == ValuesOf(n, identifier, ns)[0]
    ensures |ValuesOf(n, identifier, ns)| == 0 ==> r.None?
  {
    var vs := ValuesOf(n, identifier, ns);
    if |vs| == 0 then None else vs[0]
  }

  /** `Value()`: the node's text, null-normalised. */
  function TextValue(n: Node): (r: Option<string>)
    ensures n.text.None? ==> r.None?
    ensures n.text.Some? ==> (r.None? <==> IsBlank(n.text.value))
    ensures r.Some? ==> r == n.text
  {
    match n.text
    case None => None
    case Some(t) => NormalizeNull(t)
  }

  /** The local names holding values in namespace `ns`. */
  function NamesIn(n: Node, ns: string): set<string> {
    set i | 0 <= i < |n.values| && n.values[i].0.ns == ns :: n.values[i].0.name
  }

  /** `Values(namespace)`: local name to values for the keys in the
      resolved namespace. */
  function ValuesIn(n: Node, ns: string): map<string, seq<Option<string>>> {
    var resolved := Resolve(ns, n.ns);
    map name | name in NamesIn(n, resolved) :: Lookup(n.values, Key(name, resolved))
  }

  /** `Children(identifier, namespace)`: never null, empty when absent. */
  function ChildrenOf(n: Node, identifier: string, ns: string): seq<Node> {
    Lookup(n.children, Key(identifier, Resolve(ns, n.ns)))
  }

  /** `Child(identifier, namespace)`: the first such child, or a
      placeholder carrying the identifier. */
  function Child(n: Node, identifier: string, ns: string): (r: Node)
    ensures |ChildrenOf(n, identifier, ns)| > 0 ==> r == ChildrenOf(n, identifier, ns)[0]
    ensures |ChildrenOf(n, identifier, ns)| == 0 ==> r == Placeholder(identifier)
  {
    var cs := ChildrenOf(n, identifier, ns);
    if |cs| == 0 then Placeholder(identifier) else cs[0]
  }

  /** `Children()`: every child node, group after group. */
  function AllChildren(n: Node): seq<Node> {
    Flatten(n.children)
  }

  // ---------------------------------------------------------------------
  // Properties
  // ---------------------------------------------------------------------

  /** The values under a key are the attribute values with that key, then
      the text-only child elements with that key, in document order;
      nothing is overwritten. */
  lemma ValuesInDocumentOrder(e: Element, identifier: string, ns: string)
    ensures var n := Build(e);
            var k := Key(identifier, Resolve(ns, n.ns));
            ValuesOf(n, identifier, ns) ==
              Select(AttributeEntries(e.attributes, n.ns), k) + Select(LeafEntries(e.elements, n.ns), k)
  {
    var n := Build(e);
    var k := Key(identifier, Resolve(ns, n.ns));
    GroupedLookup(AttributeEntries(e.attributes, n.ns) + LeafEntries(e.elements, n.ns), k);
    SelectConcat(AttributeEntries(e.attributes, n.ns), LeafEntries(e.elements, n.ns), k);
  }

  /** The children under a key are the nodes of the child elements with
      that key that have attributes or elements, in document order. */
  lemma ChildrenInDocumentOrder(e: Element, identifier: string, ns: string)
    ensures var n := Build(e);
            ChildrenOf(n, identifier, ns) == Select(ChildEntries(e.elements, n.ns), Key(identifier, Resolve(ns, n.ns)))
  {
    var n := Build(e);
    GroupedLookup(ChildEntries(e.elements, n.ns), Key(identifier, Resolve(ns, n.ns)));
  }

  lemma {:induction false} LeafEntriesConcat(a: seq<Element>, b: seq<Element>, current: string)
    ensures LeafEntries(a + b, current) == LeafEntries(a, current) + LeafEntries(b, current)
  {
    if |a| > 0 {
      assert (a + b)[1..] == a[1..] + b;
      LeafEntriesConcat(a[1..], b, current);
    } else {
      assert a + b == b;
    }
  }

  /** A text-only child element becomes a value of its parent and never a
      child node; any other child element becomes a child node and never a
      value. */
  lemma {:induction false} LeafBecomesValue(es: seq<Element>, current: string, i: nat)
    requires i < |es|
    ensures IsLeaf(es[i]) ==> (KeyOf(es[i].name, current), NormalizeNull(Value(es[i]))) in LeafEntries(es, current)
    ensures !IsLeaf(es[i]) ==> (KeyOf(es[i].name, current), Build(es[i])) in ChildEntries(es, current)
    ensures |LeafEntries(es, current)| + |ChildEntries(es, current)| == |es|
  {
    LeafInEntries(es, current, i);
    NodeInEntries(es, current, i);
    EntriesPartition(es, current);
  }

  lemma {:induction false} LeafInEntries(es: seq<Element>, current: string, i: nat)
    requires i < |es|
    ensures IsLeaf(es[i]) ==> (KeyOf(es[i].name, current), NormalizeNull(Value(es[i]))) in LeafEntries(es, current)
  {
    if i > 0 {
      LeafInEntries(es[1..], current, i - 1);
      assert es[1..][i - 1] == es[i];
    }
  }

  lemma {:induction false} NodeInEntries(es: seq<Element>, current: string, i: nat)
    requires i < |es|
    ensures !IsLeaf(es[i]) ==> (KeyOf(es[i].name, current), Build(es[i])) in ChildEntries(es, current)
  {
    var head := if IsLeaf(es[0]) then [] else [(KeyOf(es[0].name, current), Build(es[0]))];
    assert ChildEntries(es, current) == head + ChildEntries(es[1..], current);
    if i > 0 {
      NodeInEntries(es[1..], current, i - 1);
      assert es[1..][i - 1] == es[i];
    }
  }

  lemma {:induction false} EntriesPartition(es: seq<Element>, current: string)
    ensures |LeafEntries(es, current)| + |ChildEntries(es, current)| == |es|
  {
    if |es| > 0 {
      EntriesPartition(es[1..], current);
    }
  }

  /** In a built node a key is present exactly when it has values (or
      children): lists are never left empty. */
  lemma PresentIffNonEmpty(e: Element, identifier: string, ns: string)
    ensures var n := Build(e);
            && (HasValue(n, identifier, ns) <==> |ValuesOf(n, identifier, ns)| > 0)
            && (HasChild(n, identifier, ns) <==> |ChildrenOf(n, identifier, ns)| > 0)
  {
    var n := Build(e);
    LookupNonEmpty(n.values, Key(identifier, Resolve(ns, n.ns)));
    LookupNonEmpty(n.children, Key(identifier, Resolve(ns, n.ns)));
  }

  /** The first value under a key comes from an attribute when there is
      one with that key, else from the first text-only child element. */
  lemma ValueOfPrefersAttributes(e: Element, identifier: string, ns: string)
    ensures var n := Build(e);
            var k := Key(identifier, Resolve(ns, n.ns));
            var fromAttributes := Select(AttributeEntries(e.attributes, n.ns), k);
            var fromElements := Select(LeafEntries(e.elements, n.ns), k);
            && (|fromAttributes| > 0 ==> ValueOf(n, identifier, ns) == fromAttributes[0])
            && (|fromAttributes| == 0 && |fromElements| > 0 ==> ValueOf(n, identifier, ns) == fromElements[0])
            && (|fromAttributes| == 0 && |fromElements| == 0 ==> ValueOf(n, identifier, ns) == None)
  {
    ValuesInDocumentOrder(e, identifier, ns);
  }

  /** An unqualified lookup in a built node reads the node's own
      namespace; an unqualified attribute or child name is filed there. */
  lemma UnqualifiedLookup(e: Element, identifier: string)
    ensures var n := Build(e);
            && ValuesOf(n, identifier, "") == ValuesOf(n, identifier, n.ns)
            && ChildrenOf(n, identifier, "") == ChildrenOf(n, identifier, n.ns)
            && KeyOf(QName(identifier, ""), n.ns) == Key(identifier, n.ns)
  {
  }

  /** A placeholder has no values, no children and no text, whatever is
      asked, and it reads unqualified names in the default namespace. */
  lemma PlaceholderIsEmpty(identifier: string, id: string, ns: string)
    ensures var p := Placeholder(identifier);
            && !HasValue(p, id, ns) && !HasChild(p, id, ns)
            && ValuesOf(p, id, ns) == [] && ValueOf(p, id, ns) == None
            && ChildrenOf(p, id, ns) == [] && Child(p, id, ns) == Placeholder(id)
            && AllChildren(p) == [] && TextValue(p) == None
            && Resolve("", p.ns) == DefaultNamespace
  {
  }

  /** A missing child is answered by the placeholder, a present one by the
      first matching child. */
  lemma ChildOrPlaceholder(n: Node, identifier: string, ns: string)
    requires WellFormed(n.children)
    ensures !HasChild(n, identifier, ns) <==> Child(n, identifier, ns) == Placeholder(identifier) && |ChildrenOf(n, identifier, ns)| == 0
    ensures HasChild(n, identifier, ns) ==> Child(n, identifier, ns) in AllChildren(n)
  {
    var k := Key(identifier, Resolve(ns, n.ns));
    LookupNonEmpty(n.children, k);
    if HasChild(n, identifier, ns) {
      LookupInFlatten(n.children, k);
      assert ChildrenOf(n, identifier, ns)[0] in multiset(ChildrenOf(n, identifier, ns));
    }
  }

  /** `Values(namespace)` holds exactly the names with values in the
      resolved namespace, each with the list the keyed lookup returns. */
  lemma ValuesInAgrees(n: Node, ns: string, identifier: string)
    requires WellFormed(n.values)
    ensures identifier in ValuesIn(n, ns) <==> HasValue(n, identifier, ns)
    ensures identifier in ValuesIn(n, ns) ==> ValuesIn(n, ns)[identifier] == ValuesOf(n, identifier, ns)
    ensures identifier in ValuesIn(n, ns) ==> |ValuesIn(n, ns)[identifier]| > 0
  {
    var resolved := Resolve(ns, n.ns);
    var k := Key(identifier, resolved);
    LookupNonEmpty(n.values, k);
    if HasValue(n, identifier, ns) {
      var i :| 0 <= i < |n.values| && Keys(n.values)[i] == k;
      assert identifier in NamesIn(n, resolved);
    }
    if identifier in NamesIn(n, resolved) {
      var i :| 0 <= i < |n.values| && n.values[i].0.ns == resolved && n.values[i].0.name == identifier;
      assert Keys(n.values)[i] == k;
    }
  }

  /** `Children()` holds every child node exactly once: the nodes of the
      child elements that have attributes or elements. */
  lemma AllChildrenComplete(e: Element)
    ensures var n := Build(e);
            multiset(AllChildren(n)) == multiset(EntryValues(ChildEntries(e.elements, n.ns)))
  {
    GroupedFlatten(ChildEntries(e.elements, Build(e).ns));
  }
}
